=== FILE: README.md ===
# Blog management: a verified model of the auth and post core

This project models the core of a blog platform made of two halves:

- **Backend (Django REST framework).**
  - A custom user with e-mail verification and password-reset secrets.
  - JWT access tokens.
  - A bearer-token authentication class and an authentication middleware that gates `/api/` paths.
  - A CORS middleware.
  - Registration, login, reset and profile serializers.
  - Posts with categories and tags, with unique slugs, excerpts and publish/unpublish transitions.
  - Post viewsets, including pagination and per-author listings.
- **Frontend (Next.js with Zustand stores).**
  - The axios client: its token storage, interceptors and create/update payload building.
  - The auth store and the blog store.
  - The post list's pagination controls.
  - The search bar's suggestion list.
  - The post form: tag toggling, the image limit, the automatic excerpt and submission.

Everything is written as pure functions over immutable datatypes.

- **Tables.** The database tables are sequences of rows. User lookups can therefore tell apart zero, one or many matches.
- **Time.** The clock is an integer count of seconds, passed in as `now`.
- **Oracles.** Anything the code delegates to code outside the repository is a function parameter:
  - JWT signing (`Jwt.Codec`);
  - `slugify`;
  - password hashing and checking;
  - Django's password validators;
  - the e-mail validator;
  - the username character validator;
  - fresh random tokens.
- **Asynchronous store actions.** Each is modelled by the state it settles in. The blog store takes the server reply as an `Option`, where `None` means the request failed. The auth store takes a `Settled` value: the reply, or the failure the response interceptor handled first, whose effect on local storage the action keeps.
- **Form rules.** The post form submits only when react-hook-form's field rules pass (title 5 to 200 characters, content at least 50, excerpt at most 300).

Modules follow the source files:

| module | source |
|---|---|
| `Users` | the user model's secret handling |
| `AuthServices` | the e-mail/token services |
| `Jwt` | JWT utilities |
| `DrfAuth` | the DRF authentication class |
| `Gate` | the JWT, exception and CORS middleware |
| `Fields` | DRF `CharField` running: trimming, required, blank, length |
| `AuthSerializers` | the authentication serializers |
| `BlogModels` | the blog models |
| `PostSerializers` | the post create and update serializers |
| `BlogViews` | the blog viewsets |
| `ApiClient` | `lib/api.ts` |
| `AuthStore` | `store/authStore.ts` |
| `BlogStore` | `store/blogStore.ts` |
| `PostList`, `SearchBar`, `PostForm` | the components of the same names |
| `Flows` | properties that cross the client/server boundary |

`Wrappers`, `Text`, `Seqs` and `ClientTypes` are shared helpers.

## Model

| member | source | states |
|---|---|---|
| Users.FullNameParts | backend/apps/authentication/models.py:61-70 | With both names set the full name is "first last" (one space between); with one name set it is that name; with neither it is the username. It is never empty when a name is set. |
| Users.ShortNameStartsFullName | backend/apps/authentication/models.py:61-74 | The short name is a prefix of the full name. The exception is a user with only a last name, whose short name is the username. |
| Users.DisplayNameIsFullName | backend/apps/authentication/models.py:123-126 | The `or self.username` fallback of `display_name` never changes the result, because the full name already falls back to the username. |
| Users.GenerateVerificationToken | backend/apps/authentication/models.py:76-82 | Stores the new token with an expiry 24 hours after now and returns it. The stored secret then accepts that token. Nothing else on the user changes. |
| Users.VerifyEmail | backend/apps/authentication/models.py:84-94 | Succeeds exactly when the stored token matches and has not expired. On success it marks the address verified and clears the secret. On failure it changes nothing. |
| Users.IssueThenVerify | backend/apps/authentication/models.py:76-94 | A freshly issued verification token verifies exactly at the instants strictly before issue + 24h. |
| Users.VerifyEmailSingleUse | backend/apps/authentication/models.py:84-94 | A token that has just verified cannot verify a second time. |
| Users.ReissueInvalidates | backend/apps/authentication/models.py:76-94 | After a different token is issued, the earlier token no longer verifies. |
| Users.GeneratePasswordResetToken | backend/apps/authentication/models.py:96-102 | Stores the new reset token with a one-hour expiry. The token is accepted right after issue, and only the reset secret changes. |
| Users.VerifyPasswordResetToken | backend/apps/authentication/models.py:104-110 | True only for the stored, unexpired token. Every other token is refused. |
| Users.ClearPasswordResetToken | backend/apps/authentication/models.py:112-116 | After clearing, no token verifies at any time, and only the reset secret changed. |
| Users.ResetTokenLifetime | backend/apps/authentication/models.py:96-116 | A reset token is accepted strictly before issue + 1h and refused from then on. After clearing it is refused. |
| Users.SecretOpsKeepPairing | backend/apps/authentication/models.py:76-116 | Every secret operation keeps each token paired with its expiry: both set or both cleared. |
| Users.FindById | backend/apps/authentication/jwt_utils.py:66-75 | Returns a user row with that id, and returns nothing exactly when no row has it. |
| Users.FindByIdUnique | backend/apps/authentication/jwt_utils.py:66-75 | With unique ids, looking up a row's id finds that row. |
| Users.FindByEmail | backend/apps/authentication/serializers.py:100-110 | Returns a row with that e-mail, and returns nothing exactly when no row has it. |
| AuthServices.SendVerificationEmail | backend/apps/authentication/services.py:21-68 | The token is stored whether or not the mail goes out. The result reports delivery. |
| AuthServices.SendPasswordResetEmail | backend/apps/authentication/services.py:70-117 | The reset token is stored with a one-hour expiry whatever the mail outcome. The result reports delivery. |
| AuthServices.VerifyEmailToken | backend/apps/authentication/services.py:119-145 | Finds the single unverified user whose live token matches and marks that user verified with the secret cleared. With no such user the table is unchanged. |
| AuthServices.VerifyEmailTokenAgreesWithModel | backend/apps/authentication/services.py:119-145 | The service's update of the found row is exactly the model method `verify_email` applied to that row. |
| AuthServices.VerifiedUserNeverMatches | backend/apps/authentication/services.py:129-133 | The lookup filters on `is_email_verified=False`, so an already verified user is never the match. |
| AuthServices.VerifyEmailTokenSingleUse | backend/apps/authentication/services.py:119-145 | After a verification, the same token finds nobody at any later time. |
| AuthServices.FindResetToken | backend/apps/authentication/services.py:147-165 | Reports NotFound exactly when no row holds the token live. Found gives the one matching row. MultipleFound is reported when two rows match. |
| AuthServices.ClearResetRow | backend/apps/authentication/services.py:167-176 | Clears the reset secret of that row and leaves every other row as it was. |
| AuthServices.ResetLookupThenClearIsSingleUse | backend/apps/authentication/services.py:147-176 | Once the found row is cleared, the token is not found again. |
| AuthServices.IssuedResetTokenIsFound | backend/apps/authentication/services.py:70-85 | A reset token just issued to a row is found for that row before expiry, even when the mail failed. |
| Jwt.MintClaims | backend/apps/authentication/jwt_utils.py:20-27 | The payload carries the user's id, e-mail and username, `iat` = now, `exp` = now + 1h, and the type "access". |
| Jwt.Decode | backend/apps/authentication/jwt_utils.py:35-54 | Succeeds exactly for a correctly signed, unexpired token and returns its claims. Otherwise it fails with the expired or invalid message, chosen by whether the signature held. |
| Jwt.DecodeMinted | backend/apps/authentication/jwt_utils.py:10-54 | A minted token decodes to its own claims before expiry and fails as expired afterwards. |
| Jwt.GetUserFromToken | backend/apps/authentication/jwt_utils.py:56-79 | Returns the table row whose id is the decoded `user_id`. Returns nothing when decoding fails, the id is absent or zero, or no row has it. |
| Jwt.MintThenGetUser | backend/apps/authentication/jwt_utils.py:10-79 | A live token minted for a row resolves back to that row. |
| Jwt.ExpiredTokenGetsNoUser | backend/apps/authentication/jwt_utils.py:56-95 | An expired token resolves to no user and is not valid. |
| Jwt.IsTokenValid | backend/apps/authentication/jwt_utils.py:81-95 | Valid exactly when the signature verifies and the token is unexpired. |
| Jwt.GetTokenExpiration | backend/apps/authentication/jwt_utils.py:97-111 | Gives the `exp` claim, which lies in the future, exactly for valid tokens that carry one. Invalid tokens give none. |
| Jwt.MintedExpiration | backend/apps/authentication/jwt_utils.py:10-111 | A live minted token reports its expiry as issue + 1h. |
| DrfAuth.BearerToken | backend/apps/authentication/authentication.py:27 | The token is the second space-separated piece of the header. It contains no space and occurs inside the header. |
| DrfAuth.Authenticate | backend/apps/authentication/authentication.py:13-37 | Headers not starting with "Bearer " are anonymous. Otherwise it authenticates exactly when the token resolves to an active user, and otherwise fails with the generic message. |
| DrfAuth.LowerCaseSchemeIsAnonymous | backend/apps/authentication/authentication.py:23 | The scheme check is case-sensitive: "bearer …" is treated as anonymous, not as a failure. |
| DrfAuth.MintedTokenAuthenticates | backend/apps/authentication/authentication.py:13-37 | "Bearer " plus a live token minted for an active row authenticates that row. |
| DrfAuth.AuthenticateHeader | backend/apps/authentication/authentication.py:39-44 | The challenge is exactly `Bearer realm="api"`: the Bearer scheme and the realm "api". |
| Gate.Deny | backend/apps/core/middleware.py:45-86 | A refusal is a 401 JSON response on `/api/` paths and passes through elsewhere. |
| Gate.ProcessRequest | backend/apps/core/middleware.py:18-88 | Excluded paths pass. Rejections occur only on non-excluded `/api/` paths and are always 401. A missing header gives "authentication_required". A non-empty header that is not two parts starting with "bearer" gives "invalid_auth_header". A token that fails validation gives "invalid_token". A user is attached only for a well-formed bearer header with a valid token. |
| Gate.NonApiNeverRejected | backend/apps/core/middleware.py:45-86 | Paths outside `/api/` are never rejected. |
| Gate.SchemeAloneRejected | backend/apps/core/middleware.py:55-63 | "Bearer " with no token is rejected as a malformed header. |
| Gate.SchemeCaseInsensitive | backend/apps/core/middleware.py:55-57 | The middleware, unlike the DRF class, accepts the scheme in any letter case. |
| Gate.ExpiredTokenRejected | backend/apps/core/middleware.py:66-74 | An expired token is rejected as invalid or expired. |
| Gate.DeletedUserAttachesNone | backend/apps/core/middleware.py:76-88 | A valid token whose user row is gone attaches no user, and the request is not rejected. |
| Gate.ProcessException | backend/apps/core/middleware.py:128-144 | On `/api/` paths the exception becomes a 500 JSON body, which carries the exception text only in debug mode. Elsewhere it is not handled. |
| Gate.AddCors | backend/apps/core/middleware.py:151-161 | Adds exactly the four CORS headers for the frontend origin and keeps every other header. |
| Gate.AddCorsIdempotent | backend/apps/core/middleware.py:151-161 | Adding the CORS headers twice is the same as once. |
| Gate.Preflight | backend/apps/core/middleware.py:163-175 | Only OPTIONS requests are answered directly, and that answer carries the CORS headers. |
| Fields.BuiltinErrors | backend/apps/authentication/serializers.py:21-39 | The declared length bounds and the NUL-character check produce no message exactly when the value respects them. A violated bound yields its message. |
| Fields.RunField | backend/apps/authentication/serializers.py:21-39 | A missing value is an error only for a required field. A blank value is accepted only with `allow_blank`. An accepted value is the trimmed input. |
| Fields.AcceptedValue | backend/apps/authentication/serializers.py:21-39 | An accepted non-blank value is the trimmed input, within the declared bounds and free of NUL. |
| Fields.Record | backend/apps/authentication/serializers.py:11-76 | The error map gains the field's messages under its own name, keeps every other entry, and stays empty only when no field failed. |
| AuthSerializers.StrengthError | backend/apps/authentication/serializers.py:54-62 | Reports the first missing character class in the order upper, lower, digit, special, and reports nothing exactly for strong passwords. |
| AuthSerializers.PasswordErrors | backend/apps/authentication/serializers.py:45-64 | Django's validator messages come first. Without them exactly one strength message is given, and none for a strong password. |
| AuthSerializers.PasswordRule | backend/apps/authentication/serializers.py:28-64 | A password is accepted exactly when present and trimmed, 8–128 characters long, free of NUL, passed by Django's validators and strong. |
| AuthSerializers.ResetUsesRegistrationRule | backend/apps/authentication/serializers.py:150-179 | A reset password the confirm serializer accepts passes the registration password rule too. |
| AuthSerializers.MatchError | backend/apps/authentication/serializers.py:66-76 | A mismatch is reported only when both values are present, non-empty and different. |
| AuthSerializers.RegUsernameAccepted | backend/apps/authentication/serializers.py:21-27 | An accepted username is 3–30 characters and not taken. |
| AuthSerializers.RegEmailAccepted | backend/apps/authentication/serializers.py:15-20 | An accepted e-mail is well formed and not taken. |
| AuthSerializers.NameAccepted | backend/apps/authentication/serializers.py:38-39 | Accepted first and last names are at most 30 characters. |
| AuthSerializers.RegistrationErrors | backend/apps/authentication/serializers.py:11-76 | The error map is empty exactly when every one of the six fields passes. Each failing field (username, email, password, password_confirm, first_name, last_name) is reported under its own name with its own messages, and no other key appears. |
| AuthSerializers.ValidateRegistration | backend/apps/authentication/serializers.py:11-76 | Succeeds exactly when the field error map is empty and the password and its confirmation match. Field errors come first; a mismatch alone gives the non-field "Passwords do not match." error. Success carries the cleaned username, e-mail and password. |
| AuthSerializers.RegistrationAccepted | backend/apps/authentication/serializers.py:11-76 | Accepted registration data has a free username of 3–30 characters, a free well-formed e-mail, and a strong password of 8–128 characters that equals its confirmation. |
| AuthSerializers.RegistrationAcceptedWhen | backend/apps/authentication/serializers.py:11-76 | Conversely, a free 3–30 character username, a free well-formed e-mail, a strong 8–128 character password the framework accepts, an equal confirmation and names of at most 30 characters are registered exactly as sent (after stripping). |
| AuthSerializers.RegistrationFieldErrors | backend/apps/authentication/serializers.py:11-76 | A failing field makes registration fail, with that field's own messages under its name. |
| AuthSerializers.RegistrationRejectsTakenEmail | backend/apps/authentication/serializers.py:15-20 | A taken e-mail is rejected under "email". |
| AuthSerializers.RegistrationRejectsTakenUsername | backend/apps/authentication/serializers.py:21-27 | A taken username is rejected under "username". |
| AuthSerializers.RegistrationMismatch | backend/apps/authentication/serializers.py:66-76 | When every field passes but the two passwords differ, the only error is the non-field mismatch message. |
| AuthSerializers.NextId | backend/apps/authentication/serializers.py:78-84 | The new id is positive and above every existing id. |
| AuthSerializers.CreateUser | backend/apps/authentication/serializers.py:78-84 | Appends one row carrying the registered fields and a hashed password. The new row is active and unverified, with no secrets, and the existing rows are kept. |
| AuthSerializers.CreateKeepsTableUnique | backend/apps/authentication/serializers.py:78-84 | Creating a user with a free username and e-mail keeps ids, e-mails and usernames unique. |
| AuthSerializers.RegistrationKeepsTableUnique | backend/apps/authentication/serializers.py:11-84 | Validated registration data creates a user without breaking uniqueness. |
| AuthSerializers.LoginCheck | backend/apps/authentication/serializers.py:93-114 | Succeeds exactly for present credentials that name an existing, active user whose password matches. A missing or empty e-mail or password gives exactly the missing-credentials message. Present credentials with no such user or a wrong password give exactly the invalid-credentials message. A matching but inactive user gives exactly the disabled-account message. |
| AuthSerializers.UnknownEmailLooksLikeWrongPassword | backend/apps/authentication/serializers.py:100-110 | An unknown e-mail gets the same "Invalid credentials." as a wrong password. |
| AuthSerializers.UnverifiedUserLogsIn | backend/apps/authentication/serializers.py:93-114 | Login does not require a verified e-mail. |
| AuthSerializers.FindByEmailUnique | backend/apps/authentication/serializers.py:100-110 | With unique e-mails, the lookup finds the row holding the e-mail. |
| AuthSerializers.ValidateLogin | backend/apps/authentication/serializers.py:86-114 | Succeeds exactly when both fields pass and the credentials check out. The result is an active user with that e-mail. |
| AuthSerializers.MissingCredentialsUnreachable | backend/apps/authentication/serializers.py:111-112 | "Must include email and password." is never produced, because required, non-blank fields fail first. |
| AuthSerializers.TokenPresent | backend/apps/authentication/serializers.py:122-128 | The custom check complains exactly about an empty token. |
| AuthSerializers.ValidateVerificationToken | backend/apps/authentication/serializers.py:116-128 | A token is accepted exactly when present and 1–100 characters after trimming, and the custom "required" message is never the reason for failure. |
| AuthSerializers.ValidateResetRequest | backend/apps/authentication/serializers.py:130-144 | Accepted exactly for a well-formed e-mail that belongs to a user. A well-formed unknown e-mail gets "No user found with this email address." |
| AuthSerializers.ValidateResetConfirm | backend/apps/authentication/serializers.py:146-191 | Succeeds exactly when token, password and confirmation each pass and the two passwords match; the result is the cleaned token and password. Each failing field is reported under its own name. |
| AuthSerializers.ResetConfirmAccepted | backend/apps/authentication/serializers.py:146-191 | Accepted reset data has a 1–100 character token and a strong 8–128 character password equal to its confirmation. |
| AuthSerializers.ResetConfirmAcceptedWhen | backend/apps/authentication/serializers.py:146-191 | Conversely, a 1–100 character token and a strong 8–128 character password repeated as confirmation are accepted as sent. |
| AuthSerializers.ProfileErrors | backend/apps/authentication/serializers.py:203-218 | The error map is empty exactly when username, names and phone all pass. |
| AuthSerializers.ProfileFieldsAccepted | backend/apps/authentication/serializers.py:203-218 | An accepted username is free apart from the user's own row and at most 150 characters. Names are at most 30 characters and the phone at most 15. |
| AuthSerializers.UpdateProfile | backend/apps/authentication/serializers.py:203-218 | Succeeds exactly when the profile error map is empty. A sent username, first name, last name or phone is stored as cleaned; an unsent one is kept; nothing else changes. A changed username is free of every other user. |
| AuthSerializers.ProfileUpdateAcceptedWhen | backend/apps/authentication/serializers.py:203-218 | Conversely, sent values that pass every check (a free username of at most 150 allowed characters, names of at most 30, a phone of at most 15) are stored exactly as cleaned. |
| AuthSerializers.OwnUsernameAccepted | backend/apps/authentication/serializers.py:211-218 | Re-sending one's own username is accepted and changes nothing. |
| AuthSerializers.OtherUsersNameRefused | backend/apps/authentication/serializers.py:211-218 | A username held by another user is refused under "username". |
| BlogModels.ParseStatus | backend/apps/blog/models.py:84-87 | Only "draft" and "published" are statuses, and parsing inverts the status name. |
| BlogModels.StatusNameRoundTrip | backend/apps/blog/models.py:84-87 | Every status's name parses back to that status. |
| BlogModels.CategorySave | backend/apps/blog/models.py:29-33 | An empty slug is filled from the name, and a non-empty one is kept. |
| BlogModels.TagSave | backend/apps/blog/models.py:64-68 | An empty slug is filled from the name, and a non-empty one is kept. |
| BlogModels.SlugFillIdempotent | backend/apps/blog/models.py:29-68 | Saving a category or tag a second time changes nothing. |
| BlogModels.PostCount | backend/apps/blog/models.py:39-42 | Counts exactly the published posts of the category or tag. |
| BlogModels.PostCountPublishedOnly | backend/apps/blog/models.py:74-77 | Adding a draft leaves the count alone. Adding a published post of the owner raises it by one. |
| BlogModels.UniqueSlug | backend/apps/blog/models.py:156-164 | The chosen slug is free in the other rows. It is the base itself when that is free, and otherwise the first free `base-k`. |
| BlogModels.Truncate | backend/apps/blog/models.py:194-196 | Content of at most 150 characters is kept. Longer content becomes its first 150 characters plus "...". |
| BlogModels.ExcerptOrContent | backend/apps/blog/models.py:191-196 | A filled excerpt wins. Otherwise the content is truncated. |
| BlogModels.SavePost | backend/apps/blog/models.py:152-174 | Refuses an explicit slug that another row uses. An empty slug becomes the first free variant of the slugified title. It fills an empty excerpt and stamps `published_at` on a first publish, changing nothing else. |
| BlogModels.SavePreservesDerived | backend/apps/blog/models.py:152-174 | Saving never changes what `excerpt_or_content` shows and never moves an existing `published_at`. A published saved post always has one. |
| BlogModels.SaveIdempotent | backend/apps/blog/models.py:152-174 | Saving the saved post again, later, changes nothing. |
| BlogModels.ResaveSucceeds | backend/apps/blog/models.py:152-174 | A stored row can always be saved again and keeps its slug. |
| BlogModels.ReadingTime | backend/apps/blog/models.py:185-189 | At least one minute, and within half a minute of words / 200 unless clamped to 1. |
| BlogModels.ReadingTimeRounding | backend/apps/blog/models.py:185-189 | Under 300 words reads as one minute. Ties round to the even minute, as Python's `round` does. |
| PostSerializers.ExcerptOutcome | backend/apps/blog/serializers.py:91-100 | A missing excerpt is skipped, null is kept, and a given excerpt is trimmed. |
| PostSerializers.StatusOutcome | backend/apps/blog/serializers.py:127-134 | Only the two status names pass. Any other text is rejected with the choice message. |
| PostSerializers.CategoryOutcome | backend/apps/blog/serializers.py:136-145 | A given category id is rejected exactly when no category has that id (this includes 0). Null and an absent id pass. |
| PostSerializers.MatchingTagsCount | backend/apps/blog/serializers.py:147-155 | The database count of matching tags equals the number of distinct ids that name a tag. |
| PostSerializers.TagIdsOutcome | backend/apps/blog/serializers.py:147-155 | A missing list is skipped, an empty list passes, and a passed list is kept as sent. |
| PostSerializers.TagIdsAccepted | backend/apps/blog/serializers.py:147-155 | A tag id list passes exactly when it has no repeats and every id names a tag. |
| PostSerializers.PostErrors | backend/apps/blog/serializers.py:91-155 | The error map is empty exactly when every field passes. A failing title, content, excerpt, category_id, tag_ids or status is reported under its own name with its own messages. |
| PostSerializers.ValidatePost | backend/apps/blog/serializers.py:91-155 | Fails exactly when the error map is non-empty, and then with that map. A success carries the sent featured image unchanged. |
| PostSerializers.ValidatedPost | backend/apps/blog/serializers.py:91-155 | Validated data has a title and content when creating. The title is non-blank and at most 200 characters, the content is not blank, the status is a valid choice, and the tag ids are distinct existing tags. |
| PostSerializers.TitleMessageUnreachable | backend/apps/blog/serializers.py:111-117 | The custom "Title cannot exceed 200 characters." message is never produced, because the field's own max_length check fires first. |
| PostSerializers.ContentMessageUnreachable | backend/apps/blog/serializers.py:119-125 | The custom "Content cannot be empty." message is never produced, because blank content is refused by the field itself. |
| PostSerializers.PostFieldErrors | backend/apps/blog/serializers.py:95-125 | An over-long title is reported under "title" with the max_length message, and blank content under "content" with the blank message. |
| PostSerializers.SelectTags | backend/apps/blog/serializers.py:175-178 | The post's tags are exactly the sent ids that name tags. |
| PostSerializers.CreatePost | backend/apps/blog/serializers.py:157-180 | The new post has the caller as author, the sent fields and image, the default status draft and the selected tags. Its slug is the first free variant of the slugified title. An unfilled excerpt is cut from the content. A category is set only for a non-zero id. A published post is stamped with the creation instant; a draft has no `published_at`. |
| PostSerializers.UpdatedCategory | backend/apps/blog/serializers.py:256-261 | A non-zero id replaces the category and 0 clears it. A missing id keeps it. |
| PostSerializers.UpdatedTags | backend/apps/blog/serializers.py:263-269 | A missing list keeps the tags, and an empty list clears them. Otherwise the tags become the listed existing ones. |
| PostSerializers.UpdatePost | backend/apps/blog/serializers.py:245-272 | Keeps id, author and creation time. A sent field or image replaces the old value; null clears a nullable one; unsent ones are kept. An unfilled excerpt is cut from the content, and `published_at` is stamped on a first publish. |
| PostSerializers.UpdateNothing | backend/apps/blog/serializers.py:245-272 | An update with nothing sent is a plain re-save, which succeeds. |
| PostSerializers.UpdateStoredRow | backend/apps/blog/serializers.py:245-272 | Updating a stored row always saves. It keeps its slug, and a draft status never sets `published_at`. |
| BlogViews.AnonymousReadOnly | backend/apps/blog/views.py:64-73 | Anonymous callers may only use safe methods on list, retrieve, featured and by-slug. Signed-in callers may use every action. |
| BlogViews.FindPost | backend/apps/blog/views.py:148-153 | Finds the row with that id, and finds nothing exactly when no row has it. |
| BlogViews.PublishPost | backend/apps/blog/views.py:148-172 | Anonymous callers get 401, a missing post 404 and a non-author 403. An already published post gets 400. Otherwise the stored row and the reply are the model save of the row with status published and `published_at` now, and only that row changes. A 500 happens exactly when that save is refused. |
| BlogViews.UnpublishPost | backend/apps/blog/views.py:174-198 | Anonymous callers get 401, a missing post 404 and a non-author 403. An already draft post gets 400. Otherwise the stored row and the reply are the model save of the row as a draft with `published_at` cleared, and only that row changes. A 500 happens exactly when that save is refused. |
| BlogViews.TransitionsSucceed | backend/apps/blog/views.py:148-198 | The author can always publish a draft and unpublish a published post, and slugs stay unique. |
| BlogViews.PublishThenUnpublish | backend/apps/blog/views.py:148-198 | Publishing and then unpublishing leaves a draft with no `published_at` and the same slug. |
| BlogViews.CreateView | backend/apps/blog/views.py:75-79 | Anonymous callers get 401 and invalid data 400 with the errors. A post is created exactly when a signed-in caller sends valid data. It is the serializer's create of the validated data with the caller as author and the next id, and it is appended. |
| BlogViews.CreateKeepsUnique | backend/apps/blog/views.py:75-79 | Creating keeps ids and slugs unique. |
| BlogViews.AfterValidation | backend/apps/blog/views.py:81-89 | Invalid data gives 400. Valid data from a non-author gives 403. An author's valid update stores and returns the serializer's update of the row with the validated data. No other row changes. A 500 happens exactly when that update's save is refused. |
| BlogViews.UpdateView | backend/apps/blog/views.py:81-89 | Anonymous callers get 401 and a missing post 404. Validation runs before the ownership check. |
| BlogViews.NonAuthorCannotUpdate | backend/apps/blog/views.py:81-89 | A non-author never changes the table, and gets 403 for valid data and 400 for invalid data. |
| BlogViews.DestroyView | backend/apps/blog/views.py:91-98 | Anonymous callers get 401, a missing post 404 and a non-author 403. The author's delete removes the row and answers 204. |
| BlogViews.DestroyRemovesRow | backend/apps/blog/views.py:91-98 | The author's delete removes exactly that row. |
| BlogViews.Select | backend/apps/blog/views.py:37-47 | Keeps exactly the rows the query selects. |
| BlogViews.Newest | backend/apps/blog/models.py:135-138 | Orders by creation time, newest first, as a permutation of the rows. |
| BlogViews.PageSize | backend/apps/blog/views.py:17-23 | The page size is 10 by default. A requested size is capped at 100, and non-positive requests fall back to the default. |
| BlogViews.Paginate | backend/apps/blog/views.py:17-23 | A page exists exactly for numbers 1 to the page count. Every page but the last is full. |
| BlogViews.PageOfItem | backend/apps/blog/views.py:17-23 | Every item appears on its page at its offset. |
| BlogViews.PaginateIsPage | backend/apps/blog/views.py:17-23 | Page n of a list is the block that starts at position (n − 1) × size and holds at most size items. |
| BlogViews.ListView | backend/apps/blog/views.py:37-47 | A page exists exactly for numbers 1 to the page count of the published posts. It is the block of the newest-first published list that its number and size say, and so is newest first. Otherwise the answer is 404. |
| BlogViews.ListViewShowsEvery | backend/apps/blog/views.py:37-47 | Every published post appears on some page of the public list. |
| BlogViews.RetrieveView | backend/apps/blog/views.py:37-47 | A retrieved post is published and has the requested id. |
| BlogViews.RetrieveHidesDrafts | backend/apps/blog/views.py:37-47 | Drafts answer 404 on retrieve, even to their author. Published posts are returned. |
| BlogViews.FeaturedView | backend/apps/blog/views.py:136-146 | At most 5 published posts, newest first. |
| BlogViews.FeaturedAreNewest | backend/apps/blog/views.py:136-146 | A published post is left out only when 5 newer-or-equal posts fill the list. |
| BlogViews.FindSlug | backend/apps/blog/views.py:200-206 | Finds a row with that slug, and finds nothing exactly when none exists. |
| BlogViews.BySlugView | backend/apps/blog/views.py:200-223 | Answers only with a post of that slug that is published or owned by the caller. Otherwise it answers 404. |
| BlogViews.BySlugVisibility | backend/apps/blog/views.py:200-223 | Someone else's draft answers exactly like a slug that does not exist. |
| BlogViews.MyPostsView | backend/apps/blog/views.py:100-134 | Anonymous callers get 401. Otherwise a page exists exactly for numbers 1 to the page count of the caller's posts that pass the search, status and category filters. It is the block of those posts, newest first, that its number and size say. Otherwise the answer is 404. |
| BlogViews.MyPostsComplete | backend/apps/blog/views.py:100-134 | Without filters, my-posts lists every post of the caller, drafts included, newest first. |
| BlogViews.OwnerPostsView | backend/apps/blog/views.py:235-301 | A category or tag that does not exist, or that the `?search=` filter of its own view set rejects (name and description for categories, name for tags), gives 404. Otherwise a page exists exactly for numbers 1 to the page count of that owner's published posts matching the search. It is the newest-first block its number and size say. |
| BlogViews.OwnerPostsShowEvery | backend/apps/blog/views.py:235-301 | Once the owner is found, each of its published posts that matches the search appears on some page. |
| BlogViews.SearchHidesCategory | backend/apps/blog/views.py:225-262 | A search term that a category's name lacks gives 404 for that category's posts, even when a post of it matches the term. |
| BlogViews.SingleTerm | backend/apps/blog/views.py:231-233 | A search of one plain word (no space, comma or NUL) has that word as its only term. |
| ApiClient.SetAuthToken | frontend/lib/api.ts:211-215 | In the browser it stores the token under its key. On the server side it does nothing. No other key changes. |
| ApiClient.RemoveAuthToken | frontend/lib/api.ts:217-221 | In the browser it removes the token key. No other key changes. |
| ApiClient.GetAuthToken | frontend/lib/api.ts:223-228 | Returns the stored token exactly in the browser when one is stored. |
| ApiClient.TokenStorageRoundTrip | frontend/lib/api.ts:211-228 | A stored token reads back. A removed token reads as absent. Removal is idempotent and undoes a store. |
| ApiClient.AuthorizationHeader | frontend/lib/api.ts:27-44 | "Bearer " plus the stored token is attached exactly when a non-empty token is stored. |
| ApiClient.HeaderFollowsStorage | frontend/lib/api.ts:27-44 | After storing a token the header carries it. After removal there is no header. |
| ApiClient.OnError | frontend/lib/api.ts:47-126 | Only a 401 from an auth endpoint clears the token and redirects to login, and only in the browser. Other 401s only toast. A missing response toasts the network error. |
| ApiClient.ErrorBodyShown | frontend/lib/api.ts:110-118 | For statuses without a fixed toast, the server's message is shown. |
| ApiClient.CreatePayloadOf | frontend/lib/api.ts:147-170 | Without an image the data goes as JSON unchanged. With one it goes as multipart: title and content first, the image last, text parts before it. |
| ApiClient.CreateFormParts | frontend/lib/api.ts:147-170 | In the multipart body, the tag parts sit directly before the image and the image is the only file part. |
| ApiClient.UpdatePayloadOf | frontend/lib/api.ts:171-194 | Without an image the changes go as JSON. With one they go as multipart, with the image as the last part. |
| AuthStore.Login | frontend/store/authStore.ts:38-62 | On success the user and token are stored and the session is authenticated. On failure only loading ends, and local storage is what the response interceptor left (api.ts:67-79). |
| AuthStore.PlainRequest | frontend/store/authStore.ts:65-147 | Register, verify, forgot and reset change only the loading flag and report whether they succeeded. A failure leaves local storage as the response interceptor left it. |
| AuthStore.Logout | frontend/store/authStore.ts:81-99 | Whatever the server says, user and token are cleared and the stored token removed. |
| AuthStore.UpdateProfile | frontend/store/authStore.ts:150-168 | On success the user becomes the server's copy and storage is kept. On failure the user is kept and storage is what the response interceptor left, so a 401 from `/auth/` drops the stored token. Token and authentication in memory never change. |
| AuthStore.CheckAuth | frontend/store/authStore.ts:171-203 | Without a token the session is marked signed out. With a token, a profile reply signs in. A failure clears everything and removes the stored token, whatever the interceptor did first. |
| AuthStore.SetUser | frontend/store/authStore.ts:206-208 | Replaces only the user. |
| AuthStore.SetToken | frontend/store/authStore.ts:211-214 | Stores the token, marks the session authenticated and keeps the user. |
| AuthStore.ClearAuth | frontend/store/authStore.ts:217-224 | Clears user, token, authentication and the stored token. |
| AuthStore.ClearAuthIsLogout | frontend/store/authStore.ts:81-99 | Logout settles in the same state as `clearAuth`. |
| AuthStore.Persist | frontend/store/authStore.ts:226-232 | Only user, token and the authentication flag are persisted. |
| AuthStore.ReloadKeepsSession | frontend/store/authStore.ts:226-232 | A reload restores the session with loading off. |
| AuthStore.ActionsKeepAgreement | frontend/store/authStore.ts:38-224 | In a browser, checkAuth, logout and the setters always keep the in-memory token and the stored token in agreement. Login, the plain requests and updateProfile break agreement exactly when they fail with a 401 from an `/auth/` endpoint while a token is held: the interceptor drops the stored token and the store keeps its own (api.ts:67-79). |
| AuthStore.LoginThenLogout | frontend/store/authStore.ts:38-99 | After login and logout, no Authorization header is sent. |
| BlogStore.CurrentPage | frontend/store/blogStore.ts:122-136 | The page is the `page` of `next` minus one, else the `page` of `previous` plus one, else 1. |
| BlogStore.CurrentPageAsWritten | frontend/store/blogStore.ts:122-136 | Against the server's links this recovers the page number except on page 2 of 2, where it gives 1. |
| BlogStore.CurrentPageCorrected | frontend/store/blogStore.ts:122-136 | Agrees with the original whenever there is a next link. A previous link without `page` means page 2. |
| BlogStore.CurrentPageCorrectedRecovers | frontend/store/blogStore.ts:122-136 | The corrected derivation recovers the server's page number on every page. |
| BlogStore.FetchPage | frontend/store/blogStore.ts:116-235 | A reply replaces the fetched list, count and links; nothing else changes apart from loading ending and the error clearing. The page number is derived from the links as the store derives it (see Findings). A failure keeps the lists and records the message. |
| BlogStore.FetchPageFromServer | frontend/store/blogStore.ts:123-136 | For the links the server sends with page n of m, the stored page is n, except page 2 of 2, which is stored as 1. |
| BlogStore.ReplaceId | frontend/store/blogStore.ts:304-314 | Replaces exactly the entries with that id. |
| BlogStore.RemoveId | frontend/store/blogStore.ts:341-345 | Removes exactly the entries with that id. |
| BlogStore.RemoveIdCounts | frontend/store/blogStore.ts:341-345 | Every post with another id is kept as many times as the list holds it; no post with that id is kept. |
| BlogStore.RemoveIdKeepsOrder | frontend/store/blogStore.ts:341-345 | The filter keeps order: filtering a concatenation filters each part in turn, and a single post survives exactly when its id differs. |
| BlogStore.SetStatusFor | frontend/store/blogStore.ts:366-372 | Sets the status of exactly the entries with that id. |
| BlogStore.SetStatusTwice | frontend/store/blogStore.ts:361-409 | Setting a status twice is the same as setting the last one. |
| BlogStore.SetStatusSame | frontend/store/blogStore.ts:361-409 | Setting the status an entry already has changes nothing. |
| BlogStore.CreatePost | frontend/store/blogStore.ts:260-283 | A created post is put at the front of both lists. A failure records the message. |
| BlogStore.WithAuthor | frontend/store/blogStore.ts:300-302 | The current post's author is kept over the reply's. |
| BlogStore.UpdatePost | frontend/store/blogStore.ts:285-333 | The reply replaces the post in every list and as the current post. Nothing else changes apart from the updating flag ending and the error clearing. A failure records the message. |
| BlogStore.UpdateReplacesEverywhere | frontend/store/blogStore.ts:285-333 | After an update, each list entry is the updated post exactly where the id matches, and the list lengths are unchanged. |
| BlogStore.DeletePost | frontend/store/blogStore.ts:335-359 | Each list becomes its filter without the id, in order. The current post is dropped only if it was the one deleted. Nothing else changes apart from the deleting flag ending and the error clearing. A failure records the message. |
| BlogStore.SetPostStatus | frontend/store/blogStore.ts:361-409 | Publish and unpublish set the status in posts, my posts and the current post. The featured list is not touched. |
| BlogStore.PublishThenUnpublishRestores | frontend/store/blogStore.ts:361-409 | Publishing and unpublishing a draft restores the store. |
| BlogStore.WithFilters | frontend/store/blogStore.ts:412-438 | A filter change resets the page to 1 and changes nothing else. |
| BlogStore.SetSearch | frontend/store/blogStore.ts:412-417 | Sets the search filter and goes back to page 1. The lists, current post, flags, error, count and links are kept. |
| BlogStore.SetCategoryFilter | frontend/store/blogStore.ts:419-424 | Sets the category filter and goes back to page 1. The lists, current post, flags, error, count and links are kept. |
| BlogStore.SetTagFilter | frontend/store/blogStore.ts:426-431 | Sets the tag filter and goes back to page 1. The lists, current post, flags, error, count and links are kept. |
| BlogStore.SetStatusFilter | frontend/store/blogStore.ts:433-438 | Sets the status filter and goes back to page 1. The lists, current post, flags, error, count and links are kept. |
| BlogStore.ClearFilters | frontend/store/blogStore.ts:440-445 | Restores the initial filters and goes back to page 1. The lists, current post, flags, error, count and links are kept. |
| BlogStore.FilterSettersIndependent | frontend/store/blogStore.ts:412-445 | Setters commute, clearing undoes any of them, and they never touch the fetched data. |
| BlogStore.SetCurrentPost | frontend/store/blogStore.ts:448-450 | Replaces only the current post. |
| BlogStore.ClearError | frontend/store/blogStore.ts:452-454 | Clears only the error. |
| BlogStore.ResetState | frontend/store/blogStore.ts:456-458 | Resetting gives the initial state. |
| BlogStore.InitialIsClear | frontend/store/blogStore.ts:63-108 | The initial state already has cleared filters on page 1. |
| PostList.TotalPages | frontend/components/blog/PostList.tsx:84 | The number of pages of 10 that hold the count, with 0 pages exactly for 0 posts. |
| PostList.ShowsPaginationExactly | frontend/components/blog/PostList.tsx:148 | Pagination controls show exactly when there are more than 10 posts. |
| PostList.ItemFor | frontend/components/blog/PostList.tsx:176-206 | A page gets a button exactly when it is current, adjacent, first or last. Page 2 and the last-but-one page become an ellipsis when far from the current page. |
| PostList.AtMostFiveButtons | frontend/components/blog/PostList.tsx:176-197 | At most five page buttons are shown, and the current page always has one. |
| PostList.EllipsisPlaces | frontend/components/blog/PostList.tsx:198-206 | Ellipses appear only at page 2 or at the last-but-one page. |
| PostList.HiddenPagesMarked | frontend/components/blog/PostList.tsx:176-206 | Every hidden page lies behind an ellipsis on its side of the current page. |
| PostList.ShowingRange | frontend/components/blog/PostList.tsx:150-154 | "Showing a to b" starts at the page's first item. It ends at the smaller of the page end and the count. |
| PostList.ShowingRangeBounds | frontend/components/blog/PostList.tsx:150-154 | On a real page the range is non-empty, within the count and at most 10 long, and full except on the last page. |
| PostList.ArrowsFollowServerLinks | frontend/components/blog/PostList.tsx:160-220 | Previous is disabled exactly on page 1 and Next exactly on the last page. |
| PostList.QueryParams | frontend/components/blog/PostList.tsx:40-56 | The page is always sent. Search, category, tag and status are sent exactly when set, and nothing else is sent. |
| PostList.ClearedFiltersSendOnlyPage | frontend/components/blog/PostList.tsx:40-56 | After clearing the filters only `page=1` is sent. |
| SearchBar.TitleWords | frontend/components/blog/SearchBar.tsx:113-122 | Collects exactly the words of the lower-cased titles, split on spaces, that are longer than 2 characters and start with the lower-cased query. |
| SearchBar.CategoryNames | frontend/components/blog/SearchBar.tsx:125-129 | Collects exactly the matching category names. |
| SearchBar.TagNames | frontend/components/blog/SearchBar.tsx:132-140 | Collects exactly the matching tag names. |
| SearchBar.CandidatesMembers | frontend/components/blog/SearchBar.tsx:107-143 | The candidate list holds exactly the eligible words and names, each once. |
| SearchBar.Suggestions | frontend/components/blog/SearchBar.tsx:107-143 | At most 8 distinct suggestions, and none without posts. |
| SearchBar.SuggestionsSpec | frontend/components/blog/SearchBar.tsx:107-143 | Every suggestion is eligible, and an eligible one is missing only when the list is full. Title words come before names, and category names before tag names. |
| SearchBar.EmptyQueryAdmitsAll | frontend/components/blog/SearchBar.tsx:117-135 | With an empty query, every word longer than 2 characters and every non-empty name qualifies. |
| PostForm.ToggleTag | frontend/components/blog/PostForm.tsx:134-140 | Toggling flips exactly that tag's membership and keeps the selection free of repeats. |
| PostForm.ToggleTwice | frontend/components/blog/PostForm.tsx:134-140 | Toggling twice restores the selected set, and restores the list itself when the tag was not selected. |
| PostForm.RemoveAppended | frontend/components/blog/PostForm.tsx:134-140 | Removing a just-added tag gives back the earlier list. |
| PostForm.ChooseImage | frontend/components/blog/PostForm.tsx:110-125 | Files over 5 MB are refused with the state unchanged. Otherwise the file and its preview are taken. |
| PostForm.RemoveImage | frontend/components/blog/PostForm.tsx:128-131 | Clears the file and the preview. |
| PostForm.ImageLimitInvariant | frontend/components/blog/PostForm.tsx:110-131 | The chosen image never exceeds 5 MB. |
| PostForm.StripTags | frontend/components/blog/PostForm.tsx:102 | The result has no `<…>` tag left, and text without `<` is unchanged. |
| PostForm.ExcerptFill | frontend/components/blog/PostForm.tsx:99-107 | The automatic excerpt is the first 160 characters of the tag-free content with the space at both ends trimmed: it is empty exactly when those characters are all space, otherwise they are space, the excerpt, then space, and the excerpt starts and ends with a non-space. |
| PostForm.FormExcerpt | frontend/components/blog/PostForm.tsx:99-107 | The excerpt is filled only when there is content and the excerpt is empty. |
| PostForm.FormExcerptSettles | frontend/components/blog/PostForm.tsx:99-107 | Running the effect again changes nothing. |
| PostForm.PostData | frontend/components/blog/PostForm.tsx:153-161 | Category 0 is sent as absent and an empty tag selection as absent. The other fields are sent as entered. |
| PostForm.EditData | frontend/components/blog/PostForm.tsx:153-175 | Like PostData, but the selection is always sent, so an emptied selection is sent as an empty list. |
| PostForm.TitleError | frontend/components/blog/PostForm.tsx:225-235 | The title passes exactly when it has 5 to 200 characters. An empty title is "Title is required", a short one "Title must be at least 5 characters", a long one "Title must be less than 200 characters". |
| PostForm.ContentError | frontend/components/blog/PostForm.tsx:251-256 | The content passes exactly when it has at least 50 characters. An empty content is "Content is required" and a short one "Content must be at least 50 characters". |
| PostForm.ExcerptError | frontend/components/blog/PostForm.tsx:302-307 | The excerpt passes exactly when it has at most 300 characters, else "Excerpt must be less than 300 characters". |
| PostForm.FormValid | frontend/components/blog/PostForm.tsx:225-307 | The form passes exactly when the title has 5 to 200 characters, the content at least 50 and the excerpt at most 300. |
| PostForm.Submit | frontend/components/blog/PostForm.tsx:143-197 | A form that breaks a field rule is not submitted, nor is one without a user. Create mode creates with the form data. Edit mode with a post updates that post's id with the same record, so an edit with no tag ticked sends no tag list (see Findings). |
| Flows.SignedInRequestsAuthenticate | frontend/store/authStore.ts:38-62 | After login, the client's header authenticates the user both in DRF and in the middleware. |
| Flows.MintedTokenPassesGate | backend/apps/core/middleware.py:18-88 | A live token minted for an active user passes the middleware on a non-excluded path and attaches that user. |
| Flows.AuthFailureDesyncsSession | frontend/lib/api.ts:59-82 | A 401 from an auth endpoint removes the stored token but leaves the store signed in, so the next protected request is rejected for a missing header. |
| Flows.ClientPagesMatchServer | frontend/components/blog/PostList.tsx:84 | The client's page count equals the server's default page count. |
| Flows.LastPageLength | backend/apps/blog/views.py:17-23 | The last page holds exactly the leftover items. |
| Flows.ShowingRangeCountsPage | frontend/components/blog/PostList.tsx:150-154 | The "Showing" range counts exactly the items on the server's page. |
| Flows.ToggledTagsValidate | frontend/components/blog/PostForm.tsx:134-140 | Toggling an existing tag keeps a valid selection valid for the server. |
| Flows.JsonUpdate | frontend/lib/api.ts:171-194 | The JSON body the server receives carries exactly the fields the client set, and an image only when one was chosen. |
| Flows.EmptiedSelectionKeepsTags | frontend/components/blog/PostForm.tsx:153-175 | As written, an emptied tag selection on edit reaches the server as no list, so the post keeps its tags. |
| Flows.EditSelectionBecomesTags | backend/apps/blog/serializers.py:263-269 | With the corrected edit payload the post's tags become the selection. An emptied selection clears them. |

## Left out

- Unicode: lower-casing, `\s`/`\d` classes and `strip()` are modelled on ASCII. The NFKC normalisation Django applies to usernames is not modelled, so usernames are compared as sent. JavaScript string lengths count code points, not UTF-16 units.
- Header bytes: the middleware's `decode()` of the Authorization header is taken as already text.
- `create_user`'s e-mail normalisation is not modelled. Passwords are hashed by an oracle.
- PyJWT's `iat`/`nbf` checks, its leeway and algorithm selection are not modelled. A token is valid iff it is signed and `now < exp`.
- The middleware and DRF each read the clock. The model gives both the same `now`.
- JSON `null` sent for non-nullable text fields is not modelled. Those fields are present or absent. The profile's `phone_number` is nullable (models.py line 22) but a null phone number is not modelled either: a sent phone number is always a string.
- Uploads of `featured_image`: a sent image is an opaque name. The check that the file is an image, its storage and its URL are not modelled.
- AuthSerializers.UpdateProfile: the `profile_picture` upload that the profile serializer also accepts is not modelled. The model's profile input has no picture, so an update never changes it.
- BlogViews.SearchTerms: the terms are split on white space after commas and NUL characters. The quoted-phrase handling of newer DRF releases is not modelled.
- Query strings: `page` and `page_size` are integers. DRF's `page=last`, the list's filter/search/ordering backends and the frontend's URL parsing are not modelled.
- Ordering ties: posts with equal `created_at` come in an unspecified database order. The model keeps the sort's order.
- Slug length: the 200-character limit on `Post.slug` is not checked.
- `get_related_posts`, `get_next_post` and `get_previous_post` are not used by the modelled views.
- Toasts, console logs and `alert`: only the toast texts of the response interceptor are kept.
- `isLoading` / `isCreating` are modelled only in the settled state, not while a request is in flight.
- `Post.updated_at` is not modelled: the automatic stamp on every save is not part of a post row.
- BlogStore.FetchPage, BlogStore.CreatePost, BlogStore.UpdatePost, BlogStore.DeletePost: the blog store's failures do not pass through the response interceptor in the model, so a 401 from a blog endpoint is only a failed request. Blog endpoints are not `/auth/` endpoints, so the interceptor keeps the stored token for them anyway.
- `slugify` is a parameter. Its text transformation is Django's and is not modelled.
- PostSerializers.TitleMessageUnreachable: the custom title and content messages are modelled only as unreachable, since DRF's field checks fire first.
- BlogViews.FindSlug: `by_slug` takes the first matching row. With unique slugs that is the only one.
- The `Http404` message text is not modelled. It is reported as `NotFound`.
- `fetchPostBySlug` is not modelled: the API client has no `getPostBySlug`. `fetchFeaturedPosts`, `fetchPost`, `fetchCategories` and `fetchTags` only copy a reply into the store.
- The asynchronous `FileReader` preview is a given data URL.
- The multipart update path: with an image, `updatePost` appends `tag_ids` only when the list is non-empty. An emptied selection sent together with a new image therefore still keeps the old tags.
- The logging middleware writes logs only.

## Findings

| source | as written | input that shows it | evidently intended | confidence | as-written member | corrected member |
|---|---|---|---|---|---|---|
| frontend/store/blogStore.ts:122-136 | The current page is read from the `page` parameter of `next` or `previous` only. | Page 2 of 2: `next` is null, and DRF's `previous` link to page 1 has no `page` parameter, so the store sets page 1. | A `previous` link without `page` means the current page is 2. | not executed | BlogStore.CurrentPageAsWritten | BlogStore.CurrentPageCorrectedRecovers |
| frontend/components/blog/PostForm.tsx:159 | `tag_ids` is sent as `undefined` when the selection is empty, also when editing. | Edit a post with tags, untick them all and save: no `tag_ids` is sent, and the serializer keeps the old tags. | An emptied selection on edit clears the post's tags. | not executed | Flows.EmptiedSelectionKeepsTags | Flows.EditSelectionBecomesTags |

=== FILE: api_client.dfy ===
/** The browser's HTTP client: where the session token is kept (the
    `blog_auth_token` entry of the page's local storage), the header every
    request carries, what an error response does to the stored token and
    which messages it shows, and how a post is sent (JSON, or a multipart
    form when an image is attached). Outside a browser there is no local
    storage: writes do nothing and reads find nothing. */
module ApiClient {
  import opened Wrappers
  import opened Text
  import opened BlogModels
  import opened ClientTypes

  const TokenKey: string := "blog_auth_token"

  type Storage = map<string, string>

  // ---------------------------------------------------------------------
  // Token storage
  // ---------------------------------------------------------------------

  function SetAuthToken(store: Storage, browser: bool, token: string): (r: Storage)
    ensures browser ==> TokenKey in r && r[TokenKey] == token
    ensures !browser ==> r == store
    ensures forall k :: k != TokenKey ==> (k in r <==> k in store) && (k in r ==> r[k] == store[k])
  {
    if browser then store[TokenKey := token] else store
  }

  function RemoveAuthToken(store: Storage, browser: bool): (r: Storage)
    ensures browser ==> TokenKey !in r
    ensures !browser ==> r == store
    ensures forall k :: k != TokenKey ==> (k in r <==> k in store) && (k in r ==> r[k] == store[k])
  {
    if browser then store - {TokenKey} else store
  }

  function GetAuthToken(store: Storage, browser: bool): (r: Option<string>)
    ensures r.Some? <==> browser && TokenKey in store
    ensures r.Some? ==> r.value == store[TokenKey]
  {
    if browser && TokenKey in store then Some(store[TokenKey]) else None
  }

  /** In a browser a stored token reads back, a removed one reads as
      absent, and removing twice is the same as once. */
  lemma TokenStorageRoundTrip(store: Storage, token: string)
    ensures GetAuthToken(SetAuthToken(store, true, token), true) == Some(token)
    ensures GetAuthToken(RemoveAuthToken(store, true), true).None?
    ensures RemoveAuthToken(RemoveAuthToken(store, true), true) == RemoveAuthToken(store, true)
    ensures RemoveAuthToken(SetAuthToken(store, true, token), true) == RemoveAuthToken(store, true)
  {
  }

  // ---------------------------------------------------------------------
  // Request header
  // ---------------------------------------------------------------------

  const BearerPrefix: string := "Bearer "

  /** The request interceptor: a non-empty stored token becomes
      `Authorization: Bearer <token>`; otherwise no header is sent. */
  function AuthorizationHeader(store: Storage, browser: bool): (h: Option<string>)
    ensures h.Some? <==> browser && TokenKey in store && store[TokenKey] != []
    ensures h.Some? ==> StartsWith(h.value, BearerPrefix) && h.value[|BearerPrefix|..] == store[TokenKey]
  {
    match GetAuthToken(store, browser)
    case Some(t) => if t != [] then Some(BearerPrefix + t) else None
    case None => None
  }

  /** After a login stores a non-empty token, every request carries it;
      after a logout none does. */
  lemma HeaderFollowsStorage(store: Storage, token: string)
    requires token != []
    ensures AuthorizationHeader(SetAuthToken(store, true, token), true) == Some(BearerPrefix + token)
    ensures AuthorizationHeader(RemoveAuthToken(store, true), true).None?
  {
  }

  // ---------------------------------------------------------------------
  // Error responses
  // ---------------------------------------------------------------------

  const AuthErrorToast: string := "Authentication error. Please try again."
  const SessionExpiredToast: string := "Session expired. Please login again."
  const ForbiddenToast: string := "You do not have permission to perform this action."
  const NotFoundToast: string := "Resource not found."
  const ValidationToast: string := "Validation failed. Please check your input."
  const ServerErrorToast: string := "Server error. Please try again later."
  const UnexpectedToast: string := "An unexpected error occurred."
  const NetworkToast: string := "Network error. Please check your connection."
  const AuthPathMarker: string := "/auth/"

  /** An error body: its `error` and `message` entries, and the string
      values found by flattening all its entries. */
  datatype ErrorBody = ErrorBody(error: Option<string>, message: Option<string>, strings: seq<string>)

  /** A failed request: no response at all, or a status with the request
      path and the decoded body (absent when it was not an object). */
  datatype Failure = NoResponse | HttpError(status: int, url: Option<string>, body: Option<ErrorBody>)

  /** What the response interceptor leaves behind. */
  datatype Handled = Handled(store: Storage, toasts: seq<string>, toLogin: bool)

  predicate Truthy(s: Option<string>) {
    s.Some? && s.value != []
  }

  predicate IsAuthEndpoint(url: Option<string>) {
    url.Some? && Contains(url.value, AuthPathMarker)
  }

  /** The response interceptor's error branch. */
  function OnError(f: Failure, store: Storage, browser: bool): (h: Handled)
    ensures h.store != store ==> f.HttpError? && f.status == 401 && IsAuthEndpoint(f.url) && browser
    ensures f.HttpError? && f.status == 401 && IsAuthEndpoint(f.url) ==>
              h.store == RemoveAuthToken(store, browser) && h.toasts == [SessionExpiredToast] && h.toLogin == browser
    ensures f.HttpError? && f.status == 401 && !IsAuthEndpoint(f.url) ==>
              h == Handled(store, [AuthErrorToast], false)
    ensures h.toLogin ==> f.HttpError? && f.status == 401
    ensures f.NoResponse? ==> h == Handled(store, [NetworkToast], false)
  {
    match f
    case NoResponse => Handled(store, [NetworkToast], false)
    case HttpError(status, url, body) =>
      if status == 401 then
        if IsAuthEndpoint(url) then Handled(RemoveAuthToken(store, browser), [SessionExpiredToast], browser)
        else Handled(store, [AuthErrorToast], false)
      else if status == 403 then Handled(store, [ForbiddenToast], false)
      else if status == 404 then Handled(store, [NotFoundToast], false)
      else if status == 422 then
        Handled(store, if body.Some? then body.value.strings else [ValidationToast], false)
      else if status == 500 then Handled(store, [ServerErrorToast], false)
      else if body.Some? && Truthy(body.value.error) then Handled(store, [body.value.error.value], false)
      else if body.Some? && Truthy(body.value.message) then Handled(store, [body.value.message.value], false)
      else Handled(store, [UnexpectedToast], false)
  }

  /** The server's `{'error': ...}` refusals (400 and others outside the
      listed codes) are shown verbatim. */
  lemma ErrorBodyShown(status: int, url: Option<string>, message: string, store: Storage, browser: bool)
    requires status !in {401, 403, 404, 422, 500} && message != []
    ensures OnError(HttpError(status, url, Some(ErrorBody(Some(message), None, [message]))), store, browser).toasts == [message]
  {
  }

  // ---------------------------------------------------------------------
  // Post payloads
  // ---------------------------------------------------------------------

  datatype Part = TextPart(name: string, value: string) | FilePart(name: string, file: ImageFile)

  datatype CreatePayload = CreateJson(fields: CreatePostData) | CreateForm(parts: seq<Part>)

  datatype UpdatePayload = UpdateJson(changes: UpdatePostData) | UpdateForm(parts: seq<Part>)

  /** One `tag_ids` entry per id, in order. */
  function TagParts(ids: seq<nat>): (r: seq<Part>)
    ensures |r| == |ids|
    ensures forall i :: 0 <= i < |ids| ==> r[i] == TextPart("tag_ids", NatToString(ids[i]))
  {
    if ids == [] then [] else [TextPart("tag_ids", NatToString(ids[0]))] + TagParts(ids[1..])
  }

  function TextIf(name: string, value: Option<string>): (r: seq<Part>)
    ensures r == [] <==> !Truthy(value)
  {
    if Truthy(value) then [TextPart(name, value.value)] else []
  }

  function CategoryPart(id: Option<nat>): (r: seq<Part>)
    ensures r == [] <==> id.None? || id.value == 0
  {
    if id.Some? && id.value != 0 then [TextPart("category_id", NatToString(id.value))] else []
  }

  function TagsPart(ids: Option<seq<nat>>): (r: seq<Part>)
    ensures ids.Some? ==> r == TagParts(ids.value)
    ensures ids.None? ==> r == []
  {
    if ids.Some? && |ids.value| > 0 then TagParts(ids.value) else []
  }

  /** The names of the parts, in order. */
  function PartNames(parts: seq<Part>): (r: seq<string>)
    ensures |r| == |parts|
    ensures forall i :: 0 <= i < |parts| ==> r[i] == parts[i].name
  {
    if parts == [] then [] else [parts[0].name] + PartNames(parts[1..])
  }

  /** `blogAPI.createPost`: a multipart form when an image is attached,
      JSON without the image key otherwise. */
  function CreatePayloadOf(d: CreatePostData): (p: CreatePayload)
    ensures d.featuredImage.None? <==> p.CreateJson?
    ensures p.CreateJson? ==> p.fields == d
    ensures p.CreateForm? ==> && |p.parts| >= 4
                              && p.parts[0] == TextPart("title", d.title)
                              && p.parts[1] == TextPart("content", d.content)
                              && p.parts[|p.parts| - 1] == FilePart("featured_image", d.featuredImage.value)
                              && forall i :: 0 <= i < |p.parts| - 1 ==> p.parts[i].TextPart?
  {
    match d.featuredImage
    case None => CreateJson(d)
    case Some(file) =>
      CreateForm([TextPart("title", d.title), TextPart("content", d.content)]
        + TextIf("excerpt", d.excerpt)
        + [TextPart("status", StatusName(d.status))]
        + CategoryPart(d.categoryId)
        + TagsPart(d.tagIds)
        + [FilePart("featured_image", file)])
  }

  /** `blogAPI.updatePost`: the same choice; a form carries only the
      truthy text fields. */
  function UpdatePayloadOf(d: UpdatePostData): (p: UpdatePayload)
    ensures d.featuredImage.None? <==> p.UpdateJson?
    ensures p.UpdateJson? ==> p.changes == d
    ensures p.UpdateForm? ==> && p.parts != []
                              && p.parts[|p.parts| - 1] == FilePart("featured_image", d.featuredImage.value)
                              && forall i :: 0 <= i < |p.parts| - 1 ==> p.parts[i].TextPart?
  {
    match d.featuredImage
    case None => UpdateJson(d)
    case Some(file) =>
      UpdateForm(TextIf("title", d.title)
        + TextIf("content", d.content)
        + TextIf("excerpt", d.excerpt)
        + (if d.status.Some? then [TextPart("status", StatusName(d.status.value))] else [])
        + CategoryPart(d.categoryId)
        + TagsPart(d.tagIds)
        + [FilePart("featured_image", file)])
  }

  /** The form of a create carries exactly one image part, and its tag
      parts spell the tag ids in order. */
  lemma CreateFormParts(d: CreatePostData)
    requires d.featuredImage.Some?
    ensures var parts := CreatePayloadOf(d).parts;
            var tagStart := |parts| - 1 - |TagsPart(d.tagIds)|;
            && (forall i :: 0 <= i < |parts| && parts[i].FilePart? ==> i == |parts| - 1)
            && 0 <= tagStart
            && parts[tagStart..|parts| - 1] == TagsPart(d.tagIds)
  {
  }
}

=== FILE: auth_serializers.dfy ===
/** The validation rules of the authentication serializers: registration,
    login, email verification, password reset (request and confirm) and
    profile update. Django's own password validators, its email syntax
    check, its username character check and password hashing are oracles
    passed in by the caller. */
module AuthSerializers {
  import opened Wrappers
  import opened Text
  import opened Fields
  import opened Users

  // ---------------------------------------------------------------------
  // Password strength
  // ---------------------------------------------------------------------

  const UpperMessage: string := "Password must contain at least one uppercase letter."
  const LowerMessage: string := "Password must contain at least one lowercase letter."
  const DigitMessage: string := "Password must contain at least one digit."
  const SpecialMessage: string := "Password must contain at least one special character."
  const MismatchMessage: string := "Passwords do not match."

  /** The class `[!@#$%^&*(),.?":{}|<>]`. */
  predicate IsSpecial(c: char) {
    c in "!@#$%^&*(),.?\":{}|<>"
  }

  predicate HasUpper(p: string) { exists i :: 0 <= i < |p| && IsAsciiUpper(p[i]) }
  predicate HasLower(p: string) { exists i :: 0 <= i < |p| && IsAsciiLower(p[i]) }
  predicate HasDigit(p: string) { exists i :: 0 <= i < |p| && IsAsciiDigit(p[i]) }
  predicate HasSpecial(p: string) { exists i :: 0 <= i < |p| && IsSpecial(p[i]) }

  predicate Strong(p: string) {
    HasUpper(p) && HasLower(p) && HasDigit(p) && HasSpecial(p)
  }

  /** The four class checks, in order; the first class missing names the
      error. */
  function StrengthError(p: string): (r: Option<string>)
    ensures r.None? <==> Strong(p)
    ensures r == Some(UpperMessage) <==> !HasUpper(p)
    ensures r == Some(LowerMessage) <==> HasUpper(p) && !HasLower(p)
    ensures r == Some(DigitMessage) <==> HasUpper(p) && HasLower(p) && !HasDigit(p)
    ensures r == Some(SpecialMessage) <==> HasUpper(p) && HasLower(p) && HasDigit(p) && !HasSpecial(p)
  {
    if !HasUpper(p) then Some(UpperMessage)
    else if !HasLower(p) then Some(LowerMessage)
    else if !HasDigit(p) then Some(DigitMessage)
    else if !HasSpecial(p) then Some(SpecialMessage)
    else None
  }

  /** `validate_password` of both password serializers: Django's validators
      first (all their messages), then the strength rule. */
  function PasswordErrors(p: string, frameworkErrors: string -> seq<string>): (msgs: seq<string>)
    ensures msgs == [] <==> frameworkErrors(p) == [] && Strong(p)
    ensures frameworkErrors(p) != [] ==> msgs == frameworkErrors(p)
    ensures frameworkErrors(p) == [] && !Strong(p) ==> |msgs| == 1
  {
    if frameworkErrors(p) != [] then frameworkErrors(p)
    else match StrengthError(p)
      case Some(m) => [m]
      case None => []
  }

  /** `validate` of both password serializers: the mismatch error needs
      both values non-empty. */
  function MatchError(password: string, confirm: string): (r: Option<string>)
    ensures r.Some? <==> password != [] && confirm != [] && password != confirm
    ensures r.Some? ==> r.value == MismatchMessage
  {
    if password != [] && confirm != [] && password != confirm then Some(MismatchMessage) else None
  }

  // ---------------------------------------------------------------------
  // Registration
  // ---------------------------------------------------------------------

  const EmailTakenMessage: string := "A user with this email already exists."
  const UsernameTakenMessage: string := "A user with this username already exists."

  predicate EmailTaken(users: seq<User>, email: string) {
    FindByEmail(users, email).Some?
  }

  function FindByUsername(users: seq<User>, name: string): (r: Option<User>)
    ensures r.Some? ==> r.value in users && r.value.username == name
    ensures r.None? <==> forall i :: 0 <= i < |users| ==> users[i].username != name
  {
    if users == [] then None
    else if users[0].username == name then Some(users[0])
    else FindByUsername(users[1..], name)
  }

  predicate UsernameTaken(users: seq<User>, name: string) {
    FindByUsername(users, name).Some?
  }

  /** The request body; `None` is a key that was not sent. */
  datatype RegistrationInput = RegistrationInput(
    username: Option<string>,
    email: Option<string>,
    password: Option<string>,
    passwordConfirm: Option<string>,
    firstName: Option<string>,
    lastName: Option<string>)

  /** The validated data handed to `create` (the confirmation is dropped). */
  datatype Registration = Registration(
    username: string,
    email: string,
    password: string,
    firstName: Option<string>,
    lastName: Option<string>)

  const UsernameField: CharField := CharField(true, false, Some(30), Some(3))
  const RegEmailField: CharField := CharField(true, false, None, None)
  const PasswordField: CharField := CharField(true, false, Some(128), Some(8))
  const ConfirmField: CharField := CharField(true, false, None, None)
  const NameField: CharField := CharField(false, true, Some(30), None)

  /** The address check an email field runs. */
  function EmailCheck(isEmail: string -> bool, v: string): (msgs: seq<string>)
    ensures msgs == [] <==> isEmail(v)
  {
    if isEmail(v) then [] else [InvalidEmailMessage]
  }

  function Taken(taken: bool, message: string): (msgs: seq<string>)
    ensures msgs == [] <==> !taken
  {
    if taken then [message] else []
  }

  /** The username field: its uniqueness check, then 3 to 30 characters. */
  function RegUsername(inp: RegistrationInput, users: seq<User>): FieldOutcome {
    RunField(UsernameField, inp.username, Taken(UsernameTaken(users, Cleaned(inp.username)), UsernameTakenMessage), [])
  }

  /** The email field: the explicit address and uniqueness checks, then
      the field's own address check (so a malformed address is reported
      twice). */
  function RegEmail(inp: RegistrationInput, users: seq<User>, isEmail: string -> bool): FieldOutcome {
    var v := Cleaned(inp.email);
    RunField(RegEmailField, inp.email,
             EmailCheck(isEmail, v) + Taken(EmailTaken(users, v), EmailTakenMessage), EmailCheck(isEmail, v))
  }

  /** A password field followed by `validate_password`. */
  function PasswordOutcome(p: Option<string>, frameworkErrors: string -> seq<string>): FieldOutcome {
    Then(RunField(PasswordField, p, [], []), PasswordErrors(Cleaned(p), frameworkErrors))
  }

  lemma RegUsernameAccepted(inp: RegistrationInput, users: seq<User>)
    requires RegUsername(inp, users).Value?
    ensures var v := RegUsername(inp, users).v;
            v == Cleaned(inp.username) && !UsernameTaken(users, v) && 3 <= |v| <= 30
  {
    AcceptedValue(UsernameField, inp.username, Taken(UsernameTaken(users, Cleaned(inp.username)), UsernameTakenMessage), []);
  }

  lemma RegEmailAccepted(inp: RegistrationInput, users: seq<User>, isEmail: string -> bool)
    requires RegEmail(inp, users, isEmail).Value?
    ensures var v := RegEmail(inp, users, isEmail).v;
            v == Cleaned(inp.email) && !EmailTaken(users, v) && isEmail(v)
  {
    var v := Cleaned(inp.email);
    var before := EmailCheck(isEmail, v) + Taken(EmailTaken(users, v), EmailTakenMessage);
    AcceptedValue(RegEmailField, inp.email, before, EmailCheck(isEmail, v));
    assert |before| == |EmailCheck(isEmail, v)| + |Taken(EmailTaken(users, v), EmailTakenMessage)|;
  }

  lemma PasswordAccepted(p: Option<string>, frameworkErrors: string -> seq<string>)
    requires PasswordOutcome(p, frameworkErrors).Value?
    ensures var v := PasswordOutcome(p, frameworkErrors).v;
            && v == Cleaned(p) && 8 <= |v| <= 128 && '\0' !in v
            && frameworkErrors(v) == [] && Strong(v)
  {
    AcceptedValue(PasswordField, p, [], []);
  }

  lemma NameAccepted(n: Option<string>)
    requires RunField(NameField, n, [], []).Value?
    ensures |RunField(NameField, n, [], []).v| <= 30
  {
    AcceptedValue(NameField, n, [], []);
  }

  /** The error dictionary of the six registration fields: each failing
      field reports under its own name, and nothing else is recorded. */
  function RegistrationErrors(inp: RegistrationInput, users: seq<User>, isEmail: string -> bool,
                              frameworkErrors: string -> seq<string>): (r: ErrorMap)
    ensures r == map[] <==>
              && !RegUsername(inp, users).Errors? && !RegEmail(inp, users, isEmail).Errors?
              && !PasswordOutcome(inp.password, frameworkErrors).Errors?
              && !RunField(ConfirmField, inp.passwordConfirm, [], []).Errors?
              && !RunField(NameField, inp.firstName, [], []).Errors?
              && !RunField(NameField, inp.lastName, [], []).Errors?
    ensures RegUsername(inp, users).Errors? ==>
              "username" in r && r["username"] == RegUsername(inp, users).messages
    ensures RegEmail(inp, users, isEmail).Errors? ==>
              "email" in r && r["email"] == RegEmail(inp, users, isEmail).messages
    ensures PasswordOutcome(inp.password, frameworkErrors).Errors? ==>
              "password" in r && r["password"] == PasswordOutcome(inp.password, frameworkErrors).messages
    ensures RunField(ConfirmField, inp.passwordConfirm, [], []).Errors? ==>
              "password_confirm" in r && r["password_confirm"] == RunField(ConfirmField, inp.passwordConfirm, [], []).messages
    ensures RunField(NameField, inp.firstName, [], []).Errors? ==>
              "first_name" in r && r["first_name"] == RunField(NameField, inp.firstName, [], []).messages
    ensures RunField(NameField, inp.lastName, [], []).Errors? ==>
              "last_name" in r && r["last_name"] == RunField(NameField, inp.lastName, [], []).messages
    ensures r.Keys <= {"username", "email", "password", "password_confirm", "first_name", "last_name"}
  {
    // the dictionary is unordered, so the fields the contract names are
    // recorded last
    var m1 := Record(map[], "password", PasswordOutcome(inp.password, frameworkErrors));
    var m2 := Record(m1, "password_confirm", RunField(ConfirmField, inp.passwordConfirm, [], []));
    var m3 := Record(m2, "first_name", RunField(NameField, inp.firstName, [], []));
    var m4 := Record(m3, "last_name", RunField(NameField, inp.lastName, [], []));
    var m5 := Record(m4, "email", RegEmail(inp, users, isEmail));
    Record(m5, "username", RegUsername(inp, users))
  }

  /** The validated registration data; failures carry the error
      dictionary. */
  function ValidateRegistration(inp: RegistrationInput, users: seq<User>, isEmail: string -> bool,
                                frameworkErrors: string -> seq<string>): (r: Result<Registration, ErrorMap>)
    ensures r.Failure? ==> r.error != map[]
    ensures r.Success? <==> && RegistrationErrors(inp, users, isEmail, frameworkErrors) == map[]
                            && MatchError(Cleaned(inp.password), Cleaned(inp.passwordConfirm)).None?
    ensures RegistrationErrors(inp, users, isEmail, frameworkErrors) != map[] ==>
              r == Failure(RegistrationErrors(inp, users, isEmail, frameworkErrors))
    ensures RegistrationErrors(inp, users, isEmail, frameworkErrors) == map[]
            && MatchError(Cleaned(inp.password), Cleaned(inp.passwordConfirm)).Some? ==>
              r == Failure(NonField(MismatchMessage))
    ensures r.Success? ==> r.value.username == Cleaned(inp.username) && r.value.email == Cleaned(inp.email)
                           && r.value.password == Cleaned(inp.password)
  {
    var username := RegUsername(inp, users);
    var email := RegEmail(inp, users, isEmail);
    var password := PasswordOutcome(inp.password, frameworkErrors);
    var confirm := RunField(ConfirmField, inp.passwordConfirm, [], []);
    var first := RunField(NameField, inp.firstName, [], []);
    var last := RunField(NameField, inp.lastName, [], []);
    var errors := RegistrationErrors(inp, users, isEmail, frameworkErrors);
    // field errors are reported before the object-level check runs
    if username.Value? && email.Value? && password.Value? && confirm.Value? && !first.Errors? && !last.Errors? then
      match MatchError(password.v, confirm.v)
      case Some(m) => Failure(NonField(m))
      case None => Success(Registration(username.v, email.v, password.v, Supplied(first), Supplied(last)))
    else Failure(errors)
  }

  /** What an accepted registration guarantees: a free username of 3 to
      30 characters, a free well-formed address, a strong password of 8 to
      128 characters equal to its confirmation, and names of at most 30
      characters. */
  lemma RegistrationAccepted(inp: RegistrationInput, users: seq<User>, isEmail: string -> bool,
                             frameworkErrors: string -> seq<string>)
    requires ValidateRegistration(inp, users, isEmail, frameworkErrors).Success?
    ensures var reg := ValidateRegistration(inp, users, isEmail, frameworkErrors).value;
            && !UsernameTaken(users, reg.username) && 3 <= |reg.username| <= 30
            && !EmailTaken(users, reg.email) && isEmail(reg.email)
            && 8 <= |reg.password| <= 128 && Strong(reg.password)
            && frameworkErrors(reg.password) == []
            && inp.passwordConfirm.Some? && Cleaned(inp.passwordConfirm) == reg.password
            && (reg.firstName.Some? ==> |reg.firstName.value| <= 30)
            && (reg.lastName.Some? ==> |reg.lastName.value| <= 30)
  {
    RegUsernameAccepted(inp, users);
    RegEmailAccepted(inp, users, isEmail);
    PasswordAccepted(inp.password, frameworkErrors);
    if RunField(NameField, inp.firstName, [], []).Value? {
      NameAccepted(inp.firstName);
    }
    if RunField(NameField, inp.lastName, [], []).Value? {
      NameAccepted(inp.lastName);
    }
    AcceptedValue(ConfirmField, inp.passwordConfirm, [], []);
  }

  /** The other direction of `RegistrationAccepted`: a free username of
      3 to 30 characters, a free well-formed address, a strong password of
      8 to 128 characters that Django's validators accept, the same
      password as confirmation, and names of at most 30 characters, none
      of them holding NUL, make a registration of exactly those values. */
  lemma RegistrationAcceptedWhen(inp: RegistrationInput, users: seq<User>, isEmail: string -> bool,
                                 frameworkErrors: string -> seq<string>)
    requires inp.username.Some? && inp.email.Some? && inp.password.Some? && inp.passwordConfirm.Some?
    requires var u := Cleaned(inp.username); 3 <= |u| <= 30 && '\0' !in u && !UsernameTaken(users, u)
    requires var e := Cleaned(inp.email); e != [] && '\0' !in e && isEmail(e) && !EmailTaken(users, e)
    requires var p := Cleaned(inp.password);
             8 <= |p| <= 128 && '\0' !in p && Strong(p) && frameworkErrors(p) == []
    requires Cleaned(inp.passwordConfirm) == Cleaned(inp.password)
    requires inp.firstName.Some? ==> |Cleaned(inp.firstName)| <= 30 && '\0' !in Cleaned(inp.firstName)
    requires inp.lastName.Some? ==> |Cleaned(inp.lastName)| <= 30 && '\0' !in Cleaned(inp.lastName)
    ensures ValidateRegistration(inp, users, isEmail, frameworkErrors)
            == Success(Registration(Cleaned(inp.username), Cleaned(inp.email), Cleaned(inp.password),
                                    if inp.firstName.Some? then Some(Cleaned(inp.firstName)) else None,
                                    if inp.lastName.Some? then Some(Cleaned(inp.lastName)) else None))
  {
    var u := Cleaned(inp.username);
    var e := Cleaned(inp.email);
    ValueAccepted(UsernameField, inp.username);
    assert Taken(UsernameTaken(users, u), UsernameTakenMessage) == [];
    assert RegUsername(inp, users) == Value(u);
    assert EmailCheck(isEmail, e) + Taken(EmailTaken(users, e), EmailTakenMessage) == [];
    ValueAccepted(RegEmailField, inp.email);
    assert RegEmail(inp, users, isEmail) == Value(e);
    ValueAccepted(PasswordField, inp.password);
    ValueAccepted(ConfirmField, inp.passwordConfirm);
    if inp.firstName.Some? && Cleaned(inp.firstName) != [] {
      ValueAccepted(NameField, inp.firstName);
    }
    if inp.lastName.Some? && Cleaned(inp.lastName) != [] {
      ValueAccepted(NameField, inp.lastName);
    }
  }

  /** The registration error dictionary when some field fails. */
  lemma RegistrationFieldErrors(inp: RegistrationInput, users: seq<User>, isEmail: string -> bool,
                                frameworkErrors: string -> seq<string>)
    requires RegEmail(inp, users, isEmail).Errors? || RegUsername(inp, users).Errors?
    ensures var r := ValidateRegistration(inp, users, isEmail, frameworkErrors);
            && r.Failure?
            && (RegEmail(inp, users, isEmail).Errors? ==> "email" in r.error && r.error["email"] == RegEmail(inp, users, isEmail).messages)
            && (RegUsername(inp, users).Errors? ==> "username" in r.error && r.error["username"] == RegUsername(inp, users).messages)
  {
  }

  /** An address already in use is refused, with the uniqueness message
      among the email errors. */
  lemma RegistrationRejectsTakenEmail(inp: RegistrationInput, users: seq<User>, isEmail: string -> bool,
                                      frameworkErrors: string -> seq<string>)
    requires inp.email.Some? && Cleaned(inp.email) != []
    requires EmailTaken(users, Cleaned(inp.email))
    ensures var r := ValidateRegistration(inp, users, isEmail, frameworkErrors);
            r.Failure? && "email" in r.error && EmailTakenMessage in r.error["email"]
  {
    var v := Cleaned(inp.email);
    var before := EmailCheck(isEmail, v) + Taken(EmailTaken(users, v), EmailTakenMessage);
    assert EmailTakenMessage in before;
    RegistrationFieldErrors(inp, users, isEmail, frameworkErrors);
  }

  /** A username already in use is refused likewise. */
  lemma RegistrationRejectsTakenUsername(inp: RegistrationInput, users: seq<User>, isEmail: string -> bool,
                                         frameworkErrors: string -> seq<string>)
    requires inp.username.Some? && Cleaned(inp.username) != []
    requires UsernameTaken(users, Cleaned(inp.username))
    ensures var r := ValidateRegistration(inp, users, isEmail, frameworkErrors);
            r.Failure? && "username" in r.error && UsernameTakenMessage in r.error["username"]
  {
    RegistrationFieldErrors(inp, users, isEmail, frameworkErrors);
  }

  /** The mismatch error comes only from differing passwords that both
      passed their fields, and then it is the only error. */
  lemma RegistrationMismatch(inp: RegistrationInput, users: seq<User>, isEmail: string -> bool,
                             frameworkErrors: string -> seq<string>)
    requires var r := ValidateRegistration(inp, users, isEmail, frameworkErrors);
             r.Failure? && NonFieldErrors in r.error
    ensures inp.password.Some? && inp.passwordConfirm.Some?
    ensures Cleaned(inp.password) != Cleaned(inp.passwordConfirm)
    ensures ValidateRegistration(inp, users, isEmail, frameworkErrors).error == NonField(MismatchMessage)
  {
    var password := PasswordOutcome(inp.password, frameworkErrors);
    var confirm := RunField(ConfirmField, inp.passwordConfirm, [], []);
    if && RegUsername(inp, users).Value? && RegEmail(inp, users, isEmail).Value?
       && password.Value? && confirm.Value?
       && !RunField(NameField, inp.firstName, [], []).Errors? && !RunField(NameField, inp.lastName, [], []).Errors? {
      assert MatchError(password.v, confirm.v).Some?;
    } else {
      assert false;
    }
  }

  /** The id the database gives the next row. */
  function NextId(users: seq<User>): (id: nat)
    ensures id >= 1
    ensures forall i :: 0 <= i < |users| ==> users[i].id < id
  {
    if users == [] then 1
    else
      var rest := NextId(users[1..]);
      assert forall i :: 1 <= i < |users| ==> users[i] == users[1..][i - 1];
      if users[0].id + 1 > rest then users[0].id + 1 else rest
  }

  /** `create`: a new active, unverified row with a hashed password. */
  function CreateUser(users: seq<User>, reg: Registration, hash: string -> string): (r: seq<User>)
    ensures |r| == |users| + 1 && r[..|users|] == users
    ensures var u := r[|users|];
            && u.email == reg.email && u.username == reg.username
            && u.firstName == reg.firstName.GetOr([]) && u.lastName == reg.lastName.GetOr([])
            && u.isActive && !u.isEmailVerified
            && u.verification == Cleared && u.reset == Cleared
            && u.passwordHash == hash(reg.password)
            && u.id != 0 && forall i :: 0 <= i < |users| ==> users[i].id != u.id
  {
    users + [User(NextId(users), reg.email, reg.username, reg.firstName.GetOr([]), reg.lastName.GetOr([]),
                  None, true, false, Cleared, Cleared, hash(reg.password))]
  }

  predicate UniqueEmails(users: seq<User>) {
    forall i, j :: 0 <= i < j < |users| ==> users[i].email != users[j].email
  }

  predicate UniqueUsernames(users: seq<User>) {
    forall i, j :: 0 <= i < j < |users| ==> users[i].username != users[j].username
  }

  /** Adding a row whose email and username are free keeps ids, emails
      and usernames unique across the table. */
  lemma CreateKeepsTableUnique(users: seq<User>, reg: Registration, hash: string -> string)
    requires UniqueIds(users) && UniqueEmails(users) && UniqueUsernames(users)
    requires !EmailTaken(users, reg.email) && !UsernameTaken(users, reg.username)
    ensures var after := CreateUser(users, reg, hash);
            UniqueIds(after) && UniqueEmails(after) && UniqueUsernames(after)
  {
    var after := CreateUser(users, reg, hash);
    forall i, j | 0 <= i < j < |after|
      ensures after[i].id != after[j].id && after[i].email != after[j].email
              && after[i].username != after[j].username
    {
      assert after[i] == users[i];
      if j < |users| {
        assert after[j] == users[j];
      }
    }
  }

  /** Registering through the serializer keeps the table unique. */
  lemma RegistrationKeepsTableUnique(inp: RegistrationInput, users: seq<User>, isEmail: string -> bool,
                                     frameworkErrors: string -> seq<string>, hash: string -> string)
    requires UniqueIds(users) && UniqueEmails(users) && UniqueUsernames(users)
    requires ValidateRegistration(inp, users, isEmail, frameworkErrors).Success?
    ensures var after := CreateUser(users, ValidateRegistration(inp, users, isEmail, frameworkErrors).value, hash);
            UniqueIds(after) && UniqueEmails(after) && UniqueUsernames(after)
  {
    RegistrationAccepted(inp, users, isEmail, frameworkErrors);
    CreateKeepsTableUnique(users, ValidateRegistration(inp, users, isEmail, frameworkErrors).value, hash);
  }

  // ---------------------------------------------------------------------
  // Login
  // ---------------------------------------------------------------------

  const MissingCredentialsMessage: string := "Must include email and password."
  const InvalidCredentialsMessage: string := "Invalid credentials."
  const DisabledMessage: string := "User account is disabled."

  /** `UserLoginSerializer.validate` on the cleaned values. The password
      check is the caller's `passwordMatches` (the stored hash against the
      candidate). Email verification is not consulted. */
  function LoginCheck(email: Option<string>, password: Option<string>, users: seq<User>,
                      passwordMatches: (User, string) -> bool): (r: Result<User, string>)
    ensures r.Success? <==> && email.Some? && email.value != [] && password.Some? && password.value != []
                            && FindByEmail(users, email.value).Some?
                            && passwordMatches(FindByEmail(users, email.value).value, password.value)
                            && FindByEmail(users, email.value).value.isActive
    ensures r.Success? ==> r.value in users && Some(r.value.email) == email && r.value.isActive
    ensures r.Failure? ==> r.error in {MissingCredentialsMessage, InvalidCredentialsMessage, DisabledMessage}
    ensures r == Failure(MissingCredentialsMessage) <==>
              !(email.Some? && email.value != [] && password.Some? && password.value != [])
    ensures r == Failure(InvalidCredentialsMessage) <==>
              && email.Some? && email.value != [] && password.Some? && password.value != []
              && (FindByEmail(users, email.value).None?
                  || !passwordMatches(FindByEmail(users, email.value).value, password.value))
    ensures r == Failure(DisabledMessage) <==>
              && email.Some? && email.value != [] && password.Some? && password.value != []
              && FindByEmail(users, email.value).Some?
              && passwordMatches(FindByEmail(users, email.value).value, password.value)
              && !FindByEmail(users, email.value).value.isActive
  {
    if email.Some? && email.value != [] && password.Some? && password.value != [] then
      match FindByEmail(users, email.value)
      case None => Failure(InvalidCredentialsMessage)
      case Some(u) =>
        if !passwordMatches(u, password.value) then Failure(InvalidCredentialsMessage)
        else if !u.isActive then Failure(DisabledMessage)
        else Success(u)
    else Failure(MissingCredentialsMessage)
  }

  /** An unknown address and a wrong password for a known one are
      indistinguishable to the caller. */
  lemma UnknownEmailLooksLikeWrongPassword(email: string, password: string, users: seq<User>,
                                           passwordMatches: (User, string) -> bool)
    requires email != [] && password != []
    requires FindByEmail(users, email).None? ||
             !passwordMatches(FindByEmail(users, email).value, password)
    ensures LoginCheck(Some(email), Some(password), users, passwordMatches) == Failure(InvalidCredentialsMessage)
  {
  }

  /** An unverified but active user with the right password logs in. */
  lemma UnverifiedUserLogsIn(users: seq<User>, k: nat, password: string, passwordMatches: (User, string) -> bool)
    requires UniqueEmails(users) && k < |users|
    requires users[k].email != [] && password != []
    requires users[k].isActive && !users[k].isEmailVerified && passwordMatches(users[k], password)
    ensures LoginCheck(Some(users[k].email), Some(password), users, passwordMatches) == Success(users[k])
  {
    FindByEmailUnique(users, k);
  }

  lemma {:induction false} FindByEmailUnique(users: seq<User>, k: nat)
    requires UniqueEmails(users) && k < |users|
    ensures FindByEmail(users, users[k].email) == Some(users[k])
  {
    if k > 0 {
      FindByEmailUnique(users[1..], k - 1);
    }
  }

  const PlainEmailField: CharField := CharField(true, false, None, None)
  const LoginPasswordField: CharField := CharField(true, false, None, None)

  /** A plain email field: required, not blank, the address check last. */
  function EmailOutcome(email: Option<string>, isEmail: string -> bool): FieldOutcome {
    RunField(PlainEmailField, email, [], EmailCheck(isEmail, Cleaned(email)))
  }

  /** The whole login serializer: the fields first, then `validate`. */
  function ValidateLogin(email: Option<string>, password: Option<string>, users: seq<User>,
                         isEmail: string -> bool, passwordMatches: (User, string) -> bool): (r: Result<User, ErrorMap>)
    ensures r.Success? <==> && EmailOutcome(email, isEmail).Value?
                            && RunField(LoginPasswordField, password, [], []).Value?
                            && LoginCheck(Some(Cleaned(email)), Some(Cleaned(password)), users, passwordMatches).Success?
    ensures r.Success? ==> r.value.isActive && r.value.email == Cleaned(email) && isEmail(r.value.email)
    ensures r.Failure? ==> r.error != map[]
  {
    var e := EmailOutcome(email, isEmail);
    var p := RunField(LoginPasswordField, password, [], []);
    var errors := Record(Record(map[], "email", e), "password", p);
    if errors != map[] then Failure(errors)
    else match LoginCheck(Supplied(e), Supplied(p), users, passwordMatches)
      case Success(u) => Success(u)
      case Failure(m) => Failure(NonField(m))
  }

  /** Because both fields are required and may not be blank, the
      "Must include email and password." branch of `validate` is never
      reached through the serializer. */
  lemma {:induction false} MissingCredentialsUnreachable(email: Option<string>, password: Option<string>, users: seq<User>,
                                      isEmail: string -> bool, passwordMatches: (User, string) -> bool)
    ensures var r := ValidateLogin(email, password, users, isEmail, passwordMatches);
            r.Failure? ==> r.error != NonField(MissingCredentialsMessage)
  {
    var e := EmailOutcome(email, isEmail);
    var p := RunField(LoginPasswordField, password, [], []);
    if e.Value? && p.Value? {
      assert e.v != [] && p.v != [];
      assert LoginCheck(Supplied(e), Supplied(p), users, passwordMatches) != Failure(MissingCredentialsMessage);
    }
  }

  // ---------------------------------------------------------------------
  // Email verification and password reset
  // ---------------------------------------------------------------------

  const TokenRequiredMessage: string := "Verification token is required."
  const NoUserMessage: string := "No user found with this email address."

  const TokenField: CharField := CharField(true, false, Some(100), None)

  /** The check of `validate_token`. */
  function TokenPresent(v: string): (msgs: seq<string>)
    ensures msgs != [] <==> v == []
  {
    if v == [] then [TokenRequiredMessage] else []
  }

  /** `EmailVerificationSerializer`: a token of at most 100 characters.
      The emptiness check of `validate_token` can never fire, since a blank
      token is already refused by the field. */
  function ValidateVerificationToken(token: Option<string>): (r: Result<string, seq<string>>)
    ensures r.Success? <==> token.Some? && 1 <= |Cleaned(token)| <= 100 && '\0' !in Cleaned(token)
    ensures r.Success? ==> r.value == Cleaned(token)
    ensures r.Failure? ==> TokenRequiredMessage !in r.error
  {
    match Then(RunField(TokenField, token, [], []), TokenPresent(Cleaned(token)))
    case Value(v) => Success(v)
    case Errors(m) => Failure(m)
    case Absent => Failure([RequiredMessage])
  }

  /** `PasswordResetRequestSerializer`: a well-formed address that belongs
      to some user. */
  function ValidateResetRequest(email: Option<string>, users: seq<User>, isEmail: string -> bool): (r: Result<string, seq<string>>)
    ensures r.Success? <==> EmailOutcome(email, isEmail).Value? && EmailTaken(users, Cleaned(email))
    ensures r.Success? ==> r.value == Cleaned(email) && isEmail(r.value)
    ensures EmailOutcome(email, isEmail).Value? && !EmailTaken(users, Cleaned(email)) ==> r == Failure([NoUserMessage])
  {
    match Then(EmailOutcome(email, isEmail), Taken(!EmailTaken(users, Cleaned(email)), NoUserMessage))
    case Value(v) => Success(v)
    case Errors(m) => Failure(m)
    case Absent => Failure([RequiredMessage])
  }

  datatype ResetConfirm = ResetConfirm(token: string, password: string)

  /** `PasswordResetSerializer`: the same strength and match rules as
      registration, plus a token of at most 100 characters. */
  function ValidateResetConfirm(token: Option<string>, password: Option<string>, confirm: Option<string>,
                                frameworkErrors: string -> seq<string>): (r: Result<ResetConfirm, ErrorMap>)
    ensures r.Failure? ==> r.error != map[]
    ensures var t := RunField(TokenField, token, [], []);
            var p := PasswordOutcome(password, frameworkErrors);
            var c := RunField(ConfirmField, confirm, [], []);
            && (r.Success? <==> t.Value? && p.Value? && c.Value? && MatchError(Cleaned(password), Cleaned(confirm)).None?)
            && (t.Errors? ==> r.Failure? && "token" in r.error && r.error["token"] == t.messages)
            && (p.Errors? ==> r.Failure? && "password" in r.error && r.error["password"] == p.messages)
            && (c.Errors? ==> r.Failure? && "password_confirm" in r.error && r.error["password_confirm"] == c.messages)
    ensures r.Success? ==> r.value == ResetConfirm(Cleaned(token), Cleaned(password))
  {
    var t := RunField(TokenField, token, [], []);
    var p := PasswordOutcome(password, frameworkErrors);
    var c := RunField(ConfirmField, confirm, [], []);
    var errors := Record(Record(Record(map[], "token", t), "password", p), "password_confirm", c);
    if t.Value? && p.Value? && c.Value? then
      match MatchError(p.v, c.v)
      case Some(m) => Failure(NonField(m))
      case None => Success(ResetConfirm(t.v, p.v))
    else Failure(errors)
  }

  /** What an accepted reset guarantees: a token of 1 to 100 characters
      and a strong password of 8 to 128 characters equal to its
      confirmation. */
  lemma ResetConfirmAccepted(token: Option<string>, password: Option<string>, confirm: Option<string>,
                             frameworkErrors: string -> seq<string>)
    requires ValidateResetConfirm(token, password, confirm, frameworkErrors).Success?
    ensures var rc := ValidateResetConfirm(token, password, confirm, frameworkErrors).value;
            && 1 <= |rc.token| <= 100
            && 8 <= |rc.password| <= 128 && Strong(rc.password) && frameworkErrors(rc.password) == []
            && confirm.Some? && Cleaned(confirm) == rc.password
  {
    AcceptedValue(TokenField, token, [], []);
    PasswordAccepted(password, frameworkErrors);
    AcceptedValue(ConfirmField, confirm, [], []);
  }

  /** The other direction of `ResetConfirmAccepted`: a token of 1 to 100
      characters and a strong password of 8 to 128 characters, repeated
      as its confirmation, none holding NUL, make an accepted reset. */
  lemma ResetConfirmAcceptedWhen(token: Option<string>, password: Option<string>, confirm: Option<string>,
                                 frameworkErrors: string -> seq<string>)
    requires token.Some? && 1 <= |Cleaned(token)| <= 100 && '\0' !in Cleaned(token)
    requires password.Some? && 8 <= |Cleaned(password)| <= 128 && '\0' !in Cleaned(password)
    requires Strong(Cleaned(password)) && frameworkErrors(Cleaned(password)) == []
    requires confirm.Some? && Cleaned(confirm) == Cleaned(password)
    ensures ValidateResetConfirm(token, password, confirm, frameworkErrors)
            == Success(ResetConfirm(Cleaned(token), Cleaned(password)))
  {
    ValueAccepted(TokenField, token);
    ValueAccepted(PasswordField, password);
    ValueAccepted(ConfirmField, confirm);
  }

  /** The password rule shared by registration and reset, stated on the
      raw input: a candidate passes iff, once stripped, it has 8 to 128
      characters, no NUL, no objection from Django's validators, and all
      four character classes. */
  lemma PasswordRule(p: Option<string>, frameworkErrors: string -> seq<string>)
    ensures PasswordOutcome(p, frameworkErrors).Value? <==>
              && p.Some?
              && 8 <= |Cleaned(p)| <= 128 && '\0' !in Cleaned(p)
              && frameworkErrors(Cleaned(p)) == [] && Strong(Cleaned(p))
  {
  }

  /** Registration and reset refuse the same passwords. */
  lemma ResetUsesRegistrationRule(inp: RegistrationInput, users: seq<User>, isEmail: string -> bool,
                                  frameworkErrors: string -> seq<string>, token: Option<string>)
    requires ValidateResetConfirm(token, inp.password, inp.passwordConfirm, frameworkErrors).Success?
    ensures !PasswordOutcome(inp.password, frameworkErrors).Errors?
  {
  }

  // ---------------------------------------------------------------------
  // Profile update
  // ---------------------------------------------------------------------

  /** The message of the model's own uniqueness constraint on `username`. */
  const ModelUsernameTakenMessage: string := "A user with that username already exists."
  const UsernameCharsMessage: string :=
    "Enter a valid username. This value may contain only letters, numbers, and @/./+/-/_ characters."

  /** Another row than the one with id `self` carries `name`. */
  predicate TakenByOther(users: seq<User>, self: nat, name: string) {
    exists i :: 0 <= i < |users| && users[i].id != self && users[i].username == name
  }

  datatype ProfileInput = ProfileInput(
    username: Option<string>,
    firstName: Option<string>,
    lastName: Option<string>,
    phoneNumber: Option<string>)

  const PhoneField: CharField := CharField(false, true, Some(15), None)

  /** The username field of the profile serializer, carrying the model's
      rules: the character check, uniqueness excluding the instance being
      edited, at most 150 characters; then `validate_username`, whose
      uniqueness check excludes the requester. */
  function ProfileUsername(instance: User, requester: User, inp: ProfileInput, users: seq<User>,
                           usernameChars: string -> bool, partial: bool): FieldOutcome
  {
    var v := Cleaned(inp.username);
    Then(RunField(CharField(!partial, false, Some(150), None), inp.username,
                  (if usernameChars(v) then [] else [UsernameCharsMessage])
                  + Taken(TakenByOther(users, instance.id, v), ModelUsernameTakenMessage), []),
         Taken(TakenByOther(users, requester.id, v), UsernameTakenMessage))
  }

  /** An accepted profile username passed the character check, both
      uniqueness checks and the length limit. */
  lemma ProfileUsernameAccepted(instance: User, requester: User, inp: ProfileInput, users: seq<User>,
                                usernameChars: string -> bool, partial: bool)
    requires ProfileUsername(instance, requester, inp, users, usernameChars, partial).Value?
    ensures var v := ProfileUsername(instance, requester, inp, users, usernameChars, partial).v;
            && v == Cleaned(inp.username)
            && !TakenByOther(users, instance.id, v) && !TakenByOther(users, requester.id, v)
            && |v| <= 150
  {
    var v := Cleaned(inp.username);
    var before := (if usernameChars(v) then [] else [UsernameCharsMessage])
                  + Taken(TakenByOther(users, instance.id, v), ModelUsernameTakenMessage);
    AcceptedValue(CharField(!partial, false, Some(150), None), inp.username, before, []);
    assert |before| == |(if usernameChars(v) then [] else [UsernameCharsMessage])|
                       + |Taken(TakenByOther(users, instance.id, v), ModelUsernameTakenMessage)|;
  }

  /** What each accepted profile field guarantees. */
  lemma ProfileFieldsAccepted(instance: User, requester: User, inp: ProfileInput, users: seq<User>,
                              usernameChars: string -> bool, partial: bool)
    ensures var u := ProfileUsername(instance, requester, inp, users, usernameChars, partial);
            u.Value? ==>
              && !TakenByOther(users, instance.id, u.v) && !TakenByOther(users, requester.id, u.v)
              && |u.v| <= 150
    ensures RunField(NameField, inp.firstName, [], []).Value? ==> |RunField(NameField, inp.firstName, [], []).v| <= 30
    ensures RunField(NameField, inp.lastName, [], []).Value? ==> |RunField(NameField, inp.lastName, [], []).v| <= 30
    ensures RunField(PhoneField, inp.phoneNumber, [], []).Value? ==> |RunField(PhoneField, inp.phoneNumber, [], []).v| <= 15
  {
    if ProfileUsername(instance, requester, inp, users, usernameChars, partial).Value? {
      ProfileUsernameAccepted(instance, requester, inp, users, usernameChars, partial);
    }
    if RunField(NameField, inp.firstName, [], []).Value? {
      NameAccepted(inp.firstName);
    }
    if RunField(NameField, inp.lastName, [], []).Value? {
      NameAccepted(inp.lastName);
    }
    if RunField(PhoneField, inp.phoneNumber, [], []).Value? {
      AcceptedValue(PhoneField, inp.phoneNumber, [], []);
    }
  }

  /** The error dictionary of the four profile fields. */
  function ProfileErrors(instance: User, requester: User, inp: ProfileInput, users: seq<User>,
                         usernameChars: string -> bool, partial: bool): (r: ErrorMap)
    ensures r == map[] <==>
              && !ProfileUsername(instance, requester, inp, users, usernameChars, partial).Errors?
              && !RunField(NameField, inp.firstName, [], []).Errors?
              && !RunField(NameField, inp.lastName, [], []).Errors?
              && !RunField(PhoneField, inp.phoneNumber, [], []).Errors?
    ensures ProfileUsername(instance, requester, inp, users, usernameChars, partial).Errors? ==>
              && "username" in r
              && r["username"] == ProfileUsername(instance, requester, inp, users, usernameChars, partial).messages
  {
    var m1 := Record(map[], "username", ProfileUsername(instance, requester, inp, users, usernameChars, partial));
    var m2 := Record(m1, "first_name", RunField(NameField, inp.firstName, [], []));
    var m3 := Record(m2, "last_name", RunField(NameField, inp.lastName, [], []));
    Record(m3, "phone_number", RunField(PhoneField, inp.phoneNumber, [], []))
  }

  /** `UserProfileUpdateSerializer` applied to `instance` on behalf of
      `requester`. Only the four listed fields can change: email,
      verification status and the secrets are out of reach. With
      `partial`, a missing username is not an error. */
  function UpdateProfile(instance: User, requester: User, inp: ProfileInput, users: seq<User>,
                         usernameChars: string -> bool, partial: bool): (r: Result<User, ErrorMap>)
    ensures r.Success? ==>
              && r.value == instance.(username := r.value.username, firstName := r.value.firstName,
                                       lastName := r.value.lastName, phoneNumber := r.value.phoneNumber)
              && (r.value.username != instance.username ==>
                    && !TakenByOther(users, instance.id, r.value.username)
                    && !TakenByOther(users, requester.id, r.value.username)
                    && |r.value.username| <= 150)
              && (r.value.firstName != instance.firstName ==> |r.value.firstName| <= 30)
              && (r.value.lastName != instance.lastName ==> |r.value.lastName| <= 30)
              && (r.value.phoneNumber != instance.phoneNumber ==>
                    r.value.phoneNumber.Some? && |r.value.phoneNumber.value| <= 15)
    ensures r.Success? ==> r.value.email == instance.email && r.value.isEmailVerified == instance.isEmailVerified
    ensures r.Failure? ==> r.error != map[] && r.error == ProfileErrors(instance, requester, inp, users, usernameChars, partial)
    ensures r.Success? <==> ProfileErrors(instance, requester, inp, users, usernameChars, partial) == map[]
    ensures r.Success? ==>
              && r.value.username == (if inp.username.Some? then Cleaned(inp.username) else instance.username)
              && r.value.firstName == (if inp.firstName.Some? then Cleaned(inp.firstName) else instance.firstName)
              && r.value.lastName == (if inp.lastName.Some? then Cleaned(inp.lastName) else instance.lastName)
              && r.value.phoneNumber == (if inp.phoneNumber.Some? then Some(Cleaned(inp.phoneNumber)) else instance.phoneNumber)
  {
    var username := ProfileUsername(instance, requester, inp, users, usernameChars, partial);
    var first := RunField(NameField, inp.firstName, [], []);
    var last := RunField(NameField, inp.lastName, [], []);
    var phone := RunField(PhoneField, inp.phoneNumber, [], []);
    var errors := ProfileErrors(instance, requester, inp, users, usernameChars, partial);
    if errors != map[] then Failure(errors)
    else
      ProfileFieldsAccepted(instance, requester, inp, users, usernameChars, partial);
      Success(instance.(
        username := if username.Value? then username.v else instance.username,
        firstName := if first.Value? then first.v else instance.firstName,
        lastName := if last.Value? then last.v else instance.lastName,
        phoneNumber := if phone.Value? then Some(phone.v) else instance.phoneNumber))
  }

  /** Sent values that pass every check leave no profile error. */
  lemma ProfileFieldsPassWhen(instance: User, requester: User, inp: ProfileInput, users: seq<User>,
                              usernameChars: string -> bool, partial: bool)
    requires inp.username.None? ==> partial
    requires inp.username.Some? ==>
               var u := Cleaned(inp.username);
               && 1 <= |u| <= 150 && '\0' !in u && usernameChars(u)
               && !TakenByOther(users, instance.id, u) && !TakenByOther(users, requester.id, u)
    requires inp.firstName.Some? ==> |Cleaned(inp.firstName)| <= 30 && '\0' !in Cleaned(inp.firstName)
    requires inp.lastName.Some? ==> |Cleaned(inp.lastName)| <= 30 && '\0' !in Cleaned(inp.lastName)
    requires inp.phoneNumber.Some? ==> |Cleaned(inp.phoneNumber)| <= 15 && '\0' !in Cleaned(inp.phoneNumber)
    ensures ProfileErrors(instance, requester, inp, users, usernameChars, partial) == map[]
  {
    if inp.username.Some? {
      var u := Cleaned(inp.username);
      var before := (if usernameChars(u) then [] else [UsernameCharsMessage])
                    + Taken(TakenByOther(users, instance.id, u), ModelUsernameTakenMessage);
      assert before == [];
      ValueAccepted(CharField(!partial, false, Some(150), None), inp.username);
      assert ProfileUsername(instance, requester, inp, users, usernameChars, partial) == Value(u);
    }
    if inp.firstName.Some? && Cleaned(inp.firstName) != [] {
      ValueAccepted(NameField, inp.firstName);
    }
    if inp.lastName.Some? && Cleaned(inp.lastName) != [] {
      ValueAccepted(NameField, inp.lastName);
    }
    if inp.phoneNumber.Some? && Cleaned(inp.phoneNumber) != [] {
      ValueAccepted(PhoneField, inp.phoneNumber);
    }
  }

  /** The other direction of `UpdateProfile`'s guarantees: sent values
      that pass every check are stored as cleaned, and unsent ones leave
      the row alone. A username must be sent unless the update is
      partial. */
  lemma ProfileUpdateAcceptedWhen(instance: User, requester: User, inp: ProfileInput, users: seq<User>,
                                  usernameChars: string -> bool, partial: bool)
    requires inp.username.None? ==> partial
    requires inp.username.Some? ==>
               var u := Cleaned(inp.username);
               && 1 <= |u| <= 150 && '\0' !in u && usernameChars(u)
               && !TakenByOther(users, instance.id, u) && !TakenByOther(users, requester.id, u)
    requires inp.firstName.Some? ==> |Cleaned(inp.firstName)| <= 30 && '\0' !in Cleaned(inp.firstName)
    requires inp.lastName.Some? ==> |Cleaned(inp.lastName)| <= 30 && '\0' !in Cleaned(inp.lastName)
    requires inp.phoneNumber.Some? ==> |Cleaned(inp.phoneNumber)| <= 15 && '\0' !in Cleaned(inp.phoneNumber)
    ensures UpdateProfile(instance, requester, inp, users, usernameChars, partial)
            == Success(instance.(
                 username := if inp.username.Some? then Cleaned(inp.username) else instance.username,
                 firstName := if inp.firstName.Some? then Cleaned(inp.firstName) else instance.firstName,
                 lastName := if inp.lastName.Some? then Cleaned(inp.lastName) else instance.lastName,
                 phoneNumber := if inp.phoneNumber.Some? then Some(Cleaned(inp.phoneNumber)) else instance.phoneNumber))
  {
    ProfileFieldsPassWhen(instance, requester, inp, users, usernameChars, partial);
  }

  /** Editing one's own profile: re-submitting one's own username passes
      both uniqueness checks. */
  lemma OwnUsernameAccepted(me: User, users: seq<User>, usernameChars: string -> bool, partial: bool)
    requires UniqueIds(users) && UniqueUsernames(users) && me in users
    requires |me.username| <= 150 && usernameChars(me.username) && '\0' !in me.username
    requires me.username != [] && Strip(me.username, IsPySpace) == me.username
    ensures UpdateProfile(me, me, ProfileInput(Some(me.username), None, None, None), users, usernameChars, partial)
            == Success(me)
  {
    var k :| 0 <= k < |users| && users[k] == me;
    assert !TakenByOther(users, me.id, me.username);
  }

  /** Taking another user's name is refused by the model's uniqueness
      check. */
  lemma OtherUsersNameRefused(me: User, other: User, users: seq<User>, inp: ProfileInput,
                              usernameChars: string -> bool, partial: bool)
    requires other in users && other.id != me.id
    requires other.username != [] && Strip(other.username, IsPySpace) == other.username
    requires inp.username == Some(other.username)
    ensures var r := UpdateProfile(me, me, inp, users, usernameChars, partial);
            r.Failure? && "username" in r.error && ModelUsernameTakenMessage in r.error["username"]
  {
    var k :| 0 <= k < |users| && users[k] == other;
    assert TakenByOther(users, me.id, other.username);
  }
}

=== FILE: auth_services.dfy ===
/** The token services of the authentication app: issuing a secret before
    the (best-effort) email, and the table-wide lookups that consume or
    check a secret. The user table is a sequence of rows; a lookup that the
    source performs with `User.objects.get` distinguishes no match (`None`
    is returned), exactly one match, and several matches (the ORM raises
    `MultipleObjectsReturned`, which the source does not catch). */
module AuthServices {
  import opened Wrappers
  import opened Seqs
  import opened Users

  /** What the mail transport did, supplied by the caller. */
  datatype Mail = Delivered | MailFailed

  datatype Lookup = NotFound | Found(index: nat, user: User) | MultipleFound

  /** `send_verification_email`: the token is stored before any mail work,
      so a mail failure changes only the returned flag. */
  function SendVerificationEmail(u: User, newToken: string, now: int, mail: Mail): (r: (User, bool))
    ensures r.1 <==> mail == Delivered
    ensures r.0 == GenerateVerificationToken(u, newToken, now).0
    ensures Accepts(r.0.verification, newToken, now)
  {
    var (stored, _) := GenerateVerificationToken(u, newToken, now);
    (stored, mail == Delivered)
  }

  /** `send_password_reset_email`: the reset token (1 hour) is stored
      before any mail work. */
  function SendPasswordResetEmail(u: User, newToken: string, now: int, mail: Mail): (r: (User, bool))
    ensures r.1 <==> mail == Delivered
    ensures r.0 == GeneratePasswordResetToken(u, newToken, now).0
    ensures r.0.reset.expires == Some(now + ResetTtl)
  {
    var (stored, _) := GeneratePasswordResetToken(u, newToken, now);
    (stored, mail == Delivered)
  }

  /** The filter of `verify_email_token`: token equal, expiry after `now`,
      address not yet verified. */
  predicate PendingVerification(u: User, token: string, now: int) {
    Accepts(u.verification, token, now) && !u.isEmailVerified
  }

  function MarkVerified(u: User): User {
    u.(isEmailVerified := true, verification := Cleared)
  }

  /** `verify_email_token`: the single matching row is marked verified and
      its secret cleared; with no match nothing changes and `None` comes
      back. */
  function VerifyEmailToken(users: seq<User>, token: string, now: int): (r: (seq<User>, Lookup))
    ensures r.1 == NotFound <==> forall i :: 0 <= i < |users| ==> !PendingVerification(users[i], token, now)
    ensures r.1.Found? ==>
              && r.1.index < |users|
              && PendingVerification(users[r.1.index], token, now)
              && (forall j :: 0 <= j < |users| && j != r.1.index ==> !PendingVerification(users[j], token, now))
              && r.0 == users[r.1.index := MarkVerified(users[r.1.index])]
              && r.1.user == r.0[r.1.index]
    ensures r.1.MultipleFound? ==>
              exists i, j :: 0 <= i < j < |users| && PendingVerification(users[i], token, now)
                                                 && PendingVerification(users[j], token, now)
    ensures !r.1.Found? ==> r.0 == users
  {
    var rows := IndicesWhere(users, u => PendingVerification(u, token, now), 0);
    if |rows| == 0 then
      (users, NotFound)
    else if |rows| == 1 then
      var i := rows[0];
      var updated := users[i := MarkVerified(users[i])];
      (updated, Found(i, updated[i]))
    else
      assert rows[0] < rows[1];
      (users, MultipleFound)
  }

  /** The service and the model method `verify_email` agree on the row they
      update. */
  lemma VerifyEmailTokenAgreesWithModel(users: seq<User>, token: string, now: int)
    requires VerifyEmailToken(users, token, now).1.Found?
    ensures var (after, found) := VerifyEmailToken(users, token, now);
            && Users.VerifyEmail(users[found.index], token, now) == (after[found.index], true)
  {
  }

  /** An already-verified user's token never succeeds. */
  lemma VerifiedUserNeverMatches(users: seq<User>, token: string, now: int, i: nat)
    requires i < |users| && users[i].isEmailVerified
    ensures VerifyEmailToken(users, token, now).1 != Found(i, MarkVerified(users[i]))
    ensures forall k, v :: VerifyEmailToken(users, token, now).1 == Found(k, v) ==> k != i
  {
  }

  /** Replay at table level: once the token has been consumed, the same
      token finds nothing at any later instant. */
  lemma {:induction false} VerifyEmailTokenSingleUse(users: seq<User>, token: string, now: int, later: int)
    requires VerifyEmailToken(users, token, now).1.Found?
    requires now <= later
    ensures var after := VerifyEmailToken(users, token, now).0;
            VerifyEmailToken(after, token, later) == (after, NotFound)
  {
    var (after, found) := VerifyEmailToken(users, token, now);
    forall j | 0 <= j < |after|
      ensures !PendingVerification(after[j], token, later)
    {
      if j != found.index {
        assert after[j] == users[j];
        assert !PendingVerification(users[j], token, now);
      }
    }
  }

  /** The filter of `verify_password_reset_token`: token equal, expiry
      after `now` (verification status is not consulted). */
  predicate PendingReset(u: User, token: string, now: int) {
    Accepts(u.reset, token, now)
  }

  /** `verify_password_reset_token`: a read-only lookup. */
  function FindResetToken(users: seq<User>, token: string, now: int): (r: Lookup)
    ensures r == NotFound <==> forall i :: 0 <= i < |users| ==> !PendingReset(users[i], token, now)
    ensures r.Found? ==>
              && r.index < |users| && r.user == users[r.index]
              && PendingReset(users[r.index], token, now)
              && forall j :: 0 <= j < |users| && j != r.index ==> !PendingReset(users[j], token, now)
    ensures r.MultipleFound? ==>
              exists i, j :: 0 <= i < j < |users| && PendingReset(users[i], token, now)
                                                 && PendingReset(users[j], token, now)
  {
    var rows := IndicesWhere(users, u => PendingReset(u, token, now), 0);
    if |rows| == 0 then NotFound
    else if |rows| == 1 then Found(rows[0], users[rows[0]])
    else
      assert rows[0] < rows[1];
      MultipleFound
  }

  /** `clear_password_reset_token` applied to one row of the table. */
  function ClearResetRow(users: seq<User>, i: nat): (r: seq<User>)
    requires i < |users|
    ensures |r| == |users|
    ensures r[i].reset == Cleared && r[i] == users[i].(reset := Cleared)
    ensures forall j :: 0 <= j < |users| && j != i ==> r[j] == users[j]
  {
    users[i := Users.ClearPasswordResetToken(users[i])]
  }

  /** A reset token that was looked up and then cleared cannot be used
      again, at that instant or later. */
  lemma ResetLookupThenClearIsSingleUse(users: seq<User>, token: string, now: int, later: int)
    requires FindResetToken(users, token, now).Found?
    requires now <= later
    ensures var i := FindResetToken(users, token, now).index;
            FindResetToken(ClearResetRow(users, i), token, later) == NotFound
  {
    var i := FindResetToken(users, token, now).index;
    var after := ClearResetRow(users, i);
    forall j | 0 <= j < |after|
      ensures !PendingReset(after[j], token, later)
    {
      if j != i {
        assert !PendingReset(users[j], token, now);
      }
    }
  }

  /** Issuing a reset token to a user whose token nobody else holds makes
      the lookup find exactly that user for the next hour. */
  lemma IssuedResetTokenIsFound(users: seq<User>, i: nat, newToken: string, issued: int, now: int)
    requires i < |users|
    requires forall j :: 0 <= j < |users| && j != i ==> users[j].reset.token != Some(newToken)
    requires issued <= now < issued + ResetTtl
    ensures var after := users[i := SendPasswordResetEmail(users[i], newToken, issued, MailFailed).0];
            FindResetToken(after, newToken, now) == Found(i, after[i])
  {
    var after := users[i := SendPasswordResetEmail(users[i], newToken, issued, MailFailed).0];
    assert PendingReset(after[i], newToken, now);
    assert forall j :: 0 <= j < |after| && j != i ==> after[j] == users[j] && !PendingReset(after[j], newToken, now);
  }
}

=== FILE: auth_store.dfy ===
/** The client's session store: the signed-in user, the token, a loading
    flag and an authenticated flag, with the actions that change them. An
    asynchronous action is modelled by the state it leaves once its
    request has settled; how it settled is an argument. A failed request
    has first passed the client's response interceptor, whose effect on
    local storage the action keeps. The token also lives in local storage,
    which the actions update through the client's token helpers. */
module AuthStore {
  import opened Wrappers
  import opened ClientTypes
  import opened ApiClient

  datatype AuthState = AuthState(
    user: Option<ClientUser>,
    token: Option<string>,
    isLoading: bool,
    isAuthenticated: bool)

  const Initial: AuthState := AuthState(None, None, false, false)

  /** A store state together with local storage. */
  datatype Session = Session(state: AuthState, store: Storage)

  /** How a request settled: the server's answer, or the failure the
      response interceptor handled before the action saw it. */
  datatype Settled<T> = Answered(value: T) | Failed(failure: Failure)

  /** The failures after which the interceptor drops the stored token: a
      401 from an `/auth/` endpoint. */
  predicate EndsSession(f: Failure) {
    f.HttpError? && f.status == 401 && IsAuthEndpoint(f.url)
  }

  /** The server's answer to a login. */
  datatype LoginReply = LoginReply(token: string, user: ClientUser)

  /** `login`: success records user and token and stores the token; a
      failure only ends the loading phase. */
  function Login(s: Session, browser: bool, reply: Settled<LoginReply>): (r: (Session, bool))
    ensures r.1 <==> reply.Answered?
    ensures reply.Answered? ==> r.0.state == AuthState(Some(reply.value.user), Some(reply.value.token), false, true)
    ensures reply.Answered? ==> r.0.store == SetAuthToken(s.store, browser, reply.value.token)
    ensures reply.Failed? ==> r.0 == Session(s.state.(isLoading := false), OnError(reply.failure, s.store, browser).store)
  {
    match reply
    case Answered(LoginReply(token, user)) =>
      (Session(AuthState(Some(user), Some(token), false, true), SetAuthToken(s.store, browser, token)), true)
    case Failed(f) => (Session(s.state.(isLoading := false), OnError(f, s.store, browser).store), false)
  }

  /** `register`, `verifyEmail`, `forgotPassword` and `resetPassword`:
      whatever the answer, only the loading phase ends. */
  function PlainRequest(s: Session, browser: bool, failure: Option<Failure>): (r: (Session, bool))
    ensures r.1 <==> failure.None?
    ensures r.0.state.user == s.state.user && r.0.state.token == s.state.token
    ensures r.0.state.isAuthenticated == s.state.isAuthenticated
    ensures !r.0.state.isLoading
    ensures failure.None? ==> r.0.store == s.store
    ensures failure.Some? ==> r.0.store == OnError(failure.value, s.store, browser).store
  {
    match failure
    case None => (Session(s.state.(isLoading := false), s.store), true)
    case Some(f) => (Session(s.state.(isLoading := false), OnError(f, s.store, browser).store), false)
  }

  /** `logout`: the server call's outcome is ignored; user, token and the
      authenticated flag are cleared and the stored token removed. */
  function Logout(s: Session, browser: bool): (r: Session)
    ensures r.state.user.None? && r.state.token.None? && !r.state.isAuthenticated
    ensures r.state.isLoading == s.state.isLoading
    ensures r.store == RemoveAuthToken(s.store, browser)
  {
    Session(s.state.(user := None, token := None, isAuthenticated := false), RemoveAuthToken(s.store, browser))
  }

  /** `updateProfile`: the user is replaced only by a successful answer. */
  function UpdateProfile(s: Session, browser: bool, reply: Settled<ClientUser>): (r: (Session, bool))
    ensures r.1 <==> reply.Answered?
    ensures reply.Answered? ==> r.0.state.user == Some(reply.value) && r.0.store == s.store
    ensures reply.Failed? ==> r.0.state.user == s.state.user
    ensures reply.Failed? ==> r.0.store == OnError(reply.failure, s.store, browser).store
    ensures r.0.state.token == s.state.token && r.0.state.isAuthenticated == s.state.isAuthenticated
    ensures !r.0.state.isLoading
  {
    match reply
    case Answered(u) => (Session(s.state.(user := Some(u), isLoading := false), s.store), true)
    case Failed(f) => (Session(s.state.(isLoading := false), OnError(f, s.store, browser).store), false)
  }

  /** Whether `checkAuth` asks the server: only with a non-empty token. */
  predicate HasToken(st: AuthState) {
    st.token.Some? && st.token.value != []
  }

  /** `checkAuth`: without a token the session is marked signed out and no
      request is made; with one, the server's answer either confirms the
      user or clears the whole session. */
  function CheckAuth(s: Session, browser: bool, reply: Settled<ClientUser>): (r: (Session, bool))
    ensures !HasToken(s.state) ==> r == (Session(s.state.(isAuthenticated := false), s.store), false)
    ensures HasToken(s.state) && reply.Answered? ==>
              r == (Session(s.state.(user := Some(reply.value), isAuthenticated := true, isLoading := false), s.store), true)
    ensures HasToken(s.state) && reply.Failed? ==>
              && r.0.state == AuthState(None, None, false, false)
              && r.0.store == RemoveAuthToken(s.store, browser) && !r.1
    ensures r.1 <==> HasToken(s.state) && reply.Answered?
  {
    if !HasToken(s.state) then (Session(s.state.(isAuthenticated := false), s.store), false)
    else match reply
      case Answered(u) => (Session(s.state.(user := Some(u), isAuthenticated := true, isLoading := false), s.store), true)
      case Failed(f) =>
        var handled := OnError(f, s.store, browser).store;
        assert RemoveAuthToken(handled, browser) == RemoveAuthToken(s.store, browser) by {
          if browser { TokenStorageRoundTrip(s.store, []); }
        }
        (Session(AuthState(None, None, false, false), RemoveAuthToken(handled, browser)), false)
  }

  function SetUser(s: Session, u: ClientUser): (r: Session)
    ensures r.state == s.state.(user := Some(u)) && r.store == s.store
  {
    Session(s.state.(user := Some(u)), s.store)
  }

  /** `setToken`: stores the token and marks the session signed in. */
  function SetToken(s: Session, browser: bool, token: string): (r: Session)
    ensures r.state.token == Some(token) && r.state.isAuthenticated
    ensures r.state.user == s.state.user && r.state.isLoading == s.state.isLoading
    ensures r.store == SetAuthToken(s.store, browser, token)
  {
    Session(s.state.(token := Some(token), isAuthenticated := true), SetAuthToken(s.store, browser, token))
  }

  /** `clearAuth`: the same clearing as `logout`, without a request. */
  function ClearAuth(s: Session, browser: bool): (r: Session)
    ensures r.state.user.None? && r.state.token.None? && !r.state.isAuthenticated
    ensures r.state.isLoading == s.state.isLoading
    ensures r.store == RemoveAuthToken(s.store, browser)
  {
    Session(s.state.(user := None, token := None, isAuthenticated := false), RemoveAuthToken(s.store, browser))
  }

  lemma ClearAuthIsLogout(s: Session, browser: bool)
    ensures ClearAuth(s, browser) == Logout(s, browser)
  {
  }

  // ---------------------------------------------------------------------
  // Persistence
  // ---------------------------------------------------------------------

  /** The persisted slice: everything but the loading flag. */
  datatype Persisted = Persisted(user: Option<ClientUser>, token: Option<string>, isAuthenticated: bool)

  function Persist(st: AuthState): (p: Persisted)
    ensures p.user == st.user && p.token == st.token && p.isAuthenticated == st.isAuthenticated
  {
    Persisted(st.user, st.token, st.isAuthenticated)
  }

  /** Rehydration merges the slice into the initial state. */
  function Rehydrate(p: Persisted): (st: AuthState)
    ensures !st.isLoading
    ensures Persist(st) == p
  {
    AuthState(p.user, p.token, false, p.isAuthenticated)
  }

  /** A reload keeps the session and drops only the loading flag. */
  lemma ReloadKeepsSession(st: AuthState)
    ensures Rehydrate(Persist(st)) == st.(isLoading := false)
  {
  }

  // ---------------------------------------------------------------------
  // The store and local storage agree
  // ---------------------------------------------------------------------

  /** A token held by the store is the stored one, and a signed-in store
      holds a token. */
  predicate Agrees(s: Session) {
    && (s.state.token.Some? ==> GetAuthToken(s.store, true) == s.state.token)
    && (s.state.isAuthenticated ==> s.state.token.Some?)
  }

  /** In a browser every action keeps the store and local storage in
      agreement, except a request that fails with a 401 from an `/auth/`
      endpoint while the store holds a token: the interceptor drops the
      stored token and `login`, the plain requests and `updateProfile`
      keep the store's. `checkAuth` clears both, so it always agrees. */
  lemma ActionsKeepAgreement(s: Session, login: Settled<LoginReply>, u: Settled<ClientUser>,
                             failure: Option<Failure>, token: string, user: ClientUser)
    requires Agrees(s)
    ensures Agrees(Login(s, true, login).0) <==>
              !(login.Failed? && EndsSession(login.failure) && s.state.token.Some?)
    ensures Agrees(PlainRequest(s, true, failure).0) <==>
              !(failure.Some? && EndsSession(failure.value) && s.state.token.Some?)
    ensures Agrees(UpdateProfile(s, true, u).0) <==>
              !(u.Failed? && EndsSession(u.failure) && s.state.token.Some?)
    ensures Agrees(Logout(s, true))
    ensures Agrees(CheckAuth(s, true, u).0)
    ensures Agrees(SetUser(s, user))
    ensures Agrees(SetToken(s, true, token))
    ensures Agrees(ClearAuth(s, true))
  {
  }

  /** Login followed by logout: the user is signed out and the browser
      sends no credentials. */
  lemma LoginThenLogout(s: Session, reply: LoginReply)
    ensures var out := Logout(Login(s, true, Answered(reply)).0, true);
            && !out.state.isAuthenticated && out.state.token.None?
            && AuthorizationHeader(out.store, true).None?
  {
  }
}

=== FILE: blog_models.dfy ===
/** The blog's records: categories, tags and posts, and what saving a post
    fills in (a unique slug, an excerpt, the publication instant), together
    with the derived values a post exposes. Slugify is an oracle supplied
    by the caller. */
module BlogModels {
  import opened Wrappers
  import opened Text

  datatype Status = Draft | Published

  datatype Category = Category(id: int, name: string, slug: string, description: Option<string>)

  datatype Tag = Tag(id: int, name: string, slug: string)

  datatype Post = Post(
    id: nat,
    title: string,
    slug: string,
    content: string,
    excerpt: Option<string>,
    authorId: nat,
    categoryId: Option<int>,
    tagIds: set<int>,
    status: Status,
    featuredImage: Option<string>,
    createdAt: int,
    publishedAt: Option<int>)

  /** The stored spelling of a status. */
  function StatusName(s: Status): string {
    if s == Draft then "draft" else "published"
  }

  function ParseStatus(s: string): (r: Option<Status>)
    ensures r.Some? <==> s == "draft" || s == "published"
    ensures r.Some? ==> StatusName(r.value) == s
  {
    if s == "draft" then Some(Draft) else if s == "published" then Some(Published) else None
  }

  lemma StatusNameRoundTrip(st: Status)
    ensures ParseStatus(StatusName(st)) == Some(st)
  {
  }

  predicate IsPublished(p: Post) {
    p.status == Published
  }

  /** `Category.save` and `Tag.save`: an empty slug is derived from the
      name; a given slug is kept. */
  function CategorySave(c: Category, slugify: string -> string): (r: Category)
    ensures c.slug != [] ==> r == c
    ensures c.slug == [] ==> r == c.(slug := slugify(c.name))
  {
    if c.slug == [] then c.(slug := slugify(c.name)) else c
  }

  function TagSave(t: Tag, slugify: string -> string): (r: Tag)
    ensures t.slug != [] ==> r == t
    ensures t.slug == [] ==> r == t.(slug := slugify(t.name))
  {
    if t.slug == [] then t.(slug := slugify(t.name)) else t
  }

  /** Saving twice fills the slug once: a second save changes nothing,
      provided the oracle never yields the empty slug. */
  lemma SlugFillIdempotent(c: Category, t: Tag, slugify: string -> string)
    requires slugify(c.name) != [] && slugify(t.name) != []
    ensures CategorySave(CategorySave(c, slugify), slugify) == CategorySave(c, slugify)
    ensures TagSave(TagSave(t, slugify), slugify) == TagSave(t, slugify)
  {
  }

  /** What a `post_count` counts: the published posts of one category or
      of one tag. */
  datatype Owner = OfCategory(categoryId: int) | OfTag(tagId: int)

  predicate CountedFor(o: Owner, p: Post) {
    && IsPublished(p)
    && match o
       case OfCategory(c) => p.categoryId == Some(c)
       case OfTag(t) => t in p.tagIds
  }

  /** `post_count` of a category (`OfCategory`) or a tag (`OfTag`). */
  function PostCount(o: Owner, posts: seq<Post>): (n: nat)
    ensures n <= |posts|
    ensures n == |set i | 0 <= i < |posts| && CountedFor(o, posts[i])|
  {
    if posts == [] then 0
    else
      var k := |posts| - 1;
      var rest := PostCount(o, posts[..k]);
      var all := set i | 0 <= i < |posts| && CountedFor(o, posts[i]);
      var front := set i | 0 <= i < k && CountedFor(o, posts[..k][i]);
      assert front == set i | 0 <= i < k && CountedFor(o, posts[i]);
      if CountedFor(o, posts[k]) then
        assert all == front + {k};
        rest + 1
      else
        assert all == front;
        rest
  }

  /** Drafts never count, and a post is counted for its category and for
      each of its tags once it is published. */
  lemma {:induction false} PostCountPublishedOnly(o: Owner, posts: seq<Post>, p: Post)
    ensures !IsPublished(p) ==> PostCount(o, posts + [p]) == PostCount(o, posts)
    ensures IsPublished(p) && CountedFor(o, p) ==> PostCount(o, posts + [p]) == PostCount(o, posts) + 1
  {
    assert (posts + [p])[..|posts|] == posts;
  }

  // ---------------------------------------------------------------------
  // Slug de-duplication
  // ---------------------------------------------------------------------

  /** The slugs of the rows other than the one being saved (`pk` is the
      row's own id once it has one). */
  function TakenSlugs(table: seq<Post>, pk: Option<nat>): set<string> {
    set i | 0 <= i < |table| && (pk.None? || table[i].id != pk.value) :: table[i].slug
  }

  /** `f"{original_slug}-{counter}"`, with `base` itself as candidate 0. */
  function Candidate(base: string, k: nat): string {
    if k == 0 then base else base + "-" + NatToString(k)
  }

  lemma CandidateInjective(base: string, j: nat, k: nat)
    requires Candidate(base, j) == Candidate(base, k)
    ensures j == k
  {
    if j != 0 && k != 0 {
      var a := base + "-" + NatToString(j);
      var b := base + "-" + NatToString(k);
      assert NatToString(j) == a[|base| + 1..];
      assert NatToString(k) == b[|base| + 1..];
      NatToStringInjective(j, k);
    }
  }

  /** At most as many distinct slugs are taken as there are rows. */
  lemma {:induction false} TakenSlugsBound(table: seq<Post>, pk: Option<nat>)
    ensures |TakenSlugs(table, pk)| <= |table|
  {
    if table != [] {
      var k := |table| - 1;
      TakenSlugsBound(table[..k], pk);
      assert TakenSlugs(table, pk) <= TakenSlugs(table[..k], pk) + {table[k].slug} by {
        forall s | s in TakenSlugs(table, pk)
          ensures s in TakenSlugs(table[..k], pk) + {table[k].slug}
        {
          var i :| 0 <= i < |table| && (pk.None? || table[i].id != pk.value) && table[i].slug == s;
          if i < k {
            assert table[..k][i] == table[i];
          }
        }
      }
      SubsetCard(TakenSlugs(table, pk), TakenSlugs(table[..k], pk) + {table[k].slug});
    }
  }

  lemma SubsetCard<T>(a: set<T>, b: set<T>)
    requires a <= b
    ensures |a| <= |b|
  {
    assert b == a + (b - a);
  }

  /** The first `n` candidates, as a set, have `n` members. */
  lemma {:induction false} CandidatesCard(base: string, n: nat)
    ensures |set k | 0 <= k < n :: Candidate(base, k)| == n
  {
    if n > 0 {
      CandidatesCard(base, n - 1);
      var prev := set k | 0 <= k < n - 1 :: Candidate(base, k);
      var all := set k | 0 <= k < n :: Candidate(base, k);
      assert all == prev + {Candidate(base, n - 1)};
      if Candidate(base, n - 1) in prev {
        var k :| 0 <= k < n - 1 && Candidate(base, k) == Candidate(base, n - 1);
        CandidateInjective(base, k, n - 1);
      }
    }
  }

  /** Candidates `0 .. k - 1` are all taken. */
  predicate TakenBelow(base: string, table: seq<Post>, pk: Option<nat>, k: nat) {
    forall j :: 0 <= j < k ==> Candidate(base, j) in TakenSlugs(table, pk)
  }

  /** The loop of `Post.save`: tries candidates `counter`, `counter + 1`, …
      until one is free. Every candidate before `counter` is known to be
      taken, which bounds the number of tries by the number of rows. */
  function FreeSlugFrom(base: string, table: seq<Post>, pk: Option<nat>, counter: nat): (r: string)
    requires counter >= 1
    requires TakenBelow(base, table, pk, counter)
    ensures r !in TakenSlugs(table, pk)
    ensures exists k :: counter <= k && r == Candidate(base, k) && TakenBelow(base, table, pk, k)
    decreases |table| + 1 - counter
  {
    var c := Candidate(base, counter);
    if c !in TakenSlugs(table, pk) then c
    else
      assert counter < |table| by {
        var tried := set k | 0 <= k < counter + 1 :: Candidate(base, k);
        CandidatesCard(base, counter + 1);
        TakenSlugsBound(table, pk);
        SubsetCard(tried, TakenSlugs(table, pk));
      }
      FreeSlugFrom(base, table, pk, counter + 1)
  }

  /** The slug `save` settles on for an empty slug: the slugified title if
      free, else the first free `base-k`. */
  function UniqueSlug(base: string, table: seq<Post>, pk: Option<nat>): (r: string)
    ensures r !in TakenSlugs(table, pk)
    ensures r == base || exists k :: 1 <= k && r == Candidate(base, k) && TakenBelow(base, table, pk, k)
    ensures base !in TakenSlugs(table, pk) ==> r == base
  {
    if base !in TakenSlugs(table, pk) then base
    else FreeSlugFrom(base, table, pk, 1)
  }

  // ---------------------------------------------------------------------
  // Excerpts, publication, reading time
  // ---------------------------------------------------------------------

  const ExcerptLength: nat := 150

  /** `content[:150] + '...'` for long content, the content otherwise. */
  function Truncate(content: string): (r: string)
    ensures |r| <= ExcerptLength + 3
    ensures |content| <= ExcerptLength ==> r == content
    ensures |content| > ExcerptLength ==> r == content[..ExcerptLength] + "..."
    ensures StartsWith(r, content[..if |content| < ExcerptLength then |content| else ExcerptLength])
  {
    if |content| > ExcerptLength then content[..ExcerptLength] + "..." else content
  }

  /** Python truthiness of an optional text. */
  predicate Filled(s: Option<string>) {
    s.Some? && s.value != []
  }

  /** The table's unique columns: `id` and `slug`. */
  predicate UniqueRows(table: seq<Post>) {
    forall i, j :: 0 <= i < j < |table| ==> table[i].id != table[j].id && table[i].slug != table[j].slug
  }

  /** `excerpt_or_content`. */
  function ExcerptOrContent(p: Post): (r: string)
    ensures Filled(p.excerpt) ==> r == p.excerpt.value
    ensures !Filled(p.excerpt) ==> r == Truncate(p.content)
  {
    if Filled(p.excerpt) then p.excerpt.value else Truncate(p.content)
  }

  datatype SaveOutcome = Saved(post: Post) | DuplicateSlug

  /** `Post.save` at instant `now`. An empty slug is replaced by a free
      one derived from the title; a given slug is kept, and if another row
      already holds it the unique constraint refuses the row. */
  function SavePost(p: Post, pk: Option<nat>, table: seq<Post>, slugify: string -> string, now: int): (r: SaveOutcome)
    ensures r.Saved? ==> r.post.slug !in TakenSlugs(table, pk)
    ensures r == DuplicateSlug <==> p.slug != [] && p.slug in TakenSlugs(table, pk)
    ensures r.Saved? && p.slug != [] ==> r.post.slug == p.slug
    ensures p.slug == [] ==> r == Saved(r.post) && r.post.slug == UniqueSlug(slugify(p.title), table, pk)
    ensures r.Saved? ==> r.post == p.(slug := r.post.slug, excerpt := r.post.excerpt, publishedAt := r.post.publishedAt)
    ensures r.Saved? ==> r.post.excerpt == if !Filled(p.excerpt) && p.content != [] then Some(Truncate(p.content)) else p.excerpt
    ensures r.Saved? ==> r.post.publishedAt == if IsPublished(p) && p.publishedAt.None? then Some(now) else p.publishedAt
  {
    var slug := if p.slug == [] then UniqueSlug(slugify(p.title), table, pk) else p.slug;
    if slug in TakenSlugs(table, pk) then DuplicateSlug
    else
      var excerpt := if !Filled(p.excerpt) && p.content != [] then Some(Truncate(p.content)) else p.excerpt;
      var publishedAt := if IsPublished(p) && p.publishedAt.None? then Some(now) else p.publishedAt;
      Saved(p.(slug := slug, excerpt := excerpt, publishedAt := publishedAt))
  }

  /** Saving never changes what `excerpt_or_content` shows, never clears
      `published_at`, and a published post always leaves with one. */
  lemma SavePreservesDerived(p: Post, pk: Option<nat>, table: seq<Post>, slugify: string -> string, now: int)
    requires SavePost(p, pk, table, slugify, now).Saved?
    ensures var q := SavePost(p, pk, table, slugify, now).post;
            && ExcerptOrContent(q) == ExcerptOrContent(p)
            && (p.publishedAt.Some? ==> q.publishedAt == p.publishedAt)
            && (IsPublished(q) ==> q.publishedAt.Some?)
  {
  }

  /** A saved post is unchanged by saving it again (at any instant) when
      no other row has since taken its slug. */
  lemma SaveIdempotent(p: Post, pk: Option<nat>, table: seq<Post>, slugify: string -> string, now: int, later: int)
    requires SavePost(p, pk, table, slugify, now).Saved?
    ensures var q := SavePost(p, pk, table, slugify, now).post;
            q.slug != [] ==> SavePost(q, pk, table, slugify, later) == Saved(q)
  {
  }

  /** `max(1, round(words / 200))` with Python's round-half-to-even. */
  function ReadingTime(content: string): (minutes: nat)
    ensures minutes >= 1
    ensures var words := |SplitWhitespace(content)|;
            minutes == 1 || (-100 <= words - 200 * minutes <= 100)
  {
    var words := |SplitWhitespace(content)|;
    var q := words / 200;
    var rem := words % 200;
    var rounded := if rem < 100 then q else if rem > 100 then q + 1 else if q % 2 == 0 then q else q + 1;
    if rounded < 1 then 1 else rounded
  }

  /** The rounding is to the nearest integer, ties to the even one. */
  lemma ReadingTimeRounding(content: string)
    ensures var words := |SplitWhitespace(content)|;
            var m := ReadingTime(content);
            && (words >= 300 ==> -100 <= words - 200 * m <= 100)
            && (words < 300 ==> m == 1)
            && (words % 200 == 100 && words >= 300 ==> m % 2 == 0)
  {
  }

  /** Re-saving a stored row (with whatever changes, as long as the slug
      is the stored one) never hits the unique constraint. */
  lemma ResaveSucceeds(table: seq<Post>, k: nat, q: Post, slugify: string -> string, now: int)
    requires UniqueRows(table) && k < |table|
    requires q.id == table[k].id && q.slug == table[k].slug
    ensures SavePost(q, Some(q.id), table, slugify, now).Saved?
    ensures q.slug != [] ==> SavePost(q, Some(q.id), table, slugify, now).post.slug == q.slug
  {
  }
}

=== FILE: blog_store.dfy ===
/** The client's blog store: the lists of posts it shows (the public
    list, the caller's own posts, the featured posts), the post being
    viewed, busy flags, the last error, the pagination summary and the
    list filters. As in the session store, an asynchronous action is
    modelled by the state it leaves once its request has settled, with
    the server's answer as an argument (`None` for a failed request) and
    the thrown error's message as `errMessage`. */
module BlogStore {
  import opened Wrappers
  import opened BlogModels
  import opened ClientTypes

  /** A pagination link: its text and the value of its `page` query
      parameter, if it has one. */
  datatype Link = Link(url: string, page: Option<int>)

  datatype Pagination = Pagination(count: nat, next: Option<Link>, previous: Option<Link>, currentPage: int)

  datatype StatusFilter = AllStatuses | DraftOnly | PublishedOnly

  datatype Filters = Filters(search: string, category: Option<nat>, tag: Option<nat>, status: StatusFilter)

  datatype BlogState = BlogState(
    posts: seq<ClientPost>,
    featuredPosts: seq<ClientPost>,
    categories: seq<Named>,
    tags: seq<Named>,
    currentPost: Option<ClientPost>,
    myPosts: seq<ClientPost>,
    isLoading: bool,
    isCreating: bool,
    isUpdating: bool,
    isDeleting: bool,
    error: Option<string>,
    pagination: Pagination,
    filters: Filters)

  const InitialFilters: Filters := Filters([], None, None, AllStatuses)

  const Initial: BlogState :=
    BlogState([], [], [], [], None, [], false, false, false, false, None, Pagination(0, None, None, 1), InitialFilters)

  // ---------------------------------------------------------------------
  // Current page
  // ---------------------------------------------------------------------

  /** A link is followed only when its text is non-empty. */
  predicate Present(l: Option<Link>) {
    l.Some? && l.value.url != []
  }

  /** The current page as `fetchPosts` and `fetchMyPosts` derive it: one
      before the `next` link's page, else one after the `previous` link's
      page, else 1. */
  function CurrentPage(next: Option<Link>, previous: Option<Link>): (n: int)
    ensures Present(next) && next.value.page.Some? ==> n == next.value.page.value - 1
    ensures !Present(next) && Present(previous) && previous.value.page.Some? ==> n == previous.value.page.value + 1
    ensures !(Present(next) && next.value.page.Some?) && !(!Present(next) && Present(previous) && previous.value.page.Some?) ==> n == 1
  {
    if Present(next) then (if next.value.page.Some? then next.value.page.value - 1 else 1)
    else if Present(previous) then (if previous.value.page.Some? then previous.value.page.value + 1 else 1)
    else 1
  }

  /** The links the server's page-number pagination sends with page
      `number` of `pages`: a `next` link carrying the following page, and
      a `previous` link carrying the preceding page, except that the link
      to page 1 carries no `page` parameter. */
  function ServerLinks(number: int, pages: int, url: string): (r: (Option<Link>, Option<Link>))
    requires url != [] && 1 <= number <= pages
  {
    (if number < pages then Some(Link(url, Some(number + 1))) else None,
     if number == 1 then None
     else if number == 2 then Some(Link(url, None))
     else Some(Link(url, Some(number - 1))))
  }

  /** As written, the derivation is right on every page except the last
      page when it is page 2: its only link is a `previous` link without a
      page parameter, and the page shown as current is 1. */
  lemma CurrentPageAsWritten(number: int, pages: int, url: string)
    requires url != [] && 1 <= number <= pages
    ensures var links := ServerLinks(number, pages, url);
            CurrentPage(links.0, links.1) == if number == 2 && pages == 2 then 1 else number
  {
  }

  /** The derivation with a `previous` link that has no page parameter
      read as a link to page 1. */
  function CurrentPageCorrected(next: Option<Link>, previous: Option<Link>): (n: int)
    ensures Present(next) ==> n == CurrentPage(next, previous)
    ensures !Present(next) && Present(previous) && previous.value.page.None? ==> n == 2
  {
    if Present(next) then CurrentPage(next, previous)
    else if Present(previous) then (if previous.value.page.Some? then previous.value.page.value + 1 else 2)
    else 1
  }

  /** The corrected derivation recovers the page number from the server's
      links on every page. */
  lemma CurrentPageCorrectedRecovers(number: int, pages: int, url: string)
    requires url != [] && 1 <= number <= pages
    ensures var links := ServerLinks(number, pages, url);
            CurrentPageCorrected(links.0, links.1) == number
  {
  }

  // ---------------------------------------------------------------------
  // Fetching
  // ---------------------------------------------------------------------

  datatype PageReply = PageReply(results: seq<ClientPost>, count: nat, next: Option<Link>, previous: Option<Link>)

  function OrDefault(message: string, fallback: string): string {
    if message != [] then message else fallback
  }

  /** `fetchPosts` (`mine` false) and `fetchMyPosts` (`mine` true): the
      page replaces the list, and the pagination summary is rebuilt with
      the current page derived from the links as the store derives it. */
  function FetchPage(st: BlogState, mine: bool, reply: Option<PageReply>, errMessage: string): (r: BlogState)
    ensures !r.isLoading
    ensures reply.Some? ==> && r.error.None?
                            && (if mine then r.myPosts == reply.value.results && r.posts == st.posts
                                else r.posts == reply.value.results && r.myPosts == st.myPosts)
                            && r.pagination.count == reply.value.count
                            && r.pagination.currentPage == CurrentPage(reply.value.next, reply.value.previous)
                            && r.pagination.next == reply.value.next && r.pagination.previous == reply.value.previous
                            && r == st.(posts := r.posts, myPosts := r.myPosts, pagination := r.pagination,
                                        isLoading := false, error := None)
    ensures reply.None? ==> && r == st.(isLoading := false, error := r.error)
                            && r.error == Some(OrDefault(errMessage, if mine then "Failed to fetch your posts" else "Failed to fetch posts"))
  {
    match reply
    case Some(PageReply(results, count, next, previous)) =>
      var pagination := Pagination(count, next, previous, CurrentPage(next, previous));
      if mine then st.(myPosts := results, pagination := pagination, isLoading := false, error := None)
      else st.(posts := results, pagination := pagination, isLoading := false, error := None)
    case None =>
      st.(isLoading := false, error := Some(OrDefault(errMessage, if mine then "Failed to fetch your posts" else "Failed to fetch posts")))
  }

  /** Fetching any page the server serves shows that page as current,
      except page 2 of 2, which is shown as page 1. */
  lemma FetchPageFromServer(st: BlogState, mine: bool, results: seq<ClientPost>, count: nat,
                            number: int, pages: int, url: string, errMessage: string)
    requires url != [] && 1 <= number <= pages
    ensures var links := ServerLinks(number, pages, url);
            var r := FetchPage(st, mine, Some(PageReply(results, count, links.0, links.1)), errMessage);
            r.pagination.currentPage == if number == 2 && pages == 2 then 1 else number
  {
    CurrentPageAsWritten(number, pages, url);
  }

  // ---------------------------------------------------------------------
  // List updates by id
  // ---------------------------------------------------------------------

  /** `list.map(post => post.id === id ? q : post)`. */
  function ReplaceId(list: seq<ClientPost>, id: nat, q: ClientPost): (r: seq<ClientPost>)
    ensures |r| == |list|
    ensures forall i :: 0 <= i < |list| ==> r[i] == if list[i].id == id then q else list[i]
  {
    if list == [] then [] else [if list[0].id == id then q else list[0]] + ReplaceId(list[1..], id, q)
  }

  /** `list.filter(post => post.id !== id)`. */
  function RemoveId(list: seq<ClientPost>, id: nat): (r: seq<ClientPost>)
    ensures |r| <= |list|
    ensures forall i :: 0 <= i < |r| ==> r[i].id != id && r[i] in list
    ensures forall i :: 0 <= i < |list| && list[i].id != id ==> list[i] in r
  {
    if list == [] then []
    else
      var rest := RemoveId(list[1..], id);
      assert forall i :: 1 <= i < |list| ==> list[i] == list[1..][i - 1];
      if list[0].id != id then [list[0]] + rest else rest
  }

  /** The filter keeps every other post as often as the list holds it,
      and no post with that id. */
  lemma {:induction false} RemoveIdCounts(list: seq<ClientPost>, id: nat, p: ClientPost)
    ensures multiset(RemoveId(list, id))[p] == if p.id == id then 0 else multiset(list)[p]
    decreases |list|
  {
    if list != [] {
      assert list == [list[0]] + list[1..];
      RemoveIdCounts(list[1..], id, p);
    }
  }

  /** The filter keeps order: filtering a concatenation filters each part,
      and a single post survives exactly when its id differs. With the
      count ensures above this pins the result down. */
  lemma {:induction false} RemoveIdKeepsOrder(a: seq<ClientPost>, b: seq<ClientPost>, id: nat)
    ensures RemoveId(a + b, id) == RemoveId(a, id) + RemoveId(b, id)
    ensures forall p: ClientPost :: RemoveId([p], id) == if p.id != id then [p] else []
    decreases |a|
  {
    if a == [] {
      assert a + b == b;
    } else {
      assert (a + b)[1..] == a[1..] + b;
      RemoveIdKeepsOrder(a[1..], b, id);
    }
    forall p: ClientPost ensures RemoveId([p], id) == if p.id != id then [p] else [] {
      assert [p][1..] == [];
    }
  }

  /** One step of the status map: the post with that id gets the status. */
  function StatusIf(p: ClientPost, id: nat, status: Status): (q: ClientPost)
    ensures q.id == p.id
    ensures p.id == id ==> q.status == status && q == p.(status := q.status)
    ensures p.id != id ==> q == p
  {
    if p.id == id then p.(status := status) else p
  }

  /** `list.map(post => post.id === id ? { ...post, status } : post)`. */
  function SetStatusFor(list: seq<ClientPost>, id: nat, status: Status): (r: seq<ClientPost>)
    ensures |r| == |list|
    ensures forall i :: 0 <= i < |list| ==> r[i] == StatusIf(list[i], id, status)
  {
    if list == [] then []
    else [StatusIf(list[0], id, status)] + SetStatusFor(list[1..], id, status)
  }

  /** Setting one status and then another is setting the second. */
  lemma SetStatusTwice(list: seq<ClientPost>, id: nat, a: Status, b: Status)
    ensures SetStatusFor(SetStatusFor(list, id, a), id, b) == SetStatusFor(list, id, b)
  {
    var twice, direct := SetStatusFor(SetStatusFor(list, id, a), id, b), SetStatusFor(list, id, b);
    assert forall i :: 0 <= i < |list| ==> twice[i] == direct[i];
  }

  /** Setting the status a list already has for that id changes nothing. */
  lemma SetStatusSame(list: seq<ClientPost>, id: nat, b: Status)
    requires forall i :: 0 <= i < |list| && list[i].id == id ==> list[i].status == b
    ensures SetStatusFor(list, id, b) == list
  {
    var direct := SetStatusFor(list, id, b);
    assert forall i :: 0 <= i < |list| ==> direct[i] == list[i];
  }

  // ---------------------------------------------------------------------
  // Writes
  // ---------------------------------------------------------------------

  /** `createPost`: the new post is put in front of the public list and
      of the caller's list; the featured list is left alone. */
  function CreatePost(st: BlogState, reply: Option<ClientPost>, errMessage: string): (r: (BlogState, bool))
    ensures r.1 <==> reply.Some?
    ensures !r.0.isCreating
    ensures reply.Some? ==> && r.0.posts == [reply.value] + st.posts
                            && r.0.myPosts == [reply.value] + st.myPosts
                            && r.0 == st.(posts := r.0.posts, myPosts := r.0.myPosts, isCreating := false, error := None)
    ensures reply.None? ==> r.0 == st.(isCreating := false, error := Some(OrDefault(errMessage, "Failed to create post")))
  {
    match reply
    case Some(p) => (st.(posts := [p] + st.posts, myPosts := [p] + st.myPosts, isCreating := false, error := None), true)
    case None => (st.(isCreating := false, error := Some(OrDefault(errMessage, "Failed to create post"))), false)
  }

  /** The answer to an update, with the author of the viewed post kept
      when the viewed post is the one updated and has an author. */
  function WithAuthor(current: Option<ClientPost>, id: nat, updated: ClientPost): (q: ClientPost)
    ensures current.Some? && current.value.id == id && current.value.author.Some? ==> q == updated.(author := current.value.author)
    ensures !(current.Some? && current.value.id == id && current.value.author.Some?) ==> q == updated
  {
    if current.Some? && current.value.id == id && current.value.author.Some? then updated.(author := current.value.author)
    else updated
  }

  /** `updatePost`: every post with that id, in all three lists and as the
      viewed post, is replaced by the answer. */
  function UpdatePost(st: BlogState, id: nat, reply: Option<ClientPost>, errMessage: string): (r: (BlogState, bool))
    ensures r.1 <==> reply.Some?
    ensures !r.0.isUpdating
    ensures reply.Some? ==>
              var q := WithAuthor(st.currentPost, id, reply.value);
              && r.0.posts == ReplaceId(st.posts, id, q)
              && r.0.myPosts == ReplaceId(st.myPosts, id, q)
              && r.0.featuredPosts == ReplaceId(st.featuredPosts, id, q)
              && r.0.currentPost == (if st.currentPost.Some? && st.currentPost.value.id == id then Some(q) else st.currentPost)
              && r.0 == st.(posts := r.0.posts, myPosts := r.0.myPosts, featuredPosts := r.0.featuredPosts,
                            currentPost := r.0.currentPost, isUpdating := false, error := None)
    ensures reply.None? ==> r.0 == st.(isUpdating := false, error := Some(OrDefault(errMessage, "Failed to update post")))
  {
    match reply
    case Some(updated) =>
      var q := WithAuthor(st.currentPost, id, updated);
      (st.(posts := ReplaceId(st.posts, id, q),
           myPosts := ReplaceId(st.myPosts, id, q),
           featuredPosts := ReplaceId(st.featuredPosts, id, q),
           currentPost := if st.currentPost.Some? && st.currentPost.value.id == id then Some(q) else st.currentPost,
           isUpdating := false,
           error := None), true)
    case None => (st.(isUpdating := false, error := Some(OrDefault(errMessage, "Failed to update post"))), false)
  }

  /** After a successful update every list shows the new version wherever
      it showed the old one, and nothing else moves. */
  lemma UpdateReplacesEverywhere(st: BlogState, id: nat, updated: ClientPost, errMessage: string)
    ensures var r := UpdatePost(st, id, Some(updated), errMessage).0;
            var q := WithAuthor(st.currentPost, id, updated);
            && |r.posts| == |st.posts| && |r.myPosts| == |st.myPosts| && |r.featuredPosts| == |st.featuredPosts|
            && (forall i :: 0 <= i < |r.posts| ==> (st.posts[i].id == id <==> r.posts[i] == q) || (q == st.posts[i] && st.posts[i].id != id))
            && (forall i :: 0 <= i < |r.posts| && st.posts[i].id != id ==> r.posts[i] == st.posts[i])
  {
  }

  /** `deletePost`: the id disappears from all three lists, and the viewed
      post is dropped if it is that post. */
  function DeletePost(st: BlogState, id: nat, ok: bool, errMessage: string): (r: (BlogState, bool))
    ensures r.1 == ok
    ensures !r.0.isDeleting
    ensures ok ==> && r.0.posts == RemoveId(st.posts, id)
                   && r.0.myPosts == RemoveId(st.myPosts, id)
                   && r.0.featuredPosts == RemoveId(st.featuredPosts, id)
                   && r.0 == st.(posts := r.0.posts, myPosts := r.0.myPosts, featuredPosts := r.0.featuredPosts,
                                 currentPost := r.0.currentPost, isDeleting := false, error := None)
    ensures ok ==> && (forall i :: 0 <= i < |r.0.posts| ==> r.0.posts[i].id != id)
                   && (forall i :: 0 <= i < |r.0.myPosts| ==> r.0.myPosts[i].id != id)
                   && (forall i :: 0 <= i < |r.0.featuredPosts| ==> r.0.featuredPosts[i].id != id)
                   && (forall p :: p in st.posts && p.id != id ==> p in r.0.posts)
                   && (forall p :: p in st.myPosts && p.id != id ==> p in r.0.myPosts)
                   && (forall p :: p in st.featuredPosts && p.id != id ==> p in r.0.featuredPosts)
                   && (r.0.currentPost.Some? <==> st.currentPost.Some? && st.currentPost.value.id != id)
                   && (r.0.currentPost.Some? ==> r.0.currentPost == st.currentPost)
    ensures !ok ==> r.0 == st.(isDeleting := false, error := Some(OrDefault(errMessage, "Failed to delete post")))
  {
    if ok then
      (st.(posts := RemoveId(st.posts, id),
           myPosts := RemoveId(st.myPosts, id),
           featuredPosts := RemoveId(st.featuredPosts, id),
           currentPost := if st.currentPost.Some? && st.currentPost.value.id == id then None else st.currentPost,
           isDeleting := false,
           error := None), true)
    else (st.(isDeleting := false, error := Some(OrDefault(errMessage, "Failed to delete post"))), false)
  }

  /** `publishPost` (`status` published) and `unpublishPost` (`status`
      draft): matching posts of the public list, the caller's list and the
      viewed post take the new status; the featured list is not touched,
      and a failed request changes nothing. */
  function SetPostStatus(st: BlogState, id: nat, status: Status, ok: bool): (r: (BlogState, bool))
    ensures r.1 == ok
    ensures !ok ==> r.0 == st
    ensures ok ==> && r.0.posts == SetStatusFor(st.posts, id, status)
                   && r.0.myPosts == SetStatusFor(st.myPosts, id, status)
                   && r.0.featuredPosts == st.featuredPosts
                   && r.0.currentPost == (if st.currentPost.Some? && st.currentPost.value.id == id
                                          then Some(st.currentPost.value.(status := status)) else st.currentPost)
                   && r.0 == st.(posts := r.0.posts, myPosts := r.0.myPosts, currentPost := r.0.currentPost)
  {
    if ok then
      (st.(posts := SetStatusFor(st.posts, id, status),
           myPosts := SetStatusFor(st.myPosts, id, status),
           currentPost := if st.currentPost.Some? && st.currentPost.value.id == id
                          then Some(st.currentPost.value.(status := status)) else st.currentPost), true)
    else (st, false)
  }

  /** Publishing and then unpublishing a draft restores the lists. */
  lemma PublishThenUnpublishRestores(st: BlogState, id: nat)
    requires forall i :: 0 <= i < |st.posts| && st.posts[i].id == id ==> st.posts[i].status == Draft
    requires forall i :: 0 <= i < |st.myPosts| && st.myPosts[i].id == id ==> st.myPosts[i].status == Draft
    requires st.currentPost.Some? && st.currentPost.value.id == id ==> st.currentPost.value.status == Draft
    ensures SetPostStatus(SetPostStatus(st, id, Published, true).0, id, Draft, true).0 == st
  {
    SetStatusTwice(st.posts, id, Published, Draft);
    SetStatusTwice(st.myPosts, id, Published, Draft);
    SetStatusSame(st.posts, id, Draft);
    SetStatusSame(st.myPosts, id, Draft);
  }

  // ---------------------------------------------------------------------
  // Filters and housekeeping
  // ---------------------------------------------------------------------

  /** Every filter setter: its own field changes and the current page
      goes back to 1; the count and the links are kept. */
  function WithFilters(st: BlogState, f: Filters): (r: BlogState)
    ensures r.filters == f && r.pagination == st.pagination.(currentPage := 1)
    ensures r == st.(filters := f, pagination := r.pagination)
  {
    st.(filters := f, pagination := st.pagination.(currentPage := 1))
  }

  function SetSearch(st: BlogState, search: string): (r: BlogState)
    ensures r.filters == st.filters.(search := search) && r.pagination.currentPage == 1
    ensures r == st.(filters := r.filters, pagination := st.pagination.(currentPage := 1))
  {
    WithFilters(st, st.filters.(search := search))
  }

  function SetCategoryFilter(st: BlogState, category: Option<nat>): (r: BlogState)
    ensures r.filters == st.filters.(category := category) && r.pagination.currentPage == 1
    ensures r == st.(filters := r.filters, pagination := st.pagination.(currentPage := 1))
  {
    WithFilters(st, st.filters.(category := category))
  }

  function SetTagFilter(st: BlogState, tag: Option<nat>): (r: BlogState)
    ensures r.filters == st.filters.(tag := tag) && r.pagination.currentPage == 1
    ensures r == st.(filters := r.filters, pagination := st.pagination.(currentPage := 1))
  {
    WithFilters(st, st.filters.(tag := tag))
  }

  function SetStatusFilter(st: BlogState, status: StatusFilter): (r: BlogState)
    ensures r.filters == st.filters.(status := status) && r.pagination.currentPage == 1
    ensures r == st.(filters := r.filters, pagination := st.pagination.(currentPage := 1))
  {
    WithFilters(st, st.filters.(status := status))
  }

  function ClearFilters(st: BlogState): (r: BlogState)
    ensures r.filters == InitialFilters && r.pagination == st.pagination.(currentPage := 1)
    ensures r == st.(filters := InitialFilters, pagination := r.pagination)
  {
    WithFilters(st, InitialFilters)
  }

  /** The setters commute with one another and `clearFilters` undoes any
      of them; none touches the lists or the count. */
  lemma FilterSettersIndependent(st: BlogState, search: string, category: Option<nat>, tag: Option<nat>, status: StatusFilter)
    ensures SetSearch(SetCategoryFilter(st, category), search) == SetCategoryFilter(SetSearch(st, search), category)
    ensures SetTagFilter(SetStatusFilter(st, status), tag) == SetStatusFilter(SetTagFilter(st, tag), status)
    ensures ClearFilters(SetSearch(SetCategoryFilter(SetTagFilter(SetStatusFilter(st, status), tag), category), search)) == ClearFilters(st)
    ensures var r := SetSearch(st, search); r.posts == st.posts && r.myPosts == st.myPosts && r.pagination.count == st.pagination.count
  {
  }

  function SetCurrentPost(st: BlogState, p: Option<ClientPost>): (r: BlogState)
    ensures r == st.(currentPost := p)
  {
    st.(currentPost := p)
  }

  function ClearError(st: BlogState): (r: BlogState)
    ensures r.error.None? && r == st.(error := None)
  {
    st.(error := None)
  }

  function ResetState(st: BlogState): (r: BlogState)
    ensures r == Initial
  {
    Initial
  }

  /** Clearing the filters of the initial state gives the initial state. */
  lemma InitialIsClear()
    ensures ClearFilters(Initial) == Initial
  {
  }
}

=== FILE: blog_views.dfy ===
/** The post endpoints: which actions need a signed-in caller, which rows
    each action can see, the ownership checks of update, delete, publish
    and unpublish, the lookup by slug, the caller's own posts, the
    featured list and page-number pagination. The caller is the id of the
    authenticated user, or `None` for an anonymous request; the clock is
    the argument `now`. */
module BlogViews {
  import opened Wrappers
  import opened Text
  import opened Seqs
  import opened Fields
  import opened BlogModels
  import opened PostSerializers

  const DefaultPageSize: nat := 10
  const MaxPageSize: nat := 100
  const FeaturedCount: nat := 5

  const PublishNotOwner: string := "You can only publish your own posts."
  const AlreadyPublished: string := "Post is already published."
  const UnpublishNotOwner: string := "You can only unpublish your own posts."
  const AlreadyDraft: string := "Post is already a draft."
  const EditNotOwner: string := "You can only edit your own posts."
  const DeleteNotOwner: string := "You can only delete your own posts."
  const PostNotFound: string := "Post not found."

  // ---------------------------------------------------------------------
  // Permissions
  // ---------------------------------------------------------------------

  datatype Action =
    | List | Retrieve | Create | Update | PartialUpdate | Destroy
    | MyPosts | Featured | Publish | Unpublish | BySlug

  /** The actions `get_permissions` puts behind `IsAuthenticated`. */
  predicate RequiresAuthentication(a: Action) {
    a in {Create, Update, PartialUpdate, Destroy, MyPosts, Publish, Unpublish}
  }

  /** `IsAuthenticated` for those actions, `IsAuthenticatedOrReadOnly`
      (safe methods for everyone) for the rest. */
  predicate Permitted(a: Action, safeMethod: bool, authenticated: bool) {
    if RequiresAuthentication(a) then authenticated else safeMethod || authenticated
  }

  /** An anonymous caller gets only safe-method requests of the public
      actions through; a signed-in caller gets everything through. */
  lemma AnonymousReadOnly(a: Action, safeMethod: bool)
    ensures Permitted(a, safeMethod, false) <==> safeMethod && a in {List, Retrieve, Featured, BySlug}
    ensures Permitted(a, safeMethod, true)
  {
  }

  // ---------------------------------------------------------------------
  // Responses
  // ---------------------------------------------------------------------

  datatype Response =
    | Body(post: Post)                    // 200 with one post
    | Posts(posts: seq<Post>)             // 200 with a list
    | Created(post: Post)                 // 201
    | NoContent                           // 204
    | NotAuthenticated                    // 401 from the permission check
    | NotFound                            // 404 from `get_object`
    | Refused(code: nat, error: string)   // an explicit `{'error': ...}` body
    | PermissionDenied(detail: string)    // 403 raised by a `perform_*` hook
    | Invalid(errors: ErrorMap)           // 400 from the serializer
    | ServerError                         // 500: the unique slug constraint

  function StatusCode(r: Response): nat {
    match r
    case Body(_) => 200
    case Posts(_) => 200
    case Created(_) => 201
    case NoContent => 204
    case NotAuthenticated => 401
    case NotFound => 404
    case Refused(code, _) => code
    case PermissionDenied(_) => 403
    case Invalid(_) => 400
    case ServerError => 500
  }

  // ---------------------------------------------------------------------
  // Row lookup
  // ---------------------------------------------------------------------

  /** `get_object` on the full table: the position of the row with `id`. */
  function FindPost(table: seq<Post>, id: nat): (r: Option<nat>)
    ensures r.Some? ==> r.value < |table| && table[r.value].id == id
    ensures r.None? <==> forall i :: 0 <= i < |table| ==> table[i].id != id
  {
    if table == [] then None
    else if table[0].id == id then Some(0)
    else
      var r := FindPost(table[1..], id);
      if r.Some? then Some(r.value + 1) else None
  }

  /** With unique ids, the row found is the one holding the id. */
  lemma FindPostUnique(table: seq<Post>, k: nat)
    requires UniqueRows(table) && k < |table|
    ensures FindPost(table, table[k].id) == Some(k)
  {
  }

  // ---------------------------------------------------------------------
  // publish / unpublish
  // ---------------------------------------------------------------------

  /** The rows other than position `k` are the same in both tables. */
  predicate OthersUnchanged(before: seq<Post>, after: seq<Post>, k: nat) {
    |before| == |after| && forall i :: 0 <= i < |before| && i != k ==> after[i] == before[i]
  }

  /** The `publish` action. */
  function PublishPost(table: seq<Post>, id: nat, caller: Option<nat>, slugify: string -> string, now: int): (r: (seq<Post>, Response))
    ensures caller.None? ==> r == (table, NotAuthenticated)
    ensures caller.Some? && FindPost(table, id).None? ==> r == (table, NotFound)
    ensures caller.Some? && FindPost(table, id).Some? && table[FindPost(table, id).value].authorId != caller.value ==>
              r == (table, Refused(403, PublishNotOwner))
    ensures r.1 == Refused(400, AlreadyPublished) <==>
              && caller.Some? && FindPost(table, id).Some?
              && table[FindPost(table, id).value].authorId == caller.value
              && IsPublished(table[FindPost(table, id).value])
    ensures r.1.Body? ==> && FindPost(table, id).Some?
                          && OthersUnchanged(table, r.0, FindPost(table, id).value)
                          && r.0[FindPost(table, id).value] == r.1.post
                          && IsPublished(r.1.post) && r.1.post.publishedAt == Some(now)
                          && r.1.post.id == id
    ensures r.1.Body? ==>
              var p := table[FindPost(table, id).value];
              SavePost(p.(status := Published, publishedAt := Some(now)), Some(id), table, slugify, now) == Saved(r.1.post)
    ensures r.1 == ServerError <==>
              && caller.Some? && FindPost(table, id).Some?
              && var p := table[FindPost(table, id).value];
              && p.authorId == caller.value && !IsPublished(p)
              && SavePost(p.(status := Published, publishedAt := Some(now)), Some(id), table, slugify, now).DuplicateSlug?
    ensures !r.1.Body? ==> r.0 == table
  {
    if caller.None? then (table, NotAuthenticated)
    else match FindPost(table, id)
      case None => (table, NotFound)
      case Some(k) =>
        var p := table[k];
        if p.authorId != caller.value then (table, Refused(403, PublishNotOwner))
        else if IsPublished(p) then (table, Refused(400, AlreadyPublished))
        else match SavePost(p.(status := Published, publishedAt := Some(now)), Some(p.id), table, slugify, now)
          case DuplicateSlug => (table, ServerError)
          case Saved(q) => (table[k := q], Body(q))
  }

  /** The `unpublish` action. */
  function UnpublishPost(table: seq<Post>, id: nat, caller: Option<nat>, slugify: string -> string, now: int): (r: (seq<Post>, Response))
    ensures caller.None? ==> r == (table, NotAuthenticated)
    ensures caller.Some? && FindPost(table, id).None? ==> r == (table, NotFound)
    ensures caller.Some? && FindPost(table, id).Some? && table[FindPost(table, id).value].authorId != caller.value ==>
              r == (table, Refused(403, UnpublishNotOwner))
    ensures r.1 == Refused(400, AlreadyDraft) <==>
              && caller.Some? && FindPost(table, id).Some?
              && table[FindPost(table, id).value].authorId == caller.value
              && !IsPublished(table[FindPost(table, id).value])
    ensures r.1.Body? ==> && FindPost(table, id).Some?
                          && OthersUnchanged(table, r.0, FindPost(table, id).value)
                          && r.0[FindPost(table, id).value] == r.1.post
                          && r.1.post.status == Draft && r.1.post.publishedAt.None?
                          && r.1.post.id == id
    ensures r.1.Body? ==>
              var p := table[FindPost(table, id).value];
              SavePost(p.(status := Draft, publishedAt := None), Some(id), table, slugify, now) == Saved(r.1.post)
    ensures r.1 == ServerError <==>
              && caller.Some? && FindPost(table, id).Some?
              && var p := table[FindPost(table, id).value];
              && p.authorId == caller.value && IsPublished(p)
              && SavePost(p.(status := Draft, publishedAt := None), Some(id), table, slugify, now).DuplicateSlug?
    ensures !r.1.Body? ==> r.0 == table
  {
    if caller.None? then (table, NotAuthenticated)
    else match FindPost(table, id)
      case None => (table, NotFound)
      case Some(k) =>
        var p := table[k];
        if p.authorId != caller.value then (table, Refused(403, UnpublishNotOwner))
        else if p.status == Draft then (table, Refused(400, AlreadyDraft))
        else match SavePost(p.(status := Draft, publishedAt := None), Some(p.id), table, slugify, now)
          case DuplicateSlug => (table, ServerError)
          case Saved(q) => (table[k := q], Body(q))
  }

  /** Saving row `k` of a table with unique ids and slugs, under its own
      id, keeps both columns unique. */
  lemma ReplaceKeepsUnique(table: seq<Post>, k: nat, q: Post)
    requires UniqueRows(table) && k < |table|
    requires q.id == table[k].id && q.slug !in TakenSlugs(table, Some(q.id))
    ensures UniqueRows(table[k := q])
  {
    var t := table[k := q];
    forall i, j | 0 <= i < j < |t|
      ensures t[i].id != t[j].id && t[i].slug != t[j].slug
    {
      if i == k {
        assert t[j] == table[j];
        assert table[j].slug in TakenSlugs(table, Some(q.id));
      } else if j == k {
        assert t[i] == table[i];
        assert table[i].slug in TakenSlugs(table, Some(q.id));
      }
    }
  }

  /** For the owner, publishing a draft and unpublishing a published post
      always succeed on a table with unique ids and slugs, and the table
      stays unique. A caller who is not the author gets 403 whatever the
      post's status. */
  lemma TransitionsSucceed(table: seq<Post>, k: nat, caller: nat, slugify: string -> string, now: int)
    requires UniqueRows(table) && k < |table|
    ensures var p := table[k];
            var pub := PublishPost(table, p.id, Some(caller), slugify, now);
            var unpub := UnpublishPost(table, p.id, Some(caller), slugify, now);
            && (p.authorId == caller && !IsPublished(p) ==> pub.1.Body? && UniqueRows(pub.0))
            && (p.authorId == caller && IsPublished(p) ==> unpub.1.Body? && UniqueRows(unpub.0))
            && (p.authorId != caller ==> StatusCode(pub.1) == 403 && StatusCode(unpub.1) == 403)
  {
    var p := table[k];
    FindPostUnique(table, k);
    var published := p.(status := Published, publishedAt := Some(now));
    var drafted := p.(status := Draft, publishedAt := None);
    ResaveSucceeds(table, k, published, slugify, now);
    ResaveSucceeds(table, k, drafted, slugify, now);
    if p.authorId == caller && !IsPublished(p) {
      ReplaceKeepsUnique(table, k, SavePost(published, Some(p.id), table, slugify, now).post);
    }
    if p.authorId == caller && IsPublished(p) {
      ReplaceKeepsUnique(table, k, SavePost(drafted, Some(p.id), table, slugify, now).post);
    }
  }

  /** Publishing and then unpublishing leaves a draft with no publication
      instant, as it started. */
  lemma PublishThenUnpublish(table: seq<Post>, k: nat, caller: nat, slugify: string -> string, t1: int, t2: int)
    requires UniqueRows(table) && k < |table|
    requires table[k].authorId == caller && !IsPublished(table[k])
    ensures var id := table[k].id;
            var t := PublishPost(table, id, Some(caller), slugify, t1).0;
            var u := UnpublishPost(t, id, Some(caller), slugify, t2);
            && u.1.Body? && u.1.post.status == Draft && u.1.post.publishedAt.None?
            && (table[k].slug != [] ==> u.1.post.slug == table[k].slug)
  {
    var id := table[k].id;
    TransitionsSucceed(table, k, caller, slugify, t1);
    var t := PublishPost(table, id, Some(caller), slugify, t1).0;
    FindPostUnique(table, k);
    assert t[k].id == id && t[k].authorId == caller && IsPublished(t[k]);
    FindPostUnique(t, k);
    TransitionsSucceed(t, k, caller, slugify, t2);
    if table[k].slug != [] {
      ResaveSucceeds(table, k, table[k].(status := Published, publishedAt := Some(t1)), slugify, t1);
      ResaveSucceeds(t, k, t[k].(status := Draft, publishedAt := None), slugify, t2);
    }
  }

  // ---------------------------------------------------------------------
  // create / update / destroy
  // ---------------------------------------------------------------------

  /** The key the database assigns next: above every existing one. */
  function NextPostId(table: seq<Post>): (id: nat)
    ensures forall i :: 0 <= i < |table| ==> table[i].id < id
  {
    if table == [] then 1
    else
      var rest := NextPostId(table[1..]);
      assert forall i :: 1 <= i < |table| ==> table[i] == table[1..][i - 1];
      if table[0].id < rest then rest else table[0].id + 1
  }

  /** The `create` action: the requester becomes the author. */
  function CreateView(table: seq<Post>, input: PostInput, caller: Option<nat>, categories: seq<Category>,
                      tags: seq<Tag>, slugify: string -> string, now: int): (r: (seq<Post>, Response))
    ensures caller.None? ==> r == (table, NotAuthenticated)
    ensures caller.Some? && ValidatePost(input, categories, tags, true).Failure? ==>
              r == (table, Invalid(ValidatePost(input, categories, tags, true).error))
    ensures r.1.Created? ==> && caller.Some? && r.1.post.authorId == caller.value
                             && r.0 == table + [r.1.post]
                             && r.1.post.slug !in TakenSlugs(table, None)
                             && forall i :: 0 <= i < |table| ==> table[i].id != r.1.post.id
    ensures r.1.Created? <==> caller.Some? && ValidatePost(input, categories, tags, true).Success?
    ensures r.1.Created? ==>
              r.1.post == CreatePost(ValidatePost(input, categories, tags, true).value, caller.value,
                                     NextPostId(table), table, tags, slugify, now)
    ensures !r.1.Created? ==> r.0 == table
  {
    if caller.None? then (table, NotAuthenticated)
    else match ValidatePost(input, categories, tags, true)
      case Failure(e) => (table, Invalid(e))
      case Success(d) =>
        var p := CreatePost(d, caller.value, NextPostId(table), table, tags, slugify, now);
        (table + [p], Created(p))
  }

  /** A created row keeps the table's ids and slugs unique. */
  lemma CreateKeepsUnique(table: seq<Post>, input: PostInput, caller: Option<nat>, categories: seq<Category>,
                          tags: seq<Tag>, slugify: string -> string, now: int)
    requires UniqueRows(table)
    ensures UniqueRows(CreateView(table, input, caller, categories, tags, slugify, now).0)
  {
    var r := CreateView(table, input, caller, categories, tags, slugify, now);
    if r.1.Created? {
      var t := r.0;
      forall i, j | 0 <= i < j < |t|
        ensures t[i].id != t[j].id && t[i].slug != t[j].slug
      {
        if j == |table| {
          assert t[i] == table[i];
          assert table[i].slug in TakenSlugs(table, None);
        }
      }
    }
  }

  /** What follows validation in `update`: a rejected payload is a 400;
      a valid one from someone other than the author is refused; the
      author's is saved over row `k`. */
  function AfterValidation(table: seq<Post>, k: nat, v: Result<PostData, ErrorMap>, caller: nat,
                           tags: seq<Tag>, slugify: string -> string, now: int): (r: (seq<Post>, Response))
    requires k < |table|
    ensures v.Failure? ==> r == (table, Invalid(v.error))
    ensures r.1 == PermissionDenied(EditNotOwner) <==> v.Success? && table[k].authorId != caller
    ensures r.1.Body? ==> table[k].authorId == caller && OthersUnchanged(table, r.0, k) && r.0[k] == r.1.post
    ensures r.1.Body? ==> v.Success? && UpdatePost(table[k], v.value, table, tags, slugify, now) == Saved(r.1.post)
    ensures r.1 == ServerError <==>
              v.Success? && table[k].authorId == caller && UpdatePost(table[k], v.value, table, tags, slugify, now).DuplicateSlug?
    ensures !r.1.Body? ==> r.0 == table
  {
    match v
    case Failure(e) => (table, Invalid(e))
    case Success(d) =>
      var p := table[k];
      if p.authorId != caller then (table, PermissionDenied(EditNotOwner))
      else match UpdatePost(p, d, table, tags, slugify, now)
        case DuplicateSlug => (table, ServerError)
        case Saved(q) => (table[k := q], Body(q))
  }

  /** The `update` and `partial_update` actions: the row is fetched, the
      data validated, and only then is ownership checked. */
  function UpdateView(table: seq<Post>, id: nat, input: PostInput, partial: bool, caller: Option<nat>,
                      categories: seq<Category>, tags: seq<Tag>, slugify: string -> string, now: int): (r: (seq<Post>, Response))
    ensures caller.None? ==> r == (table, NotAuthenticated)
    ensures caller.Some? && FindPost(table, id).None? ==> r == (table, NotFound)
    ensures caller.Some? && FindPost(table, id).Some? ==>
              r == AfterValidation(table, FindPost(table, id).value, ValidatePost(input, categories, tags, !partial), caller.value, tags, slugify, now)
  {
    if caller.None? then (table, NotAuthenticated)
    else match FindPost(table, id)
      case None => (table, NotFound)
      case Some(k) => AfterValidation(table, k, ValidatePost(input, categories, tags, !partial), caller.value, tags, slugify, now)
  }

  /** After validation, a caller who is not the author gets 400 or 403
      and the table is untouched. */
  lemma NonAuthorAfterValidation(table: seq<Post>, k: nat, v: Result<PostData, ErrorMap>, caller: nat,
                                 tags: seq<Tag>, slugify: string -> string, now: int)
    requires k < |table| && table[k].authorId != caller
    ensures var r := AfterValidation(table, k, v, caller, tags, slugify, now);
            r.0 == table && StatusCode(r.1) == (if v.Success? then 403 else 400)
  {
    var r := AfterValidation(table, k, v, caller, tags, slugify, now);
    if v.Success? {
      assert r.1 == PermissionDenied(EditNotOwner);
    } else {
      assert r.1 == Invalid(v.error);
    }
  }

  /** A caller who is not the author never changes the row: invalid data
      gets 400 (validation runs first), valid data 403. */
  lemma NonAuthorCannotUpdate(table: seq<Post>, k: nat, input: PostInput, partial: bool, caller: nat,
                              categories: seq<Category>, tags: seq<Tag>, slugify: string -> string, now: int)
    requires UniqueRows(table) && k < |table| && table[k].authorId != caller
    ensures var r := UpdateView(table, table[k].id, input, partial, Some(caller), categories, tags, slugify, now);
            && r.0 == table
            && StatusCode(r.1) == (if ValidatePost(input, categories, tags, !partial).Success? then 403 else 400)
  {
    FindPostUnique(table, k);
    NonAuthorAfterValidation(table, k, ValidatePost(input, categories, tags, !partial), caller, tags, slugify, now);
  }

  /** The `destroy` action. */
  function DestroyView(table: seq<Post>, id: nat, caller: Option<nat>): (r: (seq<Post>, Response))
    ensures caller.None? ==> r == (table, NotAuthenticated)
    ensures caller.Some? && FindPost(table, id).None? ==> r == (table, NotFound)
    ensures r.1 == PermissionDenied(DeleteNotOwner) <==>
              caller.Some? && FindPost(table, id).Some? && table[FindPost(table, id).value].authorId != caller.value
    ensures r.1 == NoContent ==> && FindPost(table, id).Some?
                                 && table[FindPost(table, id).value].authorId == caller.value
                                 && r.0 == table[..FindPost(table, id).value] + table[FindPost(table, id).value + 1..]
    ensures r.1 != NoContent ==> r.0 == table
  {
    if caller.None? then (table, NotAuthenticated)
    else match FindPost(table, id)
      case None => (table, NotFound)
      case Some(k) =>
        if table[k].authorId != caller.value then (table, PermissionDenied(DeleteNotOwner))
        else (table[..k] + table[k + 1..], NoContent)
  }

  /** After a delete by the author, the id is gone from a table with
      unique ids, and every other row is still there. */
  lemma DestroyRemovesRow(table: seq<Post>, k: nat, caller: nat)
    requires UniqueRows(table) && k < |table| && table[k].authorId == caller
    ensures var r := DestroyView(table, table[k].id, Some(caller));
            && r.1 == NoContent
            && FindPost(r.0, table[k].id).None?
            && |r.0| == |table| - 1
            && forall i :: 0 <= i < |table| && i != k ==> table[i] in r.0
  {
    FindPostUnique(table, k);
    var r := DestroyView(table, table[k].id, Some(caller)).0;
    forall i | 0 <= i < |r|
      ensures r[i].id != table[k].id
    {
      if i < k {
        assert r[i] == table[i];
      } else {
        assert r[i] == table[i + 1];
      }
    }
    forall i | 0 <= i < |table| && i != k
      ensures table[i] in r
    {
      if i < k {
        assert r[i] == table[i];
      } else {
        assert r[i - 1] == table[i];
      }
    }
  }

  // ---------------------------------------------------------------------
  // Reading: filters, order, pages
  // ---------------------------------------------------------------------

  /** `title__icontains | content__icontains | excerpt__icontains`. */
  predicate MatchesSearch(p: Post, term: string) {
    || Contains(Lower(p.title), Lower(term))
    || Contains(Lower(p.content), Lower(term))
    || (p.excerpt.Some? && Contains(Lower(p.excerpt.value), Lower(term)))
  }

  /** The row filters of the read actions. A search term or status filter
      applies only when it is a non-empty string. */
  datatype Query = Query(
    publishedOnly: bool,
    author: Option<nat>,
    search: Option<string>,
    status: Option<string>,
    category: Option<int>,
    tag: Option<int>)

  predicate Selects(q: Query, p: Post) {
    && (q.publishedOnly ==> IsPublished(p))
    && (q.author.Some? ==> p.authorId == q.author.value)
    && (q.search.Some? && q.search.value != [] ==> MatchesSearch(p, q.search.value))
    && (q.status.Some? && q.status.value != [] ==> StatusName(p.status) == q.status.value)
    && (q.category.Some? ==> p.categoryId == q.category)
    && (q.tag.Some? ==> q.tag.value in p.tagIds)
  }

  /** The rows a query selects, in table order. */
  function Select(table: seq<Post>, q: Query): (r: seq<Post>)
    ensures |r| <= |table|
    ensures forall i :: 0 <= i < |r| ==> r[i] in table && Selects(q, r[i])
    ensures forall i :: 0 <= i < |table| && Selects(q, table[i]) ==> table[i] in r
  {
    if table == [] then []
    else
      var rest := Select(table[1..], q);
      assert forall i :: 1 <= i < |table| ==> table[i] == table[1..][i - 1];
      if Selects(q, table[0]) then [table[0]] + rest else rest
  }

  function CreatedAt(p: Post): int {
    p.createdAt
  }

  /** `order_by('-created_at')`. */
  function Newest(s: seq<Post>): (r: seq<Post>)
    ensures SortedDesc(r, CreatedAt)
    ensures multiset(r) == multiset(s)
    ensures forall i :: 0 <= i < |r| ==> r[i] in s
    ensures forall p :: p in s ==> p in r
  {
    var r := SortDesc(s, CreatedAt);
    assert forall p :: p in r <==> p in multiset(r);
    assert forall p :: p in s <==> p in multiset(s);
    r
  }

  const PublicQuery: Query := Query(true, None, None, None, None, None)

  /** `page_size` from the query string: a positive value capped at 100,
      otherwise the default of 10. */
  function PageSize(param: Option<int>): (size: nat)
    ensures 1 <= size <= MaxPageSize
    ensures param.Some? && 0 < param.value <= MaxPageSize ==> size == param.value
    ensures param.Some? && param.value > MaxPageSize ==> size == MaxPageSize
    ensures param.None? || param.value <= 0 ==> size == DefaultPageSize
  {
    if param.Some? && param.value > 0 then
      (if param.value < MaxPageSize then param.value else MaxPageSize)
    else DefaultPageSize
  }

  /** The number of pages; an empty list still has its first page. */
  function PageCount(n: nat, size: nat): (pages: nat)
    requires size >= 1
    ensures pages >= 1
    ensures n > 0 ==> (pages - 1) * size < n <= pages * size
  {
    if n <= size then 1 else 1 + PageCount(n - size, size)
  }

  /** `page` is page `number` of `all`: the block of at most `size`
      items that starts at position `(number - 1) * size`. */
  ghost predicate IsPageOf<T>(page: seq<T>, all: seq<T>, number: int, size: nat) {
    var lo := (number - 1) * size;
    && 1 <= number && 0 <= lo <= |all|
    && page == all[lo..if lo + size < |all| then lo + size else |all|]
  }

  /** A block of a newest-first list is newest first. */
  lemma PageSorted(page: seq<Post>, all: seq<Post>, number: int, size: nat)
    requires IsPageOf(page, all, number, size) && SortedDesc(all, CreatedAt)
    ensures SortedDesc(page, CreatedAt)
  {
    var lo := (number - 1) * size;
    forall i, j | 0 <= i < j < |page|
      ensures CreatedAt(page[i]) >= CreatedAt(page[j])
    {
      assert page[i] == all[lo + i] && page[j] == all[lo + j];
    }
  }

  /** Page `number` (1-based) of `items`, or `None` for a page that does
      not exist (the 404 "Invalid page."). */
  function Paginate<T>(items: seq<T>, number: int, size: nat): (r: Option<seq<T>>)
    requires size >= 1
    ensures r.Some? <==> 1 <= number <= PageCount(|items|, size)
    ensures r.Some? ==> |r.value| <= size
    ensures r.Some? ==> forall i :: 0 <= i < |r.value| ==> r.value[i] in items
    ensures r.Some? && number < PageCount(|items|, size) ==> |r.value| == size
    decreases |items|
  {
    if number < 1 then None
    else if number == 1 then Some(if |items| <= size then items else items[..size])
    else if |items| <= size then None
    else
      var r := Paginate(items[size..], number - 1, size);
      assert forall x :: x in items[size..] ==> x in items;
      r
  }

  /** The page holding position `i`, and the position on that page:
      `i // size + 1` and `i % size`. */
  function PageNumber(i: nat, size: nat): (n: nat)
    requires size >= 1
    ensures n >= 1
  {
    if i < size then 1 else 1 + PageNumber(i - size, size)
  }

  function PageOffset(i: nat, size: nat): (k: nat)
    requires size >= 1
    ensures k < size
  {
    if i < size then i else PageOffset(i - size, size)
  }

  /** Every item is on exactly the page its position says: pages neither
      skip nor repeat items. */
  lemma {:induction false} PageOfItem<T>(items: seq<T>, size: nat, i: nat)
    requires size >= 1 && i < |items|
    ensures var page := Paginate(items, PageNumber(i, size), size);
            page.Some? && PageOffset(i, size) < |page.value| && page.value[PageOffset(i, size)] == items[i]
    decreases i
  {
    if i >= size {
      PageOfItem(items[size..], size, i - size);
      assert items[size..][i - size] == items[i];
    }
  }

  /** The `list` action: published posts only, newest first, by page. */
  function ListView(table: seq<Post>, number: int, sizeParam: Option<int>): (r: Response)
    ensures r.Posts? || r == NotFound
    ensures r.Posts? <==> 1 <= number <= PageCount(|Select(table, PublicQuery)|, PageSize(sizeParam))
    ensures r.Posts? ==> forall i :: 0 <= i < |r.posts| ==> r.posts[i] in table && IsPublished(r.posts[i])
    ensures r.Posts? ==> IsPageOf(r.posts, Newest(Select(table, PublicQuery)), number, PageSize(sizeParam))
    ensures r.Posts? ==> SortedDesc(r.posts, CreatedAt)
  {
    var all := Newest(Select(table, PublicQuery));
    assert |all| == |Select(table, PublicQuery)| by {
      assert |multiset(all)| == |multiset(Select(table, PublicQuery))|;
    }
    match Paginate(all, number, PageSize(sizeParam))
    case None => NotFound
    case Some(page) =>
      PaginateIsPage(all, number, PageSize(sizeParam));
      PageSorted(page, all, number, PageSize(sizeParam));
      Posts(page)
  }

  /** An existing page is the block its number says. */
  lemma {:induction false} PaginateIsPage<T>(items: seq<T>, number: int, size: nat)
    requires size >= 1 && Paginate(items, number, size).Some?
    ensures IsPageOf(Paginate(items, number, size).value, items, number, size)
    decreases |items|
  {
    var page := Paginate(items, number, size).value;
    if number == 1 {
      assert (number - 1) * size == 0;
      assert page == items[0..if size < |items| then size else |items|];
    } else {
      assert page == Paginate(items[size..], number - 1, size).value;
      PaginateIsPage(items[size..], number - 1, size);
      PageShift(page, items, number, size);
    }
  }

  /** Page `number - 1` of the list without its first page is page
      `number` of the list. */
  lemma PageShift<T>(page: seq<T>, items: seq<T>, number: int, size: nat)
    requires size >= 1 && number >= 2 && size < |items|
    requires IsPageOf(page, items[size..], number - 1, size)
    ensures IsPageOf(page, items, number, size)
  {
    var rest := items[size..];
    var lo := (number - 2) * size;
    var hi := if lo + size < |rest| then lo + size else |rest|;
    NextPageStart(number, size);
    var lo2 := (number - 1) * size;
    var hi2 := if lo2 + size < |items| then lo2 + size else |items|;
    assert lo2 == size + lo && hi2 == size + hi;
    SliceOfDrop(items, size, lo, hi);
  }

  lemma SliceOfDrop<T>(items: seq<T>, k: nat, a: nat, b: nat)
    requires k <= |items| && a <= b <= |items| - k
    ensures items[k..][a..b] == items[k + a..k + b]
  {
  }

  lemma NextPageStart(number: int, size: nat)
    ensures (number - 1) * size == (number - 2) * size + size
  {
  }


  /** Every item of a list is on some page: the one its position says. */
  lemma OnSomePage<T>(all: seq<T>, size: nat, x: T)
    requires size >= 1 && x in all
    ensures exists number :: Paginate(all, number, size).Some? && x in Paginate(all, number, size).value
  {
    var i :| 0 <= i < |all| && all[i] == x;
    PageOfItem(all, size, i);
    var number := PageNumber(i, size);
    assert Paginate(all, number, size).value[PageOffset(i, size)] == x;
  }

  /** Nothing published is missed: every published post is on some page
      of the list. */
  lemma ListViewShowsEvery(table: seq<Post>, sizeParam: Option<int>, p: Post)
    requires p in table && IsPublished(p)
    ensures exists number :: ListView(table, number, sizeParam).Posts? && p in ListView(table, number, sizeParam).posts
  {
    var all := Newest(Select(table, PublicQuery));
    OnSomePage(all, PageSize(sizeParam), p);
    var number :| Paginate(all, number, PageSize(sizeParam)).Some? && p in Paginate(all, number, PageSize(sizeParam)).value;
    assert ListView(table, number, sizeParam) == Posts(Paginate(all, number, PageSize(sizeParam)).value);
  }

  /** The `retrieve` action: a row outside the published set is not found,
      whoever asks. */
  function RetrieveView(table: seq<Post>, id: nat): (r: Response)
    ensures r.Body? || r == NotFound
    ensures r.Body? ==> r.post in table && IsPublished(r.post) && r.post.id == id
  {
    var visible := Select(table, PublicQuery);
    match FindPost(visible, id)
    case None => NotFound
    case Some(k) => Body(visible[k])
  }

  /** A draft cannot be retrieved, not even by its author; a published
      row is retrieved as it is. */
  lemma RetrieveHidesDrafts(table: seq<Post>, k: nat)
    requires UniqueRows(table) && k < |table|
    ensures !IsPublished(table[k]) ==> RetrieveView(table, table[k].id) == NotFound
    ensures IsPublished(table[k]) ==> RetrieveView(table, table[k].id) == Body(table[k])
  {
    var visible := Select(table, PublicQuery);
    var r := RetrieveView(table, table[k].id);
    if r.Body? {
      var j :| 0 <= j < |table| && table[j] == r.post;
      assert j == k;
    }
  }

  /** The `featured` action: the five newest published posts. */
  function FeaturedView(table: seq<Post>): (r: seq<Post>)
    ensures |r| <= FeaturedCount
    ensures forall i :: 0 <= i < |r| ==> r[i] in table && IsPublished(r[i])
    ensures SortedDesc(r, CreatedAt)
  {
    Take(Newest(Select(table, PublicQuery)), FeaturedCount)
  }

  /** No published post left out of `featured` is newer than one in it,
      and fewer than five are shown only when fewer exist. */
  lemma FeaturedAreNewest(table: seq<Post>)
    ensures var r := FeaturedView(table);
            && (forall p :: p in table && IsPublished(p) && p !in r ==>
                  |r| == FeaturedCount && forall j :: 0 <= j < |r| ==> r[j].createdAt >= p.createdAt)
  {
    var sorted := Newest(Select(table, PublicQuery));
    var r := FeaturedView(table);
    forall p | p in table && IsPublished(p) && p !in r
      ensures |r| == FeaturedCount && forall j :: 0 <= j < |r| ==> r[j].createdAt >= p.createdAt
    {
      var i :| 0 <= i < |sorted| && sorted[i] == p;
      forall j | 0 <= j < |r|
        ensures r[j].createdAt >= p.createdAt
      {
        assert r[j] == sorted[j];
        assert CreatedAt(sorted[j]) >= CreatedAt(sorted[i]);
      }
    }
  }

  /** `Post.objects.get(slug=...)`: the first row with that slug. */
  function FindSlug(table: seq<Post>, slug: string): (r: Option<Post>)
    ensures r.Some? ==> r.value in table && r.value.slug == slug
    ensures r.None? <==> forall i :: 0 <= i < |table| ==> table[i].slug != slug
  {
    if table == [] then None
    else if table[0].slug == slug then Some(table[0])
    else FindSlug(table[1..], slug)
  }

  /** The `by_slug` action. */
  function BySlugView(table: seq<Post>, slug: string, caller: Option<nat>): (r: Response)
    ensures r.Body? || r == Refused(404, PostNotFound)
    ensures r.Body? ==> r.post.slug == slug && r.post in table
    ensures r.Body? ==> IsPublished(r.post) || caller == Some(r.post.authorId)
  {
    match FindSlug(table, slug)
    case None => Refused(404, PostNotFound)
    case Some(p) =>
      if (caller.None? || caller.value != p.authorId) && !IsPublished(p) then Refused(404, PostNotFound)
      else Body(p)
  }

  /** A published post is served to everyone and a draft to its author
      only; anyone else gets exactly the answer for a slug that does not
      exist. */
  lemma BySlugVisibility(table: seq<Post>, k: nat, caller: Option<nat>, missing: string)
    requires UniqueRows(table) && k < |table|
    requires forall i :: 0 <= i < |table| ==> table[i].slug != missing
    ensures var p := table[k];
            && (IsPublished(p) || caller == Some(p.authorId) ==> BySlugView(table, p.slug, caller) == Body(p))
            && (!IsPublished(p) && caller != Some(p.authorId) ==>
                  BySlugView(table, p.slug, caller) == BySlugView(table, missing, caller))
  {
    var p := table[k];
    var f := FindSlug(table, p.slug);
    var j :| 0 <= j < |table| && table[j] == f.value;
    assert j == k;
  }

  /** The rows `my_posts` lists for `caller`. */
  function MineQuery(caller: nat, search: Option<string>, status: Option<string>, category: Option<int>): Query {
    Query(false, Some(caller), search, status, category, None)
  }

  /** The `my_posts` action: the caller's posts in either status, newest
      first, optionally searched and filtered, by page. */
  function MyPostsView(table: seq<Post>, caller: Option<nat>, search: Option<string>, status: Option<string>,
                       category: Option<int>, number: int, sizeParam: Option<int>): (r: Response)
    ensures caller.None? ==> r == NotAuthenticated
    ensures caller.Some? ==> r.Posts? || r == NotFound
    ensures caller.Some? ==>
              (r.Posts? <==> 1 <= number <= PageCount(|Select(table, MineQuery(caller.value, search, status, category))|,
                                                      PageSize(sizeParam)))
    ensures r.Posts? ==>
              IsPageOf(r.posts, Newest(Select(table, MineQuery(caller.value, search, status, category))),
                       number, PageSize(sizeParam))
    ensures r.Posts? ==> SortedDesc(r.posts, CreatedAt)
    ensures r.Posts? ==> forall i :: 0 <= i < |r.posts| ==>
              && r.posts[i] in table && r.posts[i].authorId == caller.value
              && (search.Some? && search.value != [] ==> MatchesSearch(r.posts[i], search.value))
              && (status.Some? && status.value != [] ==> StatusName(r.posts[i].status) == status.value)
              && (category.Some? ==> r.posts[i].categoryId == category)
  {
    if caller.None? then NotAuthenticated
    else
      var all := Newest(Select(table, MineQuery(caller.value, search, status, category)));
      assert |all| == |Select(table, MineQuery(caller.value, search, status, category))| by {
        assert |multiset(all)| == |multiset(Select(table, MineQuery(caller.value, search, status, category)))|;
      }
      match Paginate(all, number, PageSize(sizeParam))
      case None => NotFound
      case Some(page) =>
        PaginateIsPage(all, number, PageSize(sizeParam));
        PageSorted(page, all, number, PageSize(sizeParam));
        Posts(page)
  }

  /** Without filters, the caller's posts are all their posts, drafts
      included, newest first. */
  lemma MyPostsComplete(table: seq<Post>, caller: nat)
    ensures var all := Newest(Select(table, Query(false, Some(caller), None, None, None, None)));
            && SortedDesc(all, CreatedAt)
            && (forall p :: p in table && p.authorId == caller <==> p in all)
  {
  }

  // ---------------------------------------------------------------------
  // Posts of a category or a tag
  // ---------------------------------------------------------------------

  /** The text `SearchFilter` splits into terms: NUL characters dropped and
      commas read as spaces. */
  function SearchText(s: string): (r: string)
    ensures |r| <= |s|
    ensures ',' !in r && '\0' !in r
  {
    if s == [] then []
    else (if s[0] == '\0' then [] else if s[0] == ',' then [' '] else [s[0]]) + SearchText(s[1..])
  }

  /** The terms of `?search=`, split on white space. */
  function SearchTerms(search: string): (r: seq<string>)
    ensures forall i :: 0 <= i < |r| ==> r[i] != [] && NoSpace(r[i])
  {
    SplitWhitespace(SearchText(search))
  }

  /** `SearchFilter` on one row: every term occurs, ignoring case, in one
      of the searched fields (a null field holds nothing). Without terms
      every row is kept. */
  predicate SearchKeeps(fields: seq<Option<string>>, search: Option<string>) {
    search.None? ||
    forall t :: t in SearchTerms(search.value) ==>
      exists f :: f in fields && f.Some? && Contains(Lower(f.value), Lower(t))
  }

  /** `get_object` of the category and tag view sets: a row with that id
      among those the view set's search filter keeps, searching `name`
      and `description` of categories and `name` of tags. */
  predicate OwnerFound(o: Owner, categories: seq<Category>, tags: seq<Tag>, search: Option<string>) {
    match o
    case OfCategory(c) =>
      exists i :: 0 <= i < |categories| && categories[i].id == c
                  && SearchKeeps([Some(categories[i].name), categories[i].description], search)
    case OfTag(t) =>
      exists i :: 0 <= i < |tags| && tags[i].id == t && SearchKeeps([Some(tags[i].name)], search)
  }

  /** The rows the `posts` action lists for `o`. */
  function OwnerQuery(o: Owner, search: Option<string>): Query {
    match o
    case OfCategory(c) => Query(true, None, search, None, Some(c), None)
    case OfTag(t) => Query(true, None, search, None, None, Some(t))
  }

  /** The `posts` action of a category (`OfCategory`) or a tag (`OfTag`):
      its published posts matching the search, newest first, by page. The
      category or tag is looked up through the same `?search=`, so a term
      its own name (or a category's description) lacks is a 404 too. */
  function OwnerPostsView(table: seq<Post>, categories: seq<Category>, tags: seq<Tag>, o: Owner,
                          search: Option<string>, number: int, sizeParam: Option<int>): (r: Response)
    ensures r.Posts? || r == NotFound
    ensures r.Posts? <==> && OwnerFound(o, categories, tags, search)
                          && 1 <= number <= PageCount(|Select(table, OwnerQuery(o, search))|, PageSize(sizeParam))
    ensures r.Posts? ==> forall i :: 0 <= i < |r.posts| ==>
              && r.posts[i] in table && CountedFor(o, r.posts[i])
              && (search.Some? && search.value != [] ==> MatchesSearch(r.posts[i], search.value))
    ensures r.Posts? ==> IsPageOf(r.posts, Newest(Select(table, OwnerQuery(o, search))), number, PageSize(sizeParam))
    ensures r.Posts? ==> SortedDesc(r.posts, CreatedAt)
  {
    if !OwnerFound(o, categories, tags, search) then NotFound
    else
      var all := Newest(Select(table, OwnerQuery(o, search)));
      assert |all| == |Select(table, OwnerQuery(o, search))| by {
        assert |multiset(all)| == |multiset(Select(table, OwnerQuery(o, search)))|;
      }
      match Paginate(all, number, PageSize(sizeParam))
      case None => NotFound
      case Some(page) =>
        PaginateIsPage(all, number, PageSize(sizeParam));
        PageSorted(page, all, number, PageSize(sizeParam));
        Posts(page)
  }

  /** Nothing is missed: once the category or tag is found, each of its
      published posts that matches the search is on some page. */
  lemma OwnerPostsShowEvery(table: seq<Post>, categories: seq<Category>, tags: seq<Tag>, o: Owner,
                            search: Option<string>, sizeParam: Option<int>, p: Post)
    requires OwnerFound(o, categories, tags, search)
    requires p in table && CountedFor(o, p)
    requires search.Some? && search.value != [] ==> MatchesSearch(p, search.value)
    ensures exists number :: OwnerPostsView(table, categories, tags, o, search, number, sizeParam).Posts?
                             && p in OwnerPostsView(table, categories, tags, o, search, number, sizeParam).posts
  {
    var all := Newest(Select(table, OwnerQuery(o, search)));
    var size := PageSize(sizeParam);
    assert Selects(OwnerQuery(o, search), p);
    OnSomePage(all, size, p);
    var number :| Paginate(all, number, size).Some? && p in Paginate(all, number, size).value;
    assert OwnerPostsView(table, categories, tags, o, search, number, sizeParam) == Posts(Paginate(all, number, size).value);
  }

  lemma {:induction false} SearchTextPlain(s: string)
    requires ',' !in s && '\0' !in s
    ensures SearchText(s) == s
  {
    if s != [] {
      SearchTextPlain(s[1..]);
      assert s == [s[0]] + s[1..];
    }
  }

  /** A search of one plain word has that word as its only term. */
  lemma SingleTerm(w: string)
    requires w != [] && NoSpace(w) && ',' !in w && '\0' !in w
    ensures SearchTerms(w) == [w]
  {
    SearchTextPlain(w);
    SplitFromWord(w, [], []);
    assert w + [] == w && [] + w == w;
  }

  /** The search reaches the category lookup too: a category whose name
      does not hold the term is not found, although its one published post
      matches the same term. */
  lemma SearchHidesCategory(post: Post)
    requires IsPublished(post) && post.title == "x" && post.categoryId == Some(1)
    ensures MatchesSearch(post, "x")
    ensures OwnerPostsView([post], [Category(1, "News", "news", None)], [], OfCategory(1), Some("x"), 1, None) == NotFound
  {
    assert StartsWith(Lower("x"), Lower("x"));
    NewsHiddenByX();
  }

  lemma NewsHiddenByX()
    ensures !OwnerFound(OfCategory(1), [Category(1, "News", "news", None)], [], Some("x"))
  {
    SingleTerm("x");
    NewsLacksX();
    var fields: seq<Option<string>> := [Some("News"), None];
    assert !exists f :: f in fields && f.Some? && Contains(Lower(f.value), Lower("x"));
  }

  lemma NewsLacksX()
    ensures !Contains(Lower("News"), Lower("x"))
  {
    assert Lower("x") == "x";
    assert Lower("News") == "news";
    LacksChar("news", 'x');
  }

  lemma {:induction false} LacksChar(s: string, c: char)
    requires c !in s
    ensures !Contains(s, [c])
    decreases |s|
  {
    if s != [] {
      assert s[..1] == [s[0]];
      LacksChar(s[1..], c);
    }
  }
}

=== FILE: client_types.dfy ===
/** The records the browser client exchanges with the server, as the
    client's type declarations describe them. Ids are positive numbers on
    the wire; a post's status uses the server's two statuses. */
module ClientTypes {
  import opened Wrappers
  import opened BlogModels

  datatype ClientUser = ClientUser(
    id: nat,
    username: string,
    email: string,
    firstName: string,
    lastName: string,
    isEmailVerified: bool)

  /** A category or a tag as embedded in a post. */
  datatype Named = Named(id: nat, name: string)

  datatype ClientPost = ClientPost(
    id: nat,
    title: string,
    slug: string,
    content: string,
    excerpt: string,
    author: Option<ClientUser>,
    category: Option<Named>,
    tags: seq<Named>,
    status: Status)

  /** A chosen image file: its name and its size in bytes. */
  datatype ImageFile = ImageFile(name: string, size: nat)

  datatype CreatePostData = CreatePostData(
    title: string,
    content: string,
    excerpt: Option<string>,
    status: Status,
    categoryId: Option<nat>,
    tagIds: Option<seq<nat>>,
    featuredImage: Option<ImageFile>)

  datatype UpdatePostData = UpdatePostData(
    title: Option<string>,
    content: Option<string>,
    excerpt: Option<string>,
    status: Option<Status>,
    categoryId: Option<nat>,
    tagIds: Option<seq<nat>>,
    featuredImage: Option<ImageFile>)
}

=== FILE: drf_auth.dfy ===
/** The REST framework authentication class. Unlike the middleware it
    demands the exact, case-sensitive prefix "Bearer ", takes the token as
    the second field of a split on single spaces, and refuses inactive
    users. Returning `None` from `authenticate` leaves the request
    anonymous; raising `AuthenticationFailed` ends it with a 401. */
module DrfAuth {
  import opened Wrappers
  import opened Text
  import opened Users
  import opened Jwt

  const Scheme: string := "Bearer "

  datatype Authentication =
    | Anonymous
    | Authenticated(user: User, token: string)
    | Failed(detail: string)

  /** The detail text: the inner `AuthenticationFailed` is caught by the
      blanket handler and re-raised with its text after "Invalid token: ". */
  const FailedDetail: string := "Invalid token: Invalid token or user inactive"

  /** `auth_header.split(' ')[1]` on a header that starts with "Bearer ":
      the text between the first and second space. */
  function BearerToken(header: string): (t: string)
    requires StartsWith(header, Scheme)
    ensures |SplitOn(header, ' ')| >= 2 && t == SplitOn(header, ' ')[1]
    ensures ' ' !in t
    ensures Contains(header, t)
  {
    var rest := header[|Scheme|..];
    assert header == "Bearer" + [' '] + rest;
    SplitOnPrefix("Bearer", rest, ' ');
    var t := SplitOn(rest, ' ')[0];
    SplitOnJoin(rest, ' ');
    BearerTokenIsPrefix(rest);
    assert header[|Scheme|..|Scheme| + |t|] == t;
    ContainsSlice(header, |Scheme|, |Scheme| + |t|);
    t
  }

  /** The first field of a split is a prefix of the text. */
  lemma BearerTokenIsPrefix(s: string)
    ensures StartsWith(s, SplitOn(s, ' ')[0])
  {
    if ' ' in s {
      var i := IndexOf(s, ' ');
      assert SplitOn(s, ' ')[0] == s[..i];
    }
  }

  /** `JWTAuthentication.authenticate`. */
  function Authenticate(header: string, codec: Codec, users: seq<User>, now: int): (r: Authentication)
    ensures r == Anonymous <==> !StartsWith(header, Scheme)
    ensures r.Authenticated? ==>
              && StartsWith(header, Scheme)
              && r.token == BearerToken(header)
              && GetUserFromToken(codec, users, r.token, now) == Some(r.user)
              && r.user.isActive
    ensures r.Failed? ==> r.detail == FailedDetail
    ensures StartsWith(header, Scheme) ==>
              (r.Authenticated? <==> var u := GetUserFromToken(codec, users, BearerToken(header), now);
                                     u.Some? && u.value.isActive)
  {
    // an empty header also fails the prefix test
    if !StartsWith(header, Scheme) then Anonymous
    else
      var token := BearerToken(header);
      match GetUserFromToken(codec, users, token, now)
      case Some(u) => if u.isActive then Authenticated(u, token) else Failed(FailedDetail)
      case None => Failed(FailedDetail)
  }

  /** The lower-case scheme the middleware accepts is not recognised here:
      the request stays anonymous. */
  lemma LowerCaseSchemeIsAnonymous(token: string, codec: Codec, users: seq<User>, now: int)
    ensures Authenticate("bearer " + token, codec, users, now) == Anonymous
  {
    assert ("bearer " + token)[0] == 'b';
  }

  /** A freshly minted token of an active user authenticates that user. */
  lemma MintedTokenAuthenticates(codec: Codec, users: seq<User>, k: nat, issued: int, now: int)
    requires Sound(codec)
    requires UniqueIds(users) && k < |users| && users[k].id != 0 && users[k].isActive
    requires now < issued + TokenTtl
    requires ' ' !in Mint(codec, users[k], issued)
    ensures Authenticate(Scheme + Mint(codec, users[k], issued), codec, users, now)
            == Authenticated(users[k], Mint(codec, users[k], issued))
  {
    var t := Mint(codec, users[k], issued);
    var header := Scheme + t;
    assert header[..|Scheme|] == Scheme;
    assert header[|Scheme|..] == t;
    assert SplitOn(t, ' ') == [t];
    MintThenGetUser(codec, users, k, issued, now);
  }

  /** The value of the `WWW-Authenticate` header on a 401. */
  function AuthenticateHeader(): (h: string)
    ensures StartsWith(h, "Bearer") && Contains(h, "realm=\"api\"")
    ensures h == "Bearer realm=\"api\""
  {
    var h := "Bearer realm=\"api\"";
    assert h[7..18] == "realm=\"api\"";
    ContainsSlice(h, 7, 18);
    h
  }
}

=== FILE: fields.dfy ===
/** The part of the REST framework's field machinery the serializers rely
    on. A text field strips surrounding whitespace, refuses a missing value
    when required and an empty one unless blanks are allowed, and otherwise
    runs every validator in its list, collecting all their messages: the
    validators given explicitly first, then the maximum and minimum length
    checks, then the NUL-character check (surrogate code points cannot
    occur in a model string), and for an email field the address check
    last. A serializer gathers the errors of all its fields, and runs its
    object-level check only when no field failed. */
module Fields {
  import opened Wrappers
  import opened Text

  const RequiredMessage: string := "This field is required."
  const BlankMessage: string := "This field may not be blank."
  const NullCharacterMessage: string := "Null characters are not allowed."
  const InvalidEmailMessage: string := "Enter a valid email address."
  const NonFieldErrors: string := "non_field_errors"

  function MaxLengthMessage(n: nat): string {
    "Ensure this field has no more than " + NatToString(n) + " characters."
  }

  function MinLengthMessage(n: nat): string {
    "Ensure this field has at least " + NatToString(n) + " characters."
  }

  datatype CharField = CharField(required: bool, allowBlank: bool, maxLength: Option<nat>, minLength: Option<nat>)

  /** The value a field sees: the input with surrounding whitespace
      removed, or "" when nothing was sent. */
  function Cleaned(input: Option<string>): string {
    if input.Some? then Strip(input.value, IsPySpace) else []
  }

  /** The length and NUL checks a text field appends to its validators. */
  function BuiltinErrors(f: CharField, v: string): (msgs: seq<string>)
    ensures msgs == [] <==> && (f.maxLength.Some? ==> |v| <= f.maxLength.value)
                            && (f.minLength.Some? ==> |v| >= f.minLength.value)
                            && '\0' !in v
    ensures f.maxLength.Some? && |v| > f.maxLength.value ==> MaxLengthMessage(f.maxLength.value) in msgs
    ensures f.minLength.Some? && |v| < f.minLength.value ==> MinLengthMessage(f.minLength.value) in msgs
  {
    (if f.maxLength.Some? && |v| > f.maxLength.value then [MaxLengthMessage(f.maxLength.value)] else [])
    + (if f.minLength.Some? && |v| < f.minLength.value then [MinLengthMessage(f.minLength.value)] else [])
    + (if '\0' in v then [NullCharacterMessage] else [])
  }

  /** The result of one field: not sent (and not required), a cleaned
      value, or its messages. */
  datatype FieldOutcome = Absent | Value(v: string) | Errors(messages: seq<string>)

  /** `CharField.run_validation`. `before` and `after` are the messages of
      the field's other validators on the cleaned value, in list order
      before and after the built-in checks; they count only when the
      cleaned value is not blank. */
  function RunField(f: CharField, input: Option<string>, before: seq<string>, after: seq<string>): (r: FieldOutcome)
    ensures input.None? ==> r == (if f.required then Errors([RequiredMessage]) else Absent)
    ensures input.Some? && Cleaned(input) == [] ==> r == (if f.allowBlank then Value([]) else Errors([BlankMessage]))
    ensures r.Value? ==> input.Some? && r.v == Cleaned(input)
    ensures r.Errors? ==> r.messages != []
    ensures r.Absent? <==> input.None? && !f.required
  {
    match input
    case None => if f.required then Errors([RequiredMessage]) else Absent
    case Some(raw) =>
      var v := Strip(raw, IsPySpace);
      if v == [] then
        (if f.allowBlank then Value([]) else Errors([BlankMessage]))
      else
        var msgs := before + BuiltinErrors(f, v) + after;
        if msgs == [] then Value(v) else Errors(msgs)
  }

  /** A value that a field accepted passed every check; when blanks are
      not allowed it is not blank. */
  lemma AcceptedValue(f: CharField, input: Option<string>, before: seq<string>, after: seq<string>)
    requires RunField(f, input, before, after).Value?
    ensures input.Some? && RunField(f, input, before, after).v == Cleaned(input)
    ensures !f.allowBlank ==> Cleaned(input) != []
    ensures Cleaned(input) != [] ==>
              && before == [] && after == []
              && (f.maxLength.Some? ==> |Cleaned(input)| <= f.maxLength.value)
              && (f.minLength.Some? ==> |Cleaned(input)| >= f.minLength.value)
              && '\0' !in Cleaned(input)
  {
    if Cleaned(input) != [] {
      var msgs := before + BuiltinErrors(f, Cleaned(input)) + after;
      assert msgs == [];
      assert |msgs| == |before| + |BuiltinErrors(f, Cleaned(input))| + |after|;
    }
  }

  /** The other direction of `AcceptedValue`: a sent, non-blank value
      that no validator objects to and that passes the length and NUL
      checks is accepted as cleaned. */
  lemma ValueAccepted(f: CharField, input: Option<string>)
    requires input.Some? && Cleaned(input) != []
    requires f.maxLength.Some? ==> |Cleaned(input)| <= f.maxLength.value
    requires f.minLength.Some? ==> |Cleaned(input)| >= f.minLength.value
    requires '\0' !in Cleaned(input)
    ensures RunField(f, input, [], []) == Value(Cleaned(input))
  {
    assert BuiltinErrors(f, Cleaned(input)) == [];
  }

  /** A `validate_<field>` method: it sees the value only when the field's
      own checks passed, and its messages replace the value. */
  function Then(o: FieldOutcome, msgs: seq<string>): (r: FieldOutcome)
    ensures !o.Value? ==> r == o
    ensures o.Value? ==> (r == o <==> msgs == [])
    ensures o.Value? && msgs != [] ==> r == Errors(msgs)
  {
    if o.Value? && msgs != [] then Errors(msgs) else o
  }

  type ErrorMap = map<string, seq<string>>

  /** Records one field's messages in a serializer's error dictionary. */
  function Record(m: ErrorMap, name: string, o: FieldOutcome): (r: ErrorMap)
    ensures r == map[] <==> m == map[] && !o.Errors?
    ensures o.Errors? ==> name in r && r[name] == o.messages
    ensures forall k :: k in m && k != name ==> k in r && r[k] == m[k]
    ensures r.Keys <= m.Keys + {name}
  {
    if o.Errors? then
      var r := m[name := o.messages];
      assert name in r.Keys;
      r
    else m
  }

  /** The dictionary of an object-level `validate` failure. */
  function NonField(message: string): (r: ErrorMap)
    ensures r != map[] && r.Keys == {NonFieldErrors} && r[NonFieldErrors] == [message]
  {
    var r := map[NonFieldErrors := [message]];
    assert NonFieldErrors in r.Keys;
    r
  }

  /** A supplied value that passed, as an optional cleaned value. */
  function Supplied(o: FieldOutcome): (r: Option<string>)
    ensures r.Some? <==> o.Value?
    ensures r.Some? ==> r.value == o.v
  {
    if o.Value? then Some(o.v) else None
  }
}

=== FILE: flows.dfy ===
/** Properties that span the browser client and the server: a signed-in
    client's requests pass both server gates, the session-expiry branch of
    the response interceptor, the list's page arithmetic against the
    server's pages, and the editor's records against the post
    serializers. */
module Flows {
  import opened Wrappers
  import opened Seqs
  import Text
  import Users
  import Jwt
  import Gate
  import DrfAuth
  import BlogModels
  import PostSerializers
  import BlogViews
  import ClientTypes
  import ApiClient
  import AuthStore
  import PostList
  import PostForm

  // ---------------------------------------------------------------------
  // Signing in, and losing the session
  // ---------------------------------------------------------------------

  /** After a login that stores a freshly minted token, the client's
      requests carry `Bearer <token>`, which the framework authentication
      resolves to the signed-in user and the middleware lets through with
      that user attached, until the token expires. */
  lemma SignedInRequestsAuthenticate(s: AuthStore.Session, u: ClientTypes.ClientUser, codec: Jwt.Codec,
                                     users: seq<Users.User>, k: nat, issued: int, now: int, path: string)
    requires Jwt.Sound(codec)
    requires Users.UniqueIds(users) && k < |users| && users[k].id != 0 && users[k].isActive
    requires now < issued + Jwt.TokenTtl
    requires Jwt.Mint(codec, users[k], issued) != [] && Text.NoSpace(Jwt.Mint(codec, users[k], issued))
    requires !Gate.Excluded(path)
    ensures var token := Jwt.Mint(codec, users[k], issued);
            var out := AuthStore.Login(s, true, AuthStore.Answered(AuthStore.LoginReply(token, u))).0;
            var h := ApiClient.AuthorizationHeader(out.store, true);
            && h == Some(DrfAuth.Scheme + token)
            && DrfAuth.Authenticate(h.value, codec, users, now) == DrfAuth.Authenticated(users[k], token)
            && Gate.ProcessRequest(path, h.value, codec, users, now) == Gate.Attach(Some(users[k]))
  {
    var token := Jwt.Mint(codec, users[k], issued);
    assert ' ' !in token by {
      assert Text.IsPySpace(' ');
    }
    DrfAuth.MintedTokenAuthenticates(codec, users, k, issued, now);
    MintedTokenPassesGate(codec, users, k, issued, now, path);
  }

  /** The middleware attaches the user a minted token names when it
      arrives as `Bearer <token>`. */
  lemma MintedTokenPassesGate(codec: Jwt.Codec, users: seq<Users.User>, k: nat, issued: int, now: int, path: string)
    requires Jwt.Sound(codec)
    requires Users.UniqueIds(users) && k < |users| && users[k].id != 0 && users[k].isActive
    requires now < issued + Jwt.TokenTtl
    requires Jwt.Mint(codec, users[k], issued) != [] && Text.NoSpace(Jwt.Mint(codec, users[k], issued))
    requires !Gate.Excluded(path)
    ensures Gate.ProcessRequest(path, DrfAuth.Scheme + Jwt.Mint(codec, users[k], issued), codec, users, now)
            == Gate.Attach(Some(users[k]))
  {
    var token := Jwt.Mint(codec, users[k], issued);
    Jwt.DecodeMinted(codec, users[k], issued, now);
    Jwt.MintThenGetUser(codec, users, k, issued, now);
    Text.SplitTwoWords("Bearer", token);
    assert DrfAuth.Scheme + token == "Bearer" + " " + token;
  }

  /** A 401 from an `/auth/` endpoint removes the stored token behind the
      session store's back: the store still says signed in, the two no
      longer agree, and the next API request goes out without credentials
      and is refused by the middleware. */
  lemma AuthFailureDesyncsSession(s: AuthStore.Session, url: string, body: Option<ApiClient.ErrorBody>,
                                  path: string, codec: Jwt.Codec, users: seq<Users.User>, now: int)
    requires AuthStore.Agrees(s) && s.state.isAuthenticated
    requires Text.Contains(url, ApiClient.AuthPathMarker)
    requires Gate.IsApi(path) && !Gate.Excluded(path)
    ensures var h := ApiClient.OnError(ApiClient.HttpError(401, Some(url), body), s.store, true);
            var after := AuthStore.Session(s.state, h.store);
            && after.state.isAuthenticated
            && !AuthStore.Agrees(after)
            && ApiClient.AuthorizationHeader(after.store, true).None?
            && Gate.ProcessRequest(path, "", codec, users, now).Reject?
            && Gate.ProcessRequest(path, "", codec, users, now).error == "authentication_required"
  {
  }

  // ---------------------------------------------------------------------
  // Pages
  // ---------------------------------------------------------------------

  /** The list's page count agrees with the server's for every non-empty
      result set at the default page size. */
  lemma ClientPagesMatchServer(count: nat)
    requires count > 0
    ensures PostList.TotalPages(count) == BlogViews.PageCount(count, BlogViews.DefaultPageSize)
  {
  }

  /** The last page holds what the earlier full pages leave over. */
  lemma {:induction false} LastPageLength<T>(items: seq<T>, size: nat)
    requires size >= 1 && |items| > 0
    ensures var n := BlogViews.PageCount(|items|, size);
            var page := BlogViews.Paginate(items, n, size);
            page.Some? && |page.value| + (n - 1) * size == |items|
    decreases |items|
  {
    if |items| > size {
      var m := BlogViews.PageCount(|items| - size, size);
      LastPageLength(items[size..], size);
      assert (m + 1 - 1) * size == (m - 1) * size + size;
    }
  }

  /** The "Showing X to Y" line counts exactly the posts the server puts
      on that page. */
  lemma ShowingRangeCountsPage<T>(items: seq<T>, current: int)
    requires 1 <= current <= PostList.TotalPages(|items|)
    ensures var page := BlogViews.Paginate(items, current, BlogViews.DefaultPageSize);
            var r := PostList.ShowingRange(current, |items|);
            page.Some? && |page.value| == r.1 - r.0 + 1
  {
    ClientPagesMatchServer(|items|);
    if current == PostList.TotalPages(|items|) {
      LastPageLength(items, BlogViews.DefaultPageSize);
    }
  }

  // ---------------------------------------------------------------------
  // The editor against the serializers
  // ---------------------------------------------------------------------

  /** Toggling a tag the server knows keeps the selection acceptable to
      the tag check: no id repeats and every id names a tag. */
  lemma ToggledTagsValidate(selected: seq<nat>, id: nat, tags: seq<BlogModels.Tag>)
    requires PostSerializers.UniqueTagIds(tags)
    requires Distinct(selected) && PostSerializers.AllExist(selected, tags)
    requires id in PostSerializers.TagIdSet(tags)
    ensures PostSerializers.TagIdsOutcome(Some(PostForm.ToggleTag(selected, id)), tags).Passed?
  {
    var r := PostForm.ToggleTag(selected, id);
    forall i | 0 <= i < |r|
      ensures r[i] in PostSerializers.TagIdSet(tags)
    {
      if r[i] != id {
        assert r[i] in selected;
      }
    }
    PostSerializers.TagIdsAccepted(r, tags);
  }

  /** The JSON body of an update as the server reads it: keys whose value
      is `undefined` are not sent. */
  function JsonUpdate(u: ClientTypes.UpdatePostData): (input: PostSerializers.PostInput)
    ensures input.title == u.title && input.content == u.content
    ensures input.excerpt.Given? <==> u.excerpt.Some?
    ensures input.categoryId.Given? <==> u.categoryId.Some?
    ensures input.tagIds.Some? <==> u.tagIds.Some?
    ensures u.tagIds.Some? ==> input.tagIds.value == u.tagIds.value
    ensures input.status.Some? <==> u.status.Some?
    ensures u.status.Some? ==> BlogModels.ParseStatus(input.status.value) == u.status
    ensures input.featuredImage.Given? <==> u.featuredImage.Some?
  {
    PostSerializers.PostInput(
      u.title,
      u.content,
      if u.excerpt.Some? then PostSerializers.Given(u.excerpt.value) else PostSerializers.Missing,
      if u.categoryId.Some? then PostSerializers.Given(u.categoryId.value as int) else PostSerializers.Missing,
      if u.tagIds.Some? then Some(u.tagIds.value) else None,
      if u.status.Some? then Some(BlogModels.StatusName(u.status.value)) else None,
      if u.featuredImage.Some? then PostSerializers.Given(u.featuredImage.value.name) else PostSerializers.Missing)
  }

  /** As written, an edit whose tag selection was emptied sends no
      `tag_ids`, and the update keeps the post's tags. */
  lemma EmptiedSelectionKeepsTags(data: PostForm.FormData, instance: BlogModels.Post,
                                  categories: seq<BlogModels.Category>, tags: seq<BlogModels.Tag>, required: bool)
    requires PostSerializers.ValidatePost(JsonUpdate(PostForm.AsUpdate(PostForm.PostData(data, [], None))), categories, tags, required).Success?
    ensures var d := PostSerializers.ValidatePost(JsonUpdate(PostForm.AsUpdate(PostForm.PostData(data, [], None))), categories, tags, required).value;
            PostSerializers.UpdatedTags(d.tagIds, instance.tagIds, tags) == instance.tagIds
  {
    PostSerializers.ValidationParts(JsonUpdate(PostForm.AsUpdate(PostForm.PostData(data, [], None))), categories, tags, required);
  }

  /** With the corrected edit record an emptied selection clears the
      tags, and any other selection of known tags becomes the post's tags. */
  lemma EditSelectionBecomesTags(data: PostForm.FormData, selected: seq<nat>, instance: BlogModels.Post,
                                 categories: seq<BlogModels.Category>, tags: seq<BlogModels.Tag>, required: bool)
    requires PostSerializers.ValidatePost(JsonUpdate(PostForm.EditData(data, selected, None)), categories, tags, required).Success?
    ensures var d := PostSerializers.ValidatePost(JsonUpdate(PostForm.EditData(data, selected, None)), categories, tags, required).value;
            && d.tagIds == Some(selected)
            && PostSerializers.UpdatedTags(d.tagIds, instance.tagIds, tags) == Elems(selected) * PostSerializers.TagIdSet(tags)
            && (selected == [] ==> PostSerializers.UpdatedTags(d.tagIds, instance.tagIds, tags) == {})
  {
    PostSerializers.ValidationParts(JsonUpdate(PostForm.EditData(data, selected, None)), categories, tags, required);
  }
}

=== FILE: gate.dfy ===
/** The three request/response hooks of the core app: the JWT gate that
    runs before every view, the exception handler that turns an API error
    into a JSON 500, and the CORS headers. A request is its path, method
    and `Authorization` header text ("" when the header is absent). */
module Gate {
  import opened Wrappers
  import opened Text
  import opened Users
  import opened Jwt

  /** Prefixes the gate never inspects. */
  const ExcludedPaths: seq<string> := [
    "/admin/",
    "/api/v1/health/",
    "/api/v1/info/",
    "/api/v1/auth/register/",
    "/api/v1/auth/login/",
    "/api/v1/auth/verify-email/",
    "/api/v1/auth/forgot-password/",
    "/api/v1/auth/reset-password/",
    "/api/v1/auth/resend-verification/",
    "/static/",
    "/media/"
  ]

  const ApiPrefix: string := "/api/"

  predicate IsApi(path: string) {
    StartsWith(path, ApiPrefix)
  }

  predicate Excluded(path: string) {
    exists i :: 0 <= i < |ExcludedPaths| && StartsWith(path, ExcludedPaths[i])
  }

  /** What `process_request` does: let the request through untouched, let
      it through with `request.user` set, or answer it with a JSON error. */
  datatype Outcome =
    | PassThrough
    | Attach(user: Option<User>)
    | Reject(status: int, error: string, message: string)

  const Unauthorized: int := 401

  /** The failure branches all share one shape: an error response on an API
      path, a silent pass everywhere else. */
  function Deny(path: string, error: string, message: string): (r: Outcome)
    ensures r.Reject? <==> IsApi(path)
    ensures r.Reject? ==> r == Reject(Unauthorized, error, message)
    ensures !r.Reject? ==> r == PassThrough
  {
    if IsApi(path) then Reject(Unauthorized, error, message) else PassThrough
  }

  /** The header is exactly two whitespace-separated words, the first of
      which is "bearer" in any letter case. */
  predicate WellFormedBearer(parts: seq<string>) {
    |parts| == 2 && Lower(parts[0]) == "bearer"
  }

  /** `JWTAuthenticationMiddleware.process_request`. */
  function ProcessRequest(path: string, header: string, codec: Codec, users: seq<User>, now: int): (r: Outcome)
    ensures Excluded(path) ==> r == PassThrough
    ensures r.Reject? ==> IsApi(path) && !Excluded(path) && r.status == Unauthorized
    ensures r.Reject? && r.error == "authentication_required" <==> IsApi(path) && !Excluded(path) && header == ""
    ensures r.Attach? ==>
              && !Excluded(path) && WellFormedBearer(SplitWhitespace(header))
              && IsTokenValid(codec, SplitWhitespace(header)[1], now)
              && r.user == GetUserFromToken(codec, users, SplitWhitespace(header)[1], now)
    ensures (!Excluded(path) && WellFormedBearer(SplitWhitespace(header))
             && IsTokenValid(codec, SplitWhitespace(header)[1], now)) ==> r.Attach?
    ensures !Excluded(path) && header != "" && !WellFormedBearer(SplitWhitespace(header)) ==>
              r == Deny(path, "invalid_auth_header", "Invalid authentication header format.")
    ensures !Excluded(path) && header != "" && WellFormedBearer(SplitWhitespace(header))
            && !IsTokenValid(codec, SplitWhitespace(header)[1], now) ==>
              r == Deny(path, "invalid_token", "Invalid or expired token.")
  {
    if Excluded(path) then PassThrough
    else if header == "" then
      Deny(path, "authentication_required", "Authentication credentials were not provided.")
    else
      var parts := SplitWhitespace(header);
      if !WellFormedBearer(parts) then
        Deny(path, "invalid_auth_header", "Invalid authentication header format.")
      else if !IsTokenValid(codec, parts[1], now) then
        Deny(path, "invalid_token", "Invalid or expired token.")
      else
        // `get_user_from_token` catches its own failures and returns None,
        // so the handler around it never fires
        Attach(GetUserFromToken(codec, users, parts[1], now))
  }

  /** Outside `/api/` the gate rejects nothing. */
  lemma NonApiNeverRejected(path: string, header: string, codec: Codec, users: seq<User>, now: int)
    requires !IsApi(path)
    ensures !ProcessRequest(path, header, codec, users, now).Reject?
  {
  }

  /** A header holding only the scheme, such as "Bearer ", is malformed. */
  lemma SchemeAloneRejected(path: string, codec: Codec, users: seq<User>, now: int)
    requires IsApi(path) && !Excluded(path)
    ensures ProcessRequest(path, "Bearer ", codec, users, now) ==
            Reject(Unauthorized, "invalid_auth_header", "Invalid authentication header format.")
  {
    SplitFromWord("Bearer", " ", []);
    assert "Bearer" + " " == "Bearer ";
    assert [] + "Bearer" == "Bearer";
    assert " "[1..] == [];
    assert SplitWhitespace("Bearer ") == ["Bearer"];
  }

  /** The scheme is compared without regard to letter case. */
  lemma SchemeCaseInsensitive(scheme: string, token: string, path: string, codec: Codec, users: seq<User>, now: int)
    requires scheme != [] && NoSpace(scheme) && Lower(scheme) == "bearer"
    requires token != [] && NoSpace(token)
    requires !Excluded(path)
    ensures ProcessRequest(path, scheme + " " + token, codec, users, now)
            == ProcessRequest(path, "Bearer " + token, codec, users, now)
  {
    SplitTwoWords(scheme, token);
    SplitTwoWords("Bearer", token);
    assert "Bearer " + token == "Bearer" + " " + token;
  }

  /** A token that is expired, forged or malformed is turned away on an API
      path even when the header is well formed. */
  lemma ExpiredTokenRejected(path: string, token: string, codec: Codec, users: seq<User>, now: int)
    requires IsApi(path) && !Excluded(path)
    requires token != [] && NoSpace(token)
    requires !IsTokenValid(codec, token, now)
    ensures ProcessRequest(path, "Bearer " + token, codec, users, now) ==
            Reject(Unauthorized, "invalid_token", "Invalid or expired token.")
  {
    SplitTwoWords("Bearer", token);
    assert "Bearer " + token == "Bearer" + " " + token;
  }

  /** A valid token for a user that has since been deleted is let through
      with no user attached rather than rejected. */
  lemma DeletedUserAttachesNone(path: string, codec: Codec, users: seq<User>, u: User, issued: int, now: int)
    requires Sound(codec) && !Excluded(path)
    requires now < issued + TokenTtl
    requires u.id != 0 && forall i :: 0 <= i < |users| ==> users[i].id != u.id
    requires Mint(codec, u, issued) != [] && NoSpace(Mint(codec, u, issued))
    ensures ProcessRequest(path, "Bearer " + Mint(codec, u, issued), codec, users, now) == Attach(None)
  {
    var token := Mint(codec, u, issued);
    DecodeMinted(codec, u, issued, now);
    SplitTwoWords("Bearer", token);
    assert "Bearer " + token == "Bearer" + " " + token;
  }

  // ---------------------------------------------------------------------
  // ErrorHandlingMiddleware
  // ---------------------------------------------------------------------

  datatype ErrorBody = ErrorBody(status: int, message: string, error: string, detail: Option<string>)

  const InternalServerError: int := 500

  /** `process_exception`: API paths get a JSON 500 whose `detail` is the
      exception text only in debug mode; other paths fall through to the
      framework (`None`). */
  function ProcessException(path: string, exceptionText: string, debug: bool): (r: Option<ErrorBody>)
    ensures r.Some? <==> IsApi(path)
    ensures r.Some? ==> r.value.status == InternalServerError && r.value.error == "internal_server_error"
    ensures r.Some? ==> (r.value.detail.Some? <==> debug)
    ensures r.Some? && debug ==> r.value.detail == Some(exceptionText)
  {
    if IsApi(path) then
      Some(ErrorBody(InternalServerError, "An error occurred while processing your request.",
                     "internal_server_error", if debug then Some(exceptionText) else None))
    else None
  }

  // ---------------------------------------------------------------------
  // CORSMiddleware
  // ---------------------------------------------------------------------

  type Headers = map<string, string>

  const AllowOrigin: string := "Access-Control-Allow-Origin"
  const AllowCredentials: string := "Access-Control-Allow-Credentials"
  const AllowMethods: string := "Access-Control-Allow-Methods"
  const AllowHeaders: string := "Access-Control-Allow-Headers"

  /** The four headers, with the configured frontend origin. */
  predicate HasCors(h: Headers, frontendUrl: string) {
    && AllowOrigin in h && h[AllowOrigin] == frontendUrl
    && AllowCredentials in h && h[AllowCredentials] == "true"
    && AllowMethods in h && h[AllowMethods] == "GET, POST, PUT, DELETE, OPTIONS"
    && AllowHeaders in h && h[AllowHeaders] == "Content-Type, Authorization, X-Requested-With"
  }

  /** `process_response`: sets the four headers, overwriting earlier
      values, and leaves every other header alone. */
  function AddCors(h: Headers, frontendUrl: string): (r: Headers)
    ensures HasCors(r, frontendUrl)
    ensures r.Keys == h.Keys + {AllowOrigin, AllowCredentials, AllowMethods, AllowHeaders}
    ensures forall k :: k in h && k !in {AllowOrigin, AllowCredentials, AllowMethods, AllowHeaders} ==> r[k] == h[k]
  {
    h[AllowOrigin := frontendUrl]
     [AllowCredentials := "true"]
     [AllowMethods := "GET, POST, PUT, DELETE, OPTIONS"]
     [AllowHeaders := "Content-Type, Authorization, X-Requested-With"]
  }

  /** Applying the headers twice is the same as once. */
  lemma AddCorsIdempotent(h: Headers, frontendUrl: string)
    ensures AddCors(AddCors(h, frontendUrl), frontendUrl) == AddCors(h, frontendUrl)
  {
  }

  /** `process_request`: an OPTIONS request is answered at once with an
      empty JSON body carrying the four headers; anything else continues. */
  function Preflight(verb: string, frontendUrl: string): (r: Option<Headers>)
    ensures r.Some? <==> verb == "OPTIONS"
    ensures r.Some? ==> HasCors(r.value, frontendUrl)
  {
    if verb == "OPTIONS" then Some(AddCors(map[], frontendUrl)) else None
  }
}

=== FILE: jwt.dfy ===
/** The access-token codec of the authentication app. Signing and signature
    checking (HS256) are an abstract `Codec` supplied by the caller; the
    model keeps what the library does around them: the claim set that is
    minted, the `exp` check against an explicit clock, and the collapse of
    every decoding failure into one `InvalidTokenError` with one of two
    messages. */
module Jwt {
  import opened Wrappers
  import opened Users

  /** `timedelta(hours=1)`. */
  const TokenTtl: int := 60 * 60

  const ExpiredMessage: string := "Token has expired"
  const InvalidMessage: string := "Invalid token"

  /** The payload. `userId` is `None` when the claim is absent or null;
      `exp` and `iat` are seconds since the epoch (registered claims 4.1.4
      and 4.1.6 of RFC 7519). */
  datatype Claims = Claims(
    userId: Option<int>,
    email: string,
    username: string,
    exp: Option<int>,
    iat: Option<int>,
    kind: string)

  /** The signing key and algorithm, as a pair of functions: `sign` builds
      the compact serialisation, `verify` returns the payload of a token
      whose signature checks, and `None` for a malformed or badly signed
      one. */
  datatype Codec = Codec(sign: Claims -> string, verify: string -> Option<Claims>)

  /** A codec that gives back what it signed. */
  ghost predicate Sound(c: Codec) {
    forall cl :: c.verify(c.sign(cl)) == Some(cl)
  }

  /** `jwt.InvalidTokenError` carrying its message. */
  datatype TokenError = InvalidTokenError(message: string)

  /** The claims `generate_jwt_token` signs at instant `now`. */
  function MintClaims(u: User, now: int): (c: Claims)
    ensures c.userId == Some(u.id)
    ensures c.email == u.email && c.username == u.username
    ensures c.iat == Some(now)
    ensures c.exp.Some? && c.exp.value - now == TokenTtl
    ensures c.kind == "access"
  {
    Claims(Some(u.id), u.email, u.username, Some(now + TokenTtl), Some(now), "access")
  }

  function Mint(codec: Codec, u: User, now: int): string {
    codec.sign(MintClaims(u, now))
  }

  /** A payload whose `exp`, when present, is still in the future. */
  predicate Unexpired(c: Claims, now: int) {
    c.exp.None? || now < c.exp.value
  }

  /** `decode_jwt_token`: a bad signature or malformed token fails with
      "Invalid token"; a good one whose `exp` is not after `now` fails with
      "Token has expired". */
  function Decode(codec: Codec, token: string, now: int): (r: Result<Claims, TokenError>)
    ensures r.Success? <==> codec.verify(token).Some? && Unexpired(codec.verify(token).value, now)
    ensures r.Success? ==> Some(r.value) == codec.verify(token)
    ensures r.Failure? ==> r.error.message in {ExpiredMessage, InvalidMessage}
    ensures r.Failure? && r.error.message == ExpiredMessage <==> codec.verify(token).Some? && !Unexpired(codec.verify(token).value, now)
  {
    match codec.verify(token)
    case None => Failure(InvalidTokenError(InvalidMessage))
    case Some(c) =>
      if Unexpired(c, now) then Success(c) else Failure(InvalidTokenError(ExpiredMessage))
  }

  /** A minted token decodes to its claims for one hour after issue, and
      is expired from then on. */
  lemma DecodeMinted(codec: Codec, u: User, issued: int, now: int)
    requires Sound(codec)
    ensures now < issued + TokenTtl ==> Decode(codec, Mint(codec, u, issued), now) == Success(MintClaims(u, issued))
    ensures now >= issued + TokenTtl ==> Decode(codec, Mint(codec, u, issued), now) == Failure(InvalidTokenError(ExpiredMessage))
  {
    assert codec.verify(codec.sign(MintClaims(u, issued))) == Some(MintClaims(u, issued));
  }

  /** `get_user_from_token`: every failure is `None`; there is no check of
      `is_active` or `is_email_verified`. */
  function GetUserFromToken(codec: Codec, users: seq<User>, token: string, now: int): (r: Option<User>)
    ensures r.Some? ==> && Decode(codec, token, now).Success?
                        && Decode(codec, token, now).value.userId == Some(r.value.id)
                        && r.value.id != 0
                        && r.value in users
    ensures r.None? <==> || Decode(codec, token, now).Failure?
                         || Decode(codec, token, now).value.userId in {None, Some(0)}
                         || FindById(users, Decode(codec, token, now).value.userId.value).None?
  {
    match Decode(codec, token, now)
    case Failure(_) => None
    case Success(c) =>
      // `if not user_id`: absent, null and 0 are all falsy
      if c.userId.None? || c.userId.value == 0 then None
      else FindById(users, c.userId.value)
  }

  /** Round trip: the user a token was minted for is found again, active
      or not, until the token expires. */
  lemma MintThenGetUser(codec: Codec, users: seq<User>, k: nat, issued: int, now: int)
    requires Sound(codec)
    requires UniqueIds(users) && k < |users| && users[k].id != 0
    requires now < issued + TokenTtl
    ensures GetUserFromToken(codec, users, Mint(codec, users[k], issued), now) == Some(users[k])
  {
    DecodeMinted(codec, users[k], issued, now);
    FindByIdUnique(users, k);
  }

  /** After expiry the same token yields no user. */
  lemma ExpiredTokenGetsNoUser(codec: Codec, users: seq<User>, u: User, issued: int, now: int)
    requires Sound(codec)
    requires now >= issued + TokenTtl
    ensures GetUserFromToken(codec, users, Mint(codec, u, issued), now) == None
    ensures !IsTokenValid(codec, Mint(codec, u, issued), now)
  {
    DecodeMinted(codec, u, issued, now);
  }

  /** `is_token_valid`: decoding succeeds. */
  function IsTokenValid(codec: Codec, token: string, now: int): (ok: bool)
    ensures ok <==> codec.verify(token).Some? && Unexpired(codec.verify(token).value, now)
  {
    Decode(codec, token, now).Success?
  }

  /** The result of `get_token_expiration`. A valid token without an `exp`
      claim makes `payload['exp']` raise `KeyError`, which is not caught. */
  datatype Expiration = NoExpiration | ExpiresAt(at: int) | MissingExpClaim

  function GetTokenExpiration(codec: Codec, token: string, now: int): (r: Expiration)
    ensures r.ExpiresAt? <==> IsTokenValid(codec, token, now) && codec.verify(token).value.exp.Some?
    ensures r.ExpiresAt? ==> now < r.at && codec.verify(token).value.exp == Some(r.at)
    ensures r == NoExpiration <==> !IsTokenValid(codec, token, now)
  {
    match Decode(codec, token, now)
    case Failure(_) => NoExpiration
    case Success(c) => if c.exp.Some? then ExpiresAt(c.exp.value) else MissingExpClaim
  }

  /** A minted token reports its expiry, issue + 1 hour, while valid. */
  lemma MintedExpiration(codec: Codec, u: User, issued: int, now: int)
    requires Sound(codec)
    requires now < issued + TokenTtl
    ensures GetTokenExpiration(codec, Mint(codec, u, issued), now) == ExpiresAt(issued + TokenTtl)
  {
    DecodeMinted(codec, u, issued, now);
  }
}

=== FILE: post_form.dfy ===
/** The post editor's local logic: the tag picker, the image guard, the
    excerpt filled in from the content, and the record handed to the blog
    store on submit. */
module PostForm {
  import opened Wrappers
  import opened Text
  import opened Seqs
  import opened BlogModels
  import opened ClientTypes

  // ---------------------------------------------------------------------
  // Tag picker
  // ---------------------------------------------------------------------

  /** `ids.filter(x => x !== id)`. */
  function RemoveAll(ids: seq<nat>, id: nat): (r: seq<nat>)
    ensures id !in r
    ensures forall x :: x != id ==> (x in r <==> x in ids)
    ensures Distinct(ids) ==> Distinct(r)
    ensures id !in ids ==> r == ids
  {
    if ids == [] then []
    else
      var rest := RemoveAll(ids[1..], id);
      assert forall x :: x in ids <==> x == ids[0] || x in ids[1..];
      if ids[0] == id then rest
      else
        assert Distinct(ids) ==> ids[0] !in ids[1..];
        assert Distinct(ids) ==> Distinct(ids[1..]) by {
          if Distinct(ids) {
            forall i, j | 0 <= i < j < |ids| - 1
              ensures ids[1..][i] != ids[1..][j]
            {
              assert ids[1..][i] == ids[i + 1] && ids[1..][j] == ids[j + 1];
            }
          }
        }
        [ids[0]] + rest
  }

  /** `handleTagToggle`: membership of `id` flips, every other id stays as
      it was, and a duplicate-free selection stays duplicate-free. */
  function ToggleTag(selected: seq<nat>, id: nat): (r: seq<nat>)
    ensures id in r <==> id !in selected
    ensures forall x :: x != id ==> (x in r <==> x in selected)
    ensures Distinct(selected) ==> Distinct(r)
  {
    if id in selected then RemoveAll(selected, id) else selected + [id]
  }

  /** Toggling twice restores the selection as a set, and restores it
      exactly when the id was not selected. */
  lemma ToggleTwice(selected: seq<nat>, id: nat)
    ensures forall x :: x in ToggleTag(ToggleTag(selected, id), id) <==> x in selected
    ensures id !in selected ==> ToggleTag(ToggleTag(selected, id), id) == selected
  {
    if id !in selected {
      RemoveAppended(selected, id);
    }
  }

  lemma {:induction false} RemoveAppended(ids: seq<nat>, id: nat)
    requires id !in ids
    ensures RemoveAll(ids + [id], id) == ids
  {
    if ids != [] {
      RemoveAppended(ids[1..], id);
      assert (ids + [id])[1..] == ids[1..] + [id];
      assert [ids[0]] + ids[1..] == ids;
    } else {
      assert RemoveAll([id], id) == RemoveAll([], id);
    }
  }

  // ---------------------------------------------------------------------
  // Featured image
  // ---------------------------------------------------------------------

  /** The five-megabyte limit of the image picker. */
  const MaxImageBytes: nat := 5 * 1024 * 1024

  /** The chosen file and its preview (a data URL, or the stored image's
      address when editing). */
  datatype ImageState = ImageState(file: Option<ImageFile>, preview: Option<string>)

  /** `handleImageUpload`: nothing chosen changes nothing; a file over the
      limit is refused with an alert and changes nothing; otherwise the
      file is kept and its data URL `dataUrl` becomes the preview. The
      second component tells whether the alert was shown. */
  function ChooseImage(st: ImageState, chosen: Option<ImageFile>, dataUrl: string): (r: (ImageState, bool))
    ensures chosen.None? ==> r == (st, false)
    ensures chosen.Some? && chosen.value.size > MaxImageBytes ==> r == (st, true)
    ensures chosen.Some? && chosen.value.size <= MaxImageBytes ==> r == (ImageState(chosen, Some(dataUrl)), false)
  {
    match chosen
    case None => (st, false)
    case Some(f) => if f.size > MaxImageBytes then (st, true) else (ImageState(chosen, Some(dataUrl)), false)
  }

  function RemoveImage(st: ImageState): (r: ImageState)
    ensures r.file.None? && r.preview.None?
  {
    ImageState(None, None)
  }

  predicate ImageWithinLimit(st: ImageState) {
    st.file.Some? ==> st.file.value.size <= MaxImageBytes
  }

  /** No sequence of picks and removals ever holds a file over the limit. */
  lemma ImageLimitInvariant(st: ImageState, chosen: Option<ImageFile>, dataUrl: string)
    requires ImageWithinLimit(st)
    ensures ImageWithinLimit(ChooseImage(st, chosen, dataUrl).0)
    ensures ImageWithinLimit(RemoveImage(st))
  {
  }

  // ---------------------------------------------------------------------
  // Excerpt auto-fill
  // ---------------------------------------------------------------------

  const ExcerptFillLength: nat := 160

  /** No `<` is followed, anywhere later, by a `>`: nothing tag-shaped is left. */
  predicate NoTag(s: string) {
    forall i, j :: 0 <= i < j < |s| && s[i] == '<' ==> s[j] != '>'
  }

  /** `s.replace(/<[^>]*>/g, '')`: from each `<` that has a `>` after it,
      up to and including the first such `>`, is removed. */
  function StripTags(s: string): (r: string)
    ensures |r| <= |s|
    ensures forall i :: 0 <= i < |r| ==> r[i] in s
    ensures '<' !in s ==> r == s
    ensures NoTag(r)
    decreases |s|
  {
    if s == [] then []
    else if s[0] == '<' && '>' in s then
      var k := IndexOf(s, '>');
      var r := StripTags(s[k + 1..]);
      SuffixChars(s, k + 1);
      r
    else
      var rest := StripTags(s[1..]);
      SuffixChars(s, 1);
      assert s[0] == '<' ==> '>' !in s[1..];
      ConsNoTag(s[0], rest);
      [s[0]] + rest
  }

  /** Every character of a suffix is a character of the text. */
  lemma SuffixChars(s: string, k: nat)
    requires k <= |s|
    ensures forall c :: c in s[k..] ==> c in s
  {
    forall c | c in s[k..] ensures c in s {
      var i :| 0 <= i < |s[k..]| && s[k..][i] == c;
      assert s[k + i] == c;
    }
  }

  /** Putting a character in front keeps a text tag-free unless it opens a
      tag that a later `>` closes. */
  lemma ConsNoTag(c: char, rest: string)
    requires NoTag(rest) && (c == '<' ==> '>' !in rest)
    ensures NoTag([c] + rest)
  {
    var t := [c] + rest;
    forall i, j | 0 <= i < j < |t| && t[i] == '<'
      ensures t[j] != '>'
    {
      assert t[j] == rest[j - 1];
      if i > 0 { assert t[i] == rest[i - 1]; }
    }
  }

  /** The auto-filled excerpt: tags removed, the first 160 characters
      kept, surrounding space trimmed. It is a piece of the tag-free
      content, at most 160 characters long, with no space at either end. */
  function ExcerptFill(content: string): (e: string)
    ensures |e| <= ExcerptFillLength
    ensures e != [] ==> !IsJsSpace(e[0]) && !IsJsSpace(e[|e| - 1])
    ensures Contains(StripTags(content), e)
    // the first 160 characters with space trimmed from both ends
    ensures var head := Take(StripTags(content), ExcerptFillLength);
            && (e == [] <==> AllSpace(head, IsJsSpace))
            && exists pre, post :: head == pre + e + post && AllSpace(pre, IsJsSpace) && AllSpace(post, IsJsSpace)
  {
    var plain := StripTags(content);
    HeadPiece(plain);
    StripSpec(Take(plain, ExcerptFillLength), IsJsSpace);
    Strip(Take(plain, ExcerptFillLength), IsJsSpace)
  }

  /** The trimmed head of a text is a piece of the text. */
  lemma HeadPiece(plain: string)
    ensures var e := Strip(Take(plain, ExcerptFillLength), IsJsSpace);
            |e| <= ExcerptFillLength && Contains(plain, e)
  {
    var head := Take(plain, ExcerptFillLength);
    StripContained(head, IsJsSpace);
    ContainsExtend(head, plain[|head|..], Strip(head, IsJsSpace));
    assert head + plain[|head|..] == plain;
  }

  /** The excerpt field after the auto-fill effect: filled only when the
      content is non-empty and the excerpt is empty. */
  function FormExcerpt(content: string, excerpt: string): (r: string)
    ensures content == [] || excerpt != [] ==> r == excerpt
    ensures content != [] && excerpt == [] ==> r == ExcerptFill(content)
  {
    if content != [] && excerpt == [] then ExcerptFill(content) else excerpt
  }

  /** Re-running the effect on its own output changes nothing. */
  lemma FormExcerptSettles(content: string, excerpt: string)
    ensures FormExcerpt(content, FormExcerpt(content, excerpt)) == FormExcerpt(content, excerpt)
  {
  }

  // ---------------------------------------------------------------------
  // Submit
  // ---------------------------------------------------------------------

  datatype FormData = FormData(title: string, content: string, excerpt: string, status: Status, categoryId: Option<nat>)

  /** The record built in `onSubmit`: a falsy category (none or 0) and an
      empty tag selection are left undefined, as is a missing image. */
  function PostData(data: FormData, selected: seq<nat>, image: Option<ImageFile>): (d: CreatePostData)
    ensures d.categoryId.Some? <==> data.categoryId.Some? && data.categoryId.value != 0
    ensures d.categoryId.Some? ==> d.categoryId == data.categoryId
    ensures d.tagIds.None? <==> selected == []
    ensures d.tagIds.Some? ==> d.tagIds.value == selected
    ensures d.featuredImage == image
    ensures d.title == data.title && d.content == data.content && d.excerpt == Some(data.excerpt) && d.status == data.status
  {
    CreatePostData(
      data.title,
      data.content,
      Some(data.excerpt),
      data.status,
      if data.categoryId.Some? && data.categoryId.value != 0 then data.categoryId else None,
      if |selected| > 0 then Some(selected) else None,
      image)
  }

  /** The same record passed to the store's update, every field present. */
  function AsUpdate(d: CreatePostData): (u: UpdatePostData)
    ensures u.title == Some(d.title) && u.content == Some(d.content) && u.excerpt == d.excerpt
    ensures u.status == Some(d.status) && u.categoryId == d.categoryId && u.tagIds == d.tagIds
    ensures u.featuredImage == d.featuredImage
  {
    UpdatePostData(Some(d.title), Some(d.content), d.excerpt, Some(d.status), d.categoryId, d.tagIds, d.featuredImage)
  }

  /** The record for an edit as evidently intended: the tag selection is
      always sent, so that an emptied selection clears the post's tags
      instead of leaving them as they were. */
  function EditData(data: FormData, selected: seq<nat>, image: Option<ImageFile>): (u: UpdatePostData)
    ensures u.tagIds == Some(selected)
    ensures u.categoryId == PostData(data, selected, image).categoryId
    ensures u.title == Some(data.title) && u.content == Some(data.content) && u.excerpt == Some(data.excerpt)
    ensures u.status == Some(data.status) && u.featuredImage == image
  {
    AsUpdate(PostData(data, selected, image)).(tagIds := Some(selected))
  }

  /** The field rules checked before `onSubmit` runs: a title of 5 to 200
      characters, a content of at least 50, and an excerpt of at most 300.
      A required field fails when empty, and a length rule is checked only
      on a non-empty value. */
  const TitleMinLength: nat := 5
  const TitleMaxLength: nat := 200
  const ContentMinLength: nat := 50
  const ExcerptMaxLength: nat := 300

  /** The title's message: required, then at most 200, then at least 5. */
  function TitleError(title: string): (m: Option<string>)
    ensures m.None? <==> title != [] && TitleMinLength <= |title| <= TitleMaxLength
    ensures title == [] ==> m == Some("Title is required")
    ensures title != [] && |title| < TitleMinLength ==> m == Some("Title must be at least 5 characters")
    ensures |title| > TitleMaxLength ==> m == Some("Title must be less than 200 characters")
  {
    if title == [] then Some("Title is required")
    else if |title| > TitleMaxLength then Some("Title must be less than 200 characters")
    else if |title| < TitleMinLength then Some("Title must be at least 5 characters")
    else None
  }

  /** The content's message: required, then at least 50. */
  function ContentError(content: string): (m: Option<string>)
    ensures m.None? <==> |content| >= ContentMinLength
    ensures content == [] ==> m == Some("Content is required")
    ensures content != [] && |content| < ContentMinLength ==> m == Some("Content must be at least 50 characters")
  {
    if content == [] then Some("Content is required")
    else if |content| < ContentMinLength then Some("Content must be at least 50 characters")
    else None
  }

  /** The excerpt's message: at most 300, checked only when it is non-empty. */
  function ExcerptError(excerpt: string): (m: Option<string>)
    ensures m.None? <==> |excerpt| <= ExcerptMaxLength
    ensures m.Some? ==> m == Some("Excerpt must be less than 300 characters")
  {
    if excerpt != [] && |excerpt| > ExcerptMaxLength then Some("Excerpt must be less than 300 characters")
    else None
  }

  /** A form is submitted exactly when no field shows a message. */
  predicate FormValid(data: FormData): (b: bool)
    ensures b <==> && TitleMinLength <= |data.title| <= TitleMaxLength
                   && |data.content| >= ContentMinLength
                   && |data.excerpt| <= ExcerptMaxLength
  {
    TitleError(data.title).None? && ContentError(data.content).None? && ExcerptError(data.excerpt).None?
  }

  datatype Mode = CreateMode | EditMode

  datatype Call = NoCall | CreateCall(data: CreatePostData) | UpdateCall(id: nat, changes: UpdatePostData)

  /** `handleSubmit(onSubmit)`: a form breaking a field rule is not
      submitted; then `onSubmit`: no signed-in user means no request; otherwise a create,
      or an update of the post being edited (none when there is no post).
      Both send the same record, so an edit with no tag ticked sends no
      tag list at all. */
  function Submit(user: Option<ClientUser>, mode: Mode, post: Option<ClientPost>,
                  data: FormData, selected: seq<nat>, image: Option<ImageFile>): (c: Call)
    ensures user.None? || !FormValid(data) ==> c == NoCall
    ensures c.CreateCall? <==> FormValid(data) && user.Some? && mode.CreateMode?
    ensures c.UpdateCall? <==> FormValid(data) && user.Some? && mode.EditMode? && post.Some?
    ensures c.CreateCall? ==> c.data == PostData(data, selected, image)
    ensures c.UpdateCall? ==> c.id == post.value.id && c.changes == AsUpdate(PostData(data, selected, image))
    ensures c.UpdateCall? ==> (c.changes.tagIds.None? <==> selected == [])
  {
    if !FormValid(data) || user.None? then NoCall
    else if mode.CreateMode? then CreateCall(PostData(data, selected, image))
    else if post.Some? then UpdateCall(post.value.id, AsUpdate(PostData(data, selected, image)))
    else NoCall
  }
}

=== FILE: post_list.dfy ===
/** The arithmetic of the post list's pagination bar and the query it
    sends: the number of pages, which page numbers get a button and where
    an ellipsis stands, the "Showing X to Y of N" range, the
    enabled/disabled arrows and the request parameters built from the
    filters. The list assumes ten posts per page. */
module PostList {
  import opened Wrappers
  import opened BlogStore
  import opened BlogModels

  const PostsPerPage: nat := 10

  /** `Math.ceil(count / 10)`. */
  function TotalPages(count: nat): (n: nat)
    ensures n * PostsPerPage >= count
    ensures n > 0 ==> (n - 1) * PostsPerPage < count
    ensures n == 0 <==> count == 0
  {
    (count + PostsPerPage - 1) / PostsPerPage
  }

  /** The bar is drawn only when asked for and there is more than one page. */
  predicate ShowsPagination(showPagination: bool, count: nat) {
    showPagination && TotalPages(count) > 1
  }

  /** The first post of a long list needs two pages exactly when there
      are more than ten. */
  lemma ShowsPaginationExactly(count: nat)
    ensures ShowsPagination(true, count) <==> count > PostsPerPage
  {
  }

  // ---------------------------------------------------------------------
  // Page buttons and ellipses
  // ---------------------------------------------------------------------

  datatype PageItem = Button(page: int, isCurrent: bool) | Ellipsis | Hidden

  /** What is drawn for page `page` (1-based) of `total` while `current`
      is shown. */
  function ItemFor(page: int, current: int, total: int): (it: PageItem)
    ensures it.Button? <==> page == current || -1 <= page - current <= 1 || page == 1 || page == total
    ensures it.Button? ==> it.page == page && (it.isCurrent <==> page == current)
    ensures it.Ellipsis? <==> !it.Button? && ((page == 2 && current > 3) || (page == total - 1 && current < total - 2))
  {
    var isCurrent := page == current;
    var isNearCurrent := -1 <= page - current <= 1;
    if isCurrent || isNearCurrent || page == 1 || page == total then Button(page, isCurrent)
    else if (page == 2 && current > 3) || (page == total - 1 && current < total - 2) then Ellipsis
    else Hidden
  }

  /** The whole row, pages `1..total` in order. */
  function PageItems(current: int, total: nat): (r: seq<PageItem>)
    ensures |r| == total
    ensures forall i :: 0 <= i < total ==> r[i] == ItemFor(i + 1, current, total)
  {
    seq(total, i requires 0 <= i < total => ItemFor(i + 1, current, total))
  }

  function ButtonPages(current: int, total: nat): (s: set<int>)
    ensures forall p :: p in s <==> 1 <= p <= total && ItemFor(p, current, total).Button?
  {
    set p | 1 <= p <= total && ItemFor(p, current, total).Button?
  }

  lemma CardAtMostFive(a: int, b: int, c: int, d: int, e: int)
    ensures |{a, b, c, d, e}| <= 5
  {
  }

  /** At most five number buttons are drawn, and the current page, when
      it exists, is one of them. */
  lemma AtMostFiveButtons(current: int, total: nat)
    ensures |ButtonPages(current, total)| <= 5
    ensures 1 <= current <= total ==> current in ButtonPages(current, total)
  {
    var s := ButtonPages(current, total);
    var five := {1, total, current - 1, current, current + 1};
    forall p | p in s
      ensures p in five
    {
      assert ItemFor(p, current, total).Button?;
    }
    CardAtMostFive(1, total, current - 1, current, current + 1);
    SubsetCard(s, five);
  }

  /** An ellipsis only ever stands at page 2 or at the next-to-last page. */
  lemma EllipsisPlaces(current: int, total: nat, page: int)
    requires ItemFor(page, current, total).Ellipsis?
    ensures page == 2 || page == total - 1
    ensures page == 2 ==> current > 3 || (total == 3 && current < 1)
  {
  }

  /** Every page without a button, on either side of a valid current
      page, lies in a gap that an ellipsis marks: page 2 below the
      current page, the next-to-last page above it. */
  lemma HiddenPagesMarked(current: int, total: nat, page: int)
    requires 1 <= current <= total && 1 <= page <= total
    requires !ItemFor(page, current, total).Button?
    ensures page < current ==> ItemFor(2, current, total).Ellipsis?
    ensures page > current ==> ItemFor(total - 1, current, total).Ellipsis?
  {
  }

  // ---------------------------------------------------------------------
  // The "Showing" line and the arrows
  // ---------------------------------------------------------------------

  /** "Showing `start` to `end` of `count` results". */
  function ShowingRange(current: int, count: nat): (r: (int, int))
    ensures r.1 <= count
    ensures r.1 == count || r.1 == current * PostsPerPage
    ensures r.1 <= current * PostsPerPage
    ensures r.0 == (current - 1) * PostsPerPage + 1
  {
    ((current - 1) * PostsPerPage + 1, if current * PostsPerPage < count then current * PostsPerPage else count)
  }

  /** On an existing page the range is a non-empty block of at most ten
      positions inside `1..count`, full on every page but the last. */
  lemma ShowingRangeBounds(current: int, count: nat)
    requires 1 <= current <= TotalPages(count)
    ensures var r := ShowingRange(current, count);
            && 1 <= r.0 <= r.1 <= count
            && r.1 - r.0 + 1 <= PostsPerPage
            && (current < TotalPages(count) ==> r.1 - r.0 + 1 == PostsPerPage)
  {
  }

  predicate PreviousDisabled(p: Pagination) {
    !Present(p.previous)
  }

  predicate NextDisabled(p: Pagination) {
    !Present(p.next)
  }

  /** With the server's links for page `number` of `pages`, the previous
      arrow is disabled exactly on the first page and the next arrow
      exactly on the last. */
  lemma ArrowsFollowServerLinks(number: int, pages: int, url: string, count: nat)
    requires url != [] && 1 <= number <= pages
    ensures var links := ServerLinks(number, pages, url);
            var p := Pagination(count, links.0, links.1, number);
            && (PreviousDisabled(p) <==> number == 1)
            && (NextDisabled(p) <==> number == pages)
  {
  }

  // ---------------------------------------------------------------------
  // Request parameters
  // ---------------------------------------------------------------------

  datatype Param = Num(n: int) | Text(s: string)

  function StatusText(s: StatusFilter): string {
    match s
    case AllStatuses => "all"
    case DraftOnly => "draft"
    case PublishedOnly => "published"
  }

  /** JavaScript truthiness of a nullable id: `null` and `0` are falsy. */
  predicate TruthyId(id: Option<nat>) {
    id.Some? && id.value != 0
  }

  /** The parameters sent for page `page`: always the page, then each
      filter only when it is set. */
  function QueryParams(f: Filters, page: int): (r: map<string, Param>)
    ensures "page" in r && r["page"] == Num(page)
    ensures "search" in r <==> f.search != []
    ensures "search" in r ==> r["search"] == Text(f.search)
    ensures "category" in r <==> TruthyId(f.category)
    ensures "category" in r ==> r["category"] == Num(f.category.value)
    ensures "tag" in r <==> TruthyId(f.tag)
    ensures "tag" in r ==> r["tag"] == Num(f.tag.value)
    ensures "status" in r <==> f.status != AllStatuses
    ensures "status" in r ==> r["status"] == Text(StatusText(f.status))
    ensures forall k :: k in r ==> k in {"page", "search", "category", "tag", "status"}
  {
    var m0 := map["page" := Num(page)];
    var m1 := if f.search != [] then m0["search" := Text(f.search)] else m0;
    var m2 := if TruthyId(f.category) then m1["category" := Num(f.category.value)] else m1;
    var m3 := if TruthyId(f.tag) then m2["tag" := Num(f.tag.value)] else m2;
    if f.status != AllStatuses then m3["status" := Text(StatusText(f.status))] else m3
  }

  /** After `clearFilters` the request carries the page and nothing else. */
  lemma ClearedFiltersSendOnlyPage(st: BlogState)
    ensures var r := ClearFilters(st);
            QueryParams(r.filters, r.pagination.currentPage) == map["page" := Num(1)]
  {
    var r := ClearFilters(st);
    var q := QueryParams(r.filters, r.pagination.currentPage);
    assert q.Keys == {"page"};
  }
}

=== FILE: post_serializers.dfy ===
/** The post-writing serializers: validation of the fields a client sends
    to create or update a post, and what `create` and `update` then do to
    the row. Both serializers declare the same fields with the same
    checks; an update sent as a full replacement requires title and
    content, a partial one requires nothing. */
module PostSerializers {
  import opened Wrappers
  import opened Text
  import opened Seqs
  import opened Fields
  import opened BlogModels

  const TitleTooLongMessage: string := "Title cannot exceed 200 characters."
  const ContentEmptyMessage: string := "Content cannot be empty."
  const StatusChoicesMessage: string := "Status must be one of: draft, published"
  const CategoryMissingMessage: string := "Category does not exist."
  const TagsMissingMessage: string := "One or more tags do not exist."

  const TitleMaxLength: nat := 200

  /** A nullable, optional input: not sent, sent as null, or a value. */
  datatype Sent<+T> = Missing | Null | Given(v: T)

  datatype PostInput = PostInput(
    title: Option<string>,
    content: Option<string>,
    excerpt: Sent<string>,
    categoryId: Sent<int>,
    tagIds: Option<seq<int>>,
    status: Option<string>,
    featuredImage: Sent<string>)

  /** The validated data: only the fields that were sent and passed. */
  datatype PostData = PostData(
    title: Option<string>,
    content: Option<string>,
    excerpt: Sent<string>,
    categoryId: Sent<int>,
    tagIds: Option<seq<int>>,
    status: Option<Status>,
    featuredImage: Sent<string>)

  /** The result of a non-text field. */
  datatype Check<+T> = Skipped | Passed(value: T) | Rejected(messages: seq<string>)

  function AsOutcome<T>(c: Check<T>): (o: FieldOutcome)
    ensures o.Errors? <==> c.Rejected?
  {
    if c.Rejected? then Errors(c.messages) else Absent
  }

  // ---------------------------------------------------------------------
  // Fields
  // ---------------------------------------------------------------------

  /** `title`: the model's `CharField(max_length=200)`, then
      `validate_title`. */
  function TitleOutcome(input: Option<string>, required: bool): FieldOutcome {
    var f := CharField(required, false, Some(TitleMaxLength), None);
    var o := RunField(f, input, [], []);
    Then(o, if o.Value? && |o.v| > TitleMaxLength then [TitleTooLongMessage] else [])
  }

  /** `content`: the model's `TextField`, then `validate_content`. */
  function ContentOutcome(input: Option<string>, required: bool): FieldOutcome {
    var o := RunField(CharField(required, false, None, None), input, [], []);
    Then(o, if o.Value? && Strip(o.v, IsPySpace) == [] then [ContentEmptyMessage] else [])
  }

  /** `excerpt`: an optional, nullable text that may be blank. */
  function ExcerptOutcome(input: Sent<string>): (c: Check<Sent<string>>)
    ensures input == Missing <==> c.Skipped?
    ensures input == Null ==> c == Passed(Null)
    ensures input.Given? && c.Passed? ==> c.value == Given(Strip(input.v, IsPySpace))
  {
    match input
    case Missing => Skipped
    case Null => Passed(Null)
    case Given(s) =>
      var o := RunField(CharField(false, true, None, None), Some(s), [], []);
      if o.Errors? then Rejected(o.messages) else Passed(Given(o.v))
  }

  function ChoiceMessage(s: string): string {
    "\"" + s + "\" is not a valid choice."
  }

  /** `status`: the model field's choices, then `validate_status`. The
      field has a model default, so it may be left out. */
  function StatusOutcome(input: Option<string>): (c: Check<Status>)
    ensures input.None? <==> c.Skipped?
    ensures c.Passed? ==> input == Some(StatusName(c.value))
    ensures input.Some? && ParseStatus(input.value).None? ==> c == Rejected([ChoiceMessage(input.value)])
  {
    match input
    case None => Skipped
    case Some(s) =>
      match ParseStatus(s)
      case None => Rejected([ChoiceMessage(s)])
      case Some(st) => Passed(st)
  }

  predicate CategoryExists(categories: seq<Category>, id: int) {
    exists i :: 0 <= i < |categories| && categories[i].id == id
  }

  /** `category_id`: an optional, nullable integer naming an existing
      category. */
  function CategoryOutcome(input: Sent<int>, categories: seq<Category>): (c: Check<Sent<int>>)
    ensures input == Missing <==> c.Skipped?
    ensures c.Rejected? <==> input.Given? && !CategoryExists(categories, input.v)
    ensures c.Passed? ==> c.value == input
  {
    match input
    case Missing => Skipped
    case Null => Passed(Null)
    case Given(id) =>
      if CategoryExists(categories, id) then Passed(Given(id)) else Rejected([CategoryMissingMessage])
  }

  /** `len(Tag.objects.filter(id__in=ids))`: the tag rows whose id is among
      `ids`. */
  function MatchingTags(tags: seq<Tag>, ids: set<int>): (n: nat)
    ensures n <= |tags|
  {
    if tags == [] then 0
    else (if tags[0].id in ids then 1 else 0) + MatchingTags(tags[1..], ids)
  }

  function TagIdSet(tags: seq<Tag>): set<int> {
    set t | t in tags :: t.id
  }

  predicate UniqueTagIds(tags: seq<Tag>) {
    forall i, j :: 0 <= i < j < |tags| ==> tags[i].id != tags[j].id
  }

  /** The id set of a table splits into its first row's id and the rest's,
      and with unique ids the first is not among the rest. */
  lemma TagIdSetCons(tags: seq<Tag>)
    requires tags != [] && UniqueTagIds(tags)
    ensures TagIdSet(tags) == {tags[0].id} + TagIdSet(tags[1..])
    ensures tags[0].id !in TagIdSet(tags[1..])
    ensures UniqueTagIds(tags[1..])
  {
    var rest := tags[1..];
    forall t | t in tags
      ensures t.id in {tags[0].id} + TagIdSet(rest)
    {
      var i :| 0 <= i < |tags| && tags[i] == t;
      if i > 0 {
        assert rest[i - 1] == t;
      }
    }
    forall i, j | 0 <= i < j < |rest|
      ensures rest[i].id != rest[j].id
    {
      assert rest[i] == tags[i + 1] && rest[j] == tags[j + 1];
    }
  }

  /** Intersecting with a set that gains one new element gains at most
      that element. */
  lemma InterAddCard(ids: set<int>, x: int, rest: set<int>)
    requires x !in rest
    ensures |ids * ({x} + rest)| == (if x in ids then 1 else 0) + |ids * rest|
  {
    if x in ids {
      assert ids * ({x} + rest) == {x} + ids * rest;
    } else {
      assert ids * ({x} + rest) == ids * rest;
    }
  }

  /** With unique tag ids, the rows matched are the requested ids that
      exist. */
  lemma {:induction false} MatchingTagsCount(tags: seq<Tag>, ids: set<int>)
    requires UniqueTagIds(tags)
    ensures MatchingTags(tags, ids) == |ids * TagIdSet(tags)|
  {
    if tags != [] {
      TagIdSetCons(tags);
      MatchingTagsCount(tags[1..], ids);
      InterAddCard(ids, tags[0].id, TagIdSet(tags[1..]));
    }
  }

  /** `tag_ids`: the list is checked only when non-empty, by comparing the
      number of matching rows with its length. */
  function TagIdsOutcome(input: Option<seq<int>>, tags: seq<Tag>): (c: Check<seq<int>>)
    ensures input.None? <==> c.Skipped?
    ensures c.Passed? ==> c.value == input.value
    ensures input == Some([]) ==> c == Passed([])
  {
    match input
    case None => Skipped
    case Some(ids) =>
      if ids != [] && MatchingTags(tags, Elems(ids)) != |ids| then Rejected([TagsMissingMessage])
      else Passed(ids)
  }

  predicate AllExist(ids: seq<int>, tags: seq<Tag>) {
    forall i :: 0 <= i < |ids| ==> ids[i] in TagIdSet(tags)
  }

  /** The tag check accepts a list exactly when every id names a tag and
      no id repeats. */
  lemma TagIdsAccepted(ids: seq<int>, tags: seq<Tag>)
    requires UniqueTagIds(tags)
    ensures TagIdsOutcome(Some(ids), tags).Passed? <==> Distinct(ids) && AllExist(ids, tags)
  {
    var s := Elems(ids);
    MatchingTagsCount(tags, s);
    ElemsCard(ids);
    var both := s * TagIdSet(tags);
    SubsetCard(both, s);
    if AllExist(ids, tags) {
      assert both == s;
    } else {
      var i :| 0 <= i < |ids| && ids[i] !in TagIdSet(tags);
      assert ids[i] in s - both;
      assert s == both + (s - both);
    }
  }

  // ---------------------------------------------------------------------
  // Validation
  // ---------------------------------------------------------------------

  /** The error dictionary of the six field checks: every failing field
      reports under its own name, and it is empty exactly when none fails. */
  function PostErrors(input: PostInput, categories: seq<Category>, tags: seq<Tag>, required: bool): (r: ErrorMap)
    ensures r == map[] <==>
              && !TitleOutcome(input.title, required).Errors?
              && !ContentOutcome(input.content, required).Errors?
              && !ExcerptOutcome(input.excerpt).Rejected?
              && !CategoryOutcome(input.categoryId, categories).Rejected?
              && !TagIdsOutcome(input.tagIds, tags).Rejected?
              && !StatusOutcome(input.status).Rejected?
    ensures TitleOutcome(input.title, required).Errors? ==>
              "title" in r && r["title"] == TitleOutcome(input.title, required).messages
    ensures ContentOutcome(input.content, required).Errors? ==>
              "content" in r && r["content"] == ContentOutcome(input.content, required).messages
    ensures CategoryOutcome(input.categoryId, categories).Rejected? ==>
              "category_id" in r && r["category_id"] == CategoryOutcome(input.categoryId, categories).messages
    ensures StatusOutcome(input.status).Rejected? ==>
              "status" in r && r["status"] == StatusOutcome(input.status).messages
    ensures ExcerptOutcome(input.excerpt).Rejected? ==>
              "excerpt" in r && r["excerpt"] == ExcerptOutcome(input.excerpt).messages
    ensures TagIdsOutcome(input.tagIds, tags).Rejected? ==>
              "tag_ids" in r && r["tag_ids"] == TagIdsOutcome(input.tagIds, tags).messages
  {
    var m1 := Record(map[], "title", TitleOutcome(input.title, required));
    var m2 := Record(m1, "content", ContentOutcome(input.content, required));
    var m3 := Record(m2, "excerpt", AsOutcome(ExcerptOutcome(input.excerpt)));
    var m4 := Record(m3, "category_id", AsOutcome(CategoryOutcome(input.categoryId, categories)));
    var m5 := Record(m4, "tag_ids", AsOutcome(TagIdsOutcome(input.tagIds, tags)));
    Record(m5, "status", AsOutcome(StatusOutcome(input.status)))
  }

  /** All six fields are checked and every failing field reports. */
  function ValidatePost(input: PostInput, categories: seq<Category>, tags: seq<Tag>, required: bool): (r: Result<PostData, ErrorMap>)
    ensures r.Failure? <==> PostErrors(input, categories, tags, required) != map[]
    ensures r.Failure? ==> r.error == PostErrors(input, categories, tags, required)
    ensures r.Success? ==> r.value.featuredImage == input.featuredImage
  {
    var title := TitleOutcome(input.title, required);
    var content := ContentOutcome(input.content, required);
    var excerpt := ExcerptOutcome(input.excerpt);
    var category := CategoryOutcome(input.categoryId, categories);
    var tagIds := TagIdsOutcome(input.tagIds, tags);
    var status := StatusOutcome(input.status);
    var errors := PostErrors(input, categories, tags, required);
    if errors == map[] then
      Success(PostData(
        Supplied(title),
        Supplied(content),
        if excerpt.Passed? then excerpt.value else Missing,
        if category.Passed? then category.value else Missing,
        if tagIds.Passed? then Some(tagIds.value) else None,
        if status.Passed? then Some(status.value) else None,
        input.featuredImage))
    else Failure(errors)
  }

  /** A successful validation is one where no field failed; its data
      holds each field's outcome. */
  lemma ValidationParts(input: PostInput, categories: seq<Category>, tags: seq<Tag>, required: bool)
    requires ValidatePost(input, categories, tags, required).Success?
    ensures var d := ValidatePost(input, categories, tags, required).value;
            && !TitleOutcome(input.title, required).Errors?
            && !ContentOutcome(input.content, required).Errors?
            && !ExcerptOutcome(input.excerpt).Rejected?
            && !CategoryOutcome(input.categoryId, categories).Rejected?
            && !TagIdsOutcome(input.tagIds, tags).Rejected?
            && !StatusOutcome(input.status).Rejected?
            && d.title == Supplied(TitleOutcome(input.title, required))
            && d.content == Supplied(ContentOutcome(input.content, required))
            && (d.categoryId.Given? ==> CategoryOutcome(input.categoryId, categories) == Passed(d.categoryId))
            && (d.tagIds.Some? ==> TagIdsOutcome(input.tagIds, tags) == Passed(d.tagIds.value))
            && (d.status.Some? ==> StatusOutcome(input.status) == Passed(d.status.value))
            && (input.status.Some? ==> d.status.Some?)
  {
  }

  lemma TitleAccepted(input: Option<string>, required: bool)
    requires !TitleOutcome(input, required).Errors?
    ensures required ==> TitleOutcome(input, required).Value?
    ensures TitleOutcome(input, required).Value? ==>
              var t := TitleOutcome(input, required).v; t != [] && |t| <= TitleMaxLength
  {
    var f := CharField(required, false, Some(TitleMaxLength), None);
    if RunField(f, input, [], []).Value? {
      AcceptedValue(f, input, [], []);
    }
  }

  lemma ContentAccepted(input: Option<string>, required: bool)
    requires !ContentOutcome(input, required).Errors?
    ensures required ==> ContentOutcome(input, required).Value?
    ensures ContentOutcome(input, required).Value? ==> !AllSpace(ContentOutcome(input, required).v, IsPySpace)
  {
    var f := CharField(required, false, None, None);
    if RunField(f, input, [], []).Value? {
      AcceptedValue(f, input, [], []);
      StripSpec(input.value, IsPySpace);
      StripSpec(Cleaned(input), IsPySpace);
    }
  }

  /** What the validated data guarantees: a title of at most 200
      characters, content with a non-space character, a known status, an
      existing category, and tags that exist without repeats. */
  lemma ValidatedPost(input: PostInput, categories: seq<Category>, tags: seq<Tag>, required: bool)
    requires UniqueTagIds(tags)
    requires ValidatePost(input, categories, tags, required).Success?
    ensures var d := ValidatePost(input, categories, tags, required).value;
            && (required ==> d.title.Some? && d.content.Some?)
            && (d.title.Some? ==> d.title.value != [] && |d.title.value| <= TitleMaxLength)
            && (d.content.Some? ==> !AllSpace(d.content.value, IsPySpace))
            && (input.status.Some? ==> d.status == ParseStatus(input.status.value) && d.status.Some?)
            && (d.categoryId.Given? ==> CategoryExists(categories, d.categoryId.v))
            && (d.tagIds.Some? ==> Distinct(d.tagIds.value) && AllExist(d.tagIds.value, tags))
  {
    ValidationParts(input, categories, tags, required);
    TitleAccepted(input.title, required);
    ContentAccepted(input.content, required);
    if input.tagIds.Some? {
      TagIdsAccepted(input.tagIds.value, tags);
    }
  }

  /** The serializers' own messages for title, content and status are
      never produced: the field checks that run first already refuse
      every value they would refuse. */
  lemma CustomMessagesUnreachable(input: PostInput, required: bool)
    ensures TitleOutcome(input.title, required).Errors? ==>
              TitleTooLongMessage !in TitleOutcome(input.title, required).messages
    ensures ContentOutcome(input.content, required).Errors? ==>
              ContentEmptyMessage !in ContentOutcome(input.content, required).messages
  {
    TitleMessageUnreachable(input.title, required);
    ContentMessageUnreachable(input.content, required);
  }

  lemma TitleMessageUnreachable(title: Option<string>, required: bool)
    ensures !TitleOutcome(title, required).Errors? || TitleTooLongMessage !in TitleOutcome(title, required).messages
  {
    var f := CharField(required, false, Some(TitleMaxLength), None);
    if RunField(f, title, [], []).Value? {
      AcceptedValue(f, title, [], []);
    }
  }

  lemma ContentMessageUnreachable(content: Option<string>, required: bool)
    ensures !ContentOutcome(content, required).Errors? || ContentEmptyMessage !in ContentOutcome(content, required).messages
  {
    var f := CharField(required, false, None, None);
    var c := RunField(f, content, [], []);
    if c.Value? {
      AcceptedValue(f, content, [], []);
      StripSpec(content.value, IsPySpace);
      StripSpec(c.v, IsPySpace);
    }
  }

  /** An over-long title fails the model field's own length check, so
      the field reports the framework's length message. */
  lemma TitleTooLong(title: string, required: bool)
    requires |Strip(title, IsPySpace)| > TitleMaxLength
    ensures TitleOutcome(Some(title), required).Errors?
    ensures MaxLengthMessage(TitleMaxLength) in TitleOutcome(Some(title), required).messages
  {
    var f := CharField(required, false, Some(TitleMaxLength), None);
    var v := Strip(title, IsPySpace);
    assert MaxLengthMessage(TitleMaxLength) in BuiltinErrors(f, v);
    assert [] + BuiltinErrors(f, v) + [] == BuiltinErrors(f, v);
  }

  /** Content made only of spaces strips to nothing and is refused as
      blank before `validate_content` runs. */
  lemma ContentBlank(content: string, required: bool)
    requires AllSpace(content, IsPySpace)
    ensures ContentOutcome(Some(content), required) == Errors([BlankMessage])
  {
    StripSpec(content, IsPySpace);
  }

  /** An over-long title and a blank content are reported under their
      field names; an unknown status is reported as an invalid choice. */
  lemma PostFieldErrors(input: PostInput, categories: seq<Category>, tags: seq<Tag>, required: bool)
    ensures input.title.Some? && |Strip(input.title.value, IsPySpace)| > TitleMaxLength ==>
              var r := ValidatePost(input, categories, tags, required);
              r.Failure? && "title" in r.error && MaxLengthMessage(TitleMaxLength) in r.error["title"]
    ensures input.content.Some? && AllSpace(input.content.value, IsPySpace) ==>
              var r := ValidatePost(input, categories, tags, required);
              r.Failure? && "content" in r.error && r.error["content"] == [BlankMessage]
    ensures input.status.Some? && ParseStatus(input.status.value).None? ==>
              var r := ValidatePost(input, categories, tags, required);
              r.Failure? && "status" in r.error && r.error["status"] == [ChoiceMessage(input.status.value)]
    ensures input.categoryId.Given? && !CategoryExists(categories, input.categoryId.v) ==>
              var r := ValidatePost(input, categories, tags, required);
              r.Failure? && "category_id" in r.error && r.error["category_id"] == [CategoryMissingMessage]
  {
    if input.title.Some? && |Strip(input.title.value, IsPySpace)| > TitleMaxLength {
      TitleTooLong(input.title.value, required);
    }
    if input.content.Some? && AllSpace(input.content.value, IsPySpace) {
      ContentBlank(input.content.value, required);
    }
  }

  // ---------------------------------------------------------------------
  // create and update
  // ---------------------------------------------------------------------

  /** Python truthiness of an optional integer. */
  predicate TruthyId(s: Sent<int>) {
    s.Given? && s.v != 0
  }

  /** The tags `filter(id__in=ids)` selects, as the set `tags.set` stores. */
  function SelectTags(tags: seq<Tag>, ids: seq<int>): (r: set<int>)
    ensures r == Elems(ids) * TagIdSet(tags)
  {
    set t | t in tags && t.id in ids :: t.id
  }

  /** What assigning a nullable sent field does to a column: absence
      keeps `old_`, null clears it, a value replaces it. */
  function SentValue(s: Sent<string>, old_: Option<string>): Option<string> {
    match s
    case Missing => old_
    case Null => None
    case Given(v) => Some(v)
  }

  /** The first slug save of a row never collides: an empty slug is always
      replaced by a free one. */
  lemma FreshRowSaves(p: Post, pk: Option<nat>, table: seq<Post>, slugify: string -> string, now: int)
    requires p.slug == []
    ensures SavePost(p, pk, table, slugify, now).Saved?
  {
  }

  /** Excluding one more row can only free slugs. */
  lemma TakenSlugsExclude(table: seq<Post>, id: nat)
    ensures TakenSlugs(table, Some(id)) <= TakenSlugs(table, None)
  {
  }

  /** `PostCreateSerializer.create`: the row is made (and saved) from the
      validated data with the requester as author; a truthy category id
      is then set and the row saved again; a non-empty tag list then
      sets the tags. `table` holds the other rows, `id` the new key. */
  function CreatePost(d: PostData, author: nat, id: nat, table: seq<Post>, tags: seq<Tag>,
                      slugify: string -> string, now: int): (p: Post)
    ensures p.id == id && p.authorId == author && p.createdAt == now
    ensures p.slug !in TakenSlugs(table, None)
    ensures p.title == d.title.GetOr([]) && p.content == d.content.GetOr([])
    ensures p.status == d.status.GetOr(Draft)
    ensures p.categoryId == if TruthyId(d.categoryId) then Some(d.categoryId.v) else None
    ensures p.tagIds == if d.tagIds.Some? && d.tagIds.value != [] then SelectTags(tags, d.tagIds.value) else {}
    ensures IsPublished(p) <==> p.publishedAt == Some(now)
    ensures !IsPublished(p) ==> p.publishedAt.None?
    ensures p.featuredImage == SentValue(d.featuredImage, None)
    ensures p.slug == UniqueSlug(slugify(p.title), table, None)
    ensures var e := SentValue(d.excerpt, None);
            p.excerpt == if !Filled(e) && p.content != [] then Some(Truncate(p.content)) else e
  {
    var row := Post(id, d.title.GetOr([]), [], d.content.GetOr([]), SentValue(d.excerpt, None),
                    author, None, {}, d.status.GetOr(Draft), SentValue(d.featuredImage, None), now, None);
    FreshRowSaves(row, None, table, slugify, now);
    var first := SavePost(row, None, table, slugify, now).post;
    var second :=
      if TruthyId(d.categoryId) then
        var withCategory := first.(categoryId := Some(d.categoryId.v));
        TakenSlugsExclude(table, id);
        assert SavePost(withCategory, Some(id), table, slugify, now).Saved? by {
          if withCategory.slug != [] {
            assert withCategory.slug !in TakenSlugs(table, Some(id));
          }
        }
        SavePost(withCategory, Some(id), table, slugify, now).post
      else first;
    if d.tagIds.Some? && d.tagIds.value != [] then second.(tagIds := SelectTags(tags, d.tagIds.value))
    else second
  }

  /** The category an update leaves: a truthy id sets it, a zero id
      clears it, and null or absence keeps it. */
  function UpdatedCategory(s: Sent<int>, current: Option<int>): (r: Option<int>)
    ensures s.Given? && s.v != 0 ==> r == Some(s.v)
    ensures s.Given? && s.v == 0 ==> r.None?
    ensures !s.Given? ==> r == current
  {
    if s.Given? then (if s.v != 0 then Some(s.v) else None) else current
  }

  /** The tags an update leaves: absence keeps them, `[]` clears them, and
      a non-empty list replaces them. */
  function UpdatedTags(ids: Option<seq<int>>, current: set<int>, tags: seq<Tag>): (r: set<int>)
    ensures ids.None? ==> r == current
    ensures ids == Some([]) ==> r == {}
    ensures ids.Some? ==> r == Elems(ids.value) * TagIdSet(tags)
  {
    if ids.None? then current
    else if ids.value == [] then {}
    else SelectTags(tags, ids.value)
  }

  /** The assignments of `update` before the save. */
  function Assign(instance: Post, d: PostData, tags: seq<Tag>): Post {
    var title := d.title.GetOr(instance.title);
    var content := d.content.GetOr(instance.content);
    var excerpt := SentValue(d.excerpt, instance.excerpt);
    var status := d.status.GetOr(instance.status);
    var category := UpdatedCategory(d.categoryId, instance.categoryId);
    var tagIds := UpdatedTags(d.tagIds, instance.tagIds, tags);
    var image := SentValue(d.featuredImage, instance.featuredImage);
    instance.(title := title, content := content, excerpt := excerpt, status := status,
              categoryId := category, tagIds := tagIds, featuredImage := image)
  }

  /** `PostUpdateSerializer.update`: every sent field is assigned, the
      category and tags follow their own rules, and the row is saved. */
  function UpdatePost(instance: Post, d: PostData, table: seq<Post>, tags: seq<Tag>,
                      slugify: string -> string, now: int): (r: SaveOutcome)
    ensures r.Saved? ==> && r.post.id == instance.id && r.post.authorId == instance.authorId
                         && r.post.createdAt == instance.createdAt
                         && r.post.featuredImage == SentValue(d.featuredImage, instance.featuredImage)
    ensures r.Saved? ==> && r.post.title == d.title.GetOr(instance.title)
                         && r.post.content == d.content.GetOr(instance.content)
                         && r.post.status == d.status.GetOr(instance.status)
    ensures r.Saved? ==> r.post.categoryId == UpdatedCategory(d.categoryId, instance.categoryId)
    ensures r.Saved? ==> r.post.tagIds == UpdatedTags(d.tagIds, instance.tagIds, tags)
    ensures r.Saved? && instance.slug != [] ==> r.post.slug == instance.slug
    ensures r.Saved? ==> var e := SentValue(d.excerpt, instance.excerpt);
                         r.post.excerpt == if !Filled(e) && r.post.content != [] then Some(Truncate(r.post.content)) else e
    ensures r.Saved? ==> r.post.publishedAt ==
                           if IsPublished(r.post) && instance.publishedAt.None? then Some(now) else instance.publishedAt
  {
    SavePost(Assign(instance, d, tags), Some(instance.id), table, slugify, now)
  }

  const NothingSent: PostData := PostData(None, None, Missing, Missing, None, None, Missing)

  /** An update with nothing sent is a plain re-save, and a stored row
      always saves. */
  lemma UpdateNothing(table: seq<Post>, k: nat, tags: seq<Tag>, slugify: string -> string, now: int)
    requires UniqueRows(table) && k < |table|
    ensures UpdatePost(table[k], NothingSent, table, tags, slugify, now)
              == SavePost(table[k], Some(table[k].id), table, slugify, now)
    ensures UpdatePost(table[k], NothingSent, table, tags, slugify, now).Saved?
  {
    ResaveSucceeds(table, k, table[k], slugify, now);
  }

  /** Any update of a stored row succeeds, keeps its slug, and an update
      to draft keeps the publication instant (only `unpublish` clears
      it). */
  lemma UpdateStoredRow(table: seq<Post>, k: nat, d: PostData, tags: seq<Tag>, slugify: string -> string, now: int)
    requires UniqueRows(table) && k < |table|
    ensures var r := UpdatePost(table[k], d, table, tags, slugify, now);
            && r.Saved?
            && (table[k].slug != [] ==> r.post.slug == table[k].slug)
            && (d.status == Some(Draft) ==> r.post.publishedAt == table[k].publishedAt)
            && (table[k].publishedAt.Some? ==> r.post.publishedAt == table[k].publishedAt)
  {
    ResaveSucceeds(table, k, Assign(table[k], d, tags), slugify, now);
  }
}

=== FILE: search_bar.dfy ===
/** The search box's suggestion list: words from the titles of the first
    five posts that start with the query, then category names and tag
    names that contain it, without repeats and at most eight. Matching is
    done on lower-cased text; names are suggested in their own case. */
module SearchBar {
  import opened Text
  import opened Seqs
  import opened ClientTypes

  const MaxSuggestions: nat := 8
  const TitlePosts: nat := 5

  // ---------------------------------------------------------------------
  // What may be suggested
  // ---------------------------------------------------------------------

  /** A lower-cased title word qualifies when it is longer than two
      characters and starts with the lower-cased query `lq`. */
  predicate WordQualifies(w: string, lq: string) {
    |w| > 2 && StartsWith(w, lq)
  }

  /** `w` is one of the fields of `title.toLowerCase().split(' ')`. */
  predicate InTitle(p: ClientPost, w: string) {
    w in SplitOn(Lower(p.title), ' ')
  }

  predicate NameQualifies(name: string, lq: string) {
    name != [] && Contains(Lower(name), lq)
  }

  predicate CategoryOffers(p: ClientPost, name: string, lq: string) {
    p.category.Some? && p.category.value.name == name && NameQualifies(name, lq)
  }

  predicate TagOffers(p: ClientPost, name: string, lq: string) {
    exists j :: 0 <= j < |p.tags| && p.tags[j].name == name && NameQualifies(p.tags[j].name, lq)
  }

  predicate TitleEligible(posts: seq<ClientPost>, lq: string, s: string) {
    exists i :: 0 <= i < |posts| && i < TitlePosts && InTitle(posts[i], s) && WordQualifies(s, lq)
  }

  predicate CategoryEligible(posts: seq<ClientPost>, lq: string, s: string) {
    exists i :: 0 <= i < |posts| && CategoryOffers(posts[i], s, lq)
  }

  predicate TagEligible(posts: seq<ClientPost>, lq: string, s: string) {
    exists i :: 0 <= i < |posts| && TagOffers(posts[i], s, lq)
  }

  predicate Eligible(posts: seq<ClientPost>, lq: string, s: string) {
    TitleEligible(posts, lq, s) || CategoryEligible(posts, lq, s) || TagEligible(posts, lq, s)
  }

  // ---------------------------------------------------------------------
  // Collecting candidates in insertion order
  // ---------------------------------------------------------------------

  function QualifyingWords(words: seq<string>, lq: string): (r: seq<string>)
    ensures forall w :: w in r <==> w in words && WordQualifies(w, lq)
  {
    if words == [] then []
    else (if WordQualifies(words[0], lq) then [words[0]] else []) + QualifyingWords(words[1..], lq)
  }

  function TitleWords(posts: seq<ClientPost>, lq: string): (r: seq<string>)
    ensures forall w :: w in r <==> exists i :: 0 <= i < |posts| && InTitle(posts[i], w) && WordQualifies(w, lq)
  {
    if posts == [] then []
    else
      var rest := TitleWords(posts[1..], lq);
      assert forall i :: 1 <= i < |posts| ==> posts[i] == posts[1..][i - 1];
      QualifyingWords(SplitOn(Lower(posts[0].title), ' '), lq) + rest
  }

  function CategoryNames(posts: seq<ClientPost>, lq: string): (r: seq<string>)
    ensures forall s :: s in r <==> CategoryEligible(posts, lq, s)
  {
    if posts == [] then []
    else
      var p := posts[0];
      var rest := CategoryNames(posts[1..], lq);
      assert forall i :: 1 <= i < |posts| ==> posts[i] == posts[1..][i - 1];
      (if p.category.Some? && NameQualifies(p.category.value.name, lq) then [p.category.value.name] else []) + rest
  }

  function QualifyingTagNames(tags: seq<Named>, lq: string): (r: seq<string>)
    ensures forall s :: s in r <==> exists j :: 0 <= j < |tags| && tags[j].name == s && NameQualifies(tags[j].name, lq)
  {
    if tags == [] then []
    else
      var rest := QualifyingTagNames(tags[1..], lq);
      assert forall j :: 1 <= j < |tags| ==> tags[j] == tags[1..][j - 1];
      (if NameQualifies(tags[0].name, lq) then [tags[0].name] else []) + rest
  }

  function TagNames(posts: seq<ClientPost>, lq: string): (r: seq<string>)
    ensures forall s :: s in r <==> TagEligible(posts, lq, s)
  {
    if posts == [] then []
    else
      var rest := TagNames(posts[1..], lq);
      assert forall i :: 1 <= i < |posts| ==> posts[i] == posts[1..][i - 1];
      QualifyingTagNames(posts[0].tags, lq) + rest
  }

  lemma TitleWordsOfFirstFive(posts: seq<ClientPost>, lq: string, s: string)
    ensures s in TitleWords(Take(posts, TitlePosts), lq) <==> TitleEligible(posts, lq, s)
  {
    var t := Take(posts, TitlePosts);
    if s in TitleWords(t, lq) {
      var i :| 0 <= i < |t| && InTitle(t[i], s) && WordQualifies(s, lq);
      assert t[i] == posts[i];
    }
  }

  /** In a duplicate-free sequence that starts with `a`, an element of `a`
      sits inside that prefix. */
  lemma PrefixPosition(r: seq<string>, a: seq<string>, j: nat)
    requires Distinct(r) && |a| <= |r| && r[..|a|] == a && j < |r| && r[j] in a
    ensures j < |a|
  {
    var k :| 0 <= k < |a| && a[k] == r[j];
    assert r[k] == a[k];
  }

  // ---------------------------------------------------------------------
  // The suggestion list
  // ---------------------------------------------------------------------

  /** The de-duplicated title words. */
  function TitleBlock(posts: seq<ClientPost>, lq: string): (a: seq<string>)
    ensures Distinct(a)
  {
    assert Distinct<string>([]);
    AddAll([], TitleWords(Take(posts, TitlePosts), lq))
  }

  /** The title block followed by the new category names. */
  function NameBlock(posts: seq<ClientPost>, lq: string): (b: seq<string>)
    ensures Distinct(b)
    ensures |TitleBlock(posts, lq)| <= |b| && b[..|TitleBlock(posts, lq)|] == TitleBlock(posts, lq)
  {
    AddAll(TitleBlock(posts, lq), CategoryNames(posts, lq))
  }

  /** Every candidate in insertion order: the title words, then the
      category names, then the tag names, each added only once. */
  function Candidates(posts: seq<ClientPost>, lq: string): (c: seq<string>)
    ensures Distinct(c)
    ensures |NameBlock(posts, lq)| <= |c| && c[..|NameBlock(posts, lq)|] == NameBlock(posts, lq)
  {
    AddAll(NameBlock(posts, lq), TagNames(posts, lq))
  }

  /** What each block holds. */
  lemma BlockMembers(posts: seq<ClientPost>, lq: string, s: string)
    ensures s in TitleBlock(posts, lq) <==> s in TitleWords(Take(posts, TitlePosts), lq)
    ensures s in NameBlock(posts, lq) <==> s in TitleBlock(posts, lq) || s in CategoryNames(posts, lq)
    ensures s in Candidates(posts, lq) <==> s in NameBlock(posts, lq) || s in TagNames(posts, lq)
  {
    var a, b, c := TitleBlock(posts, lq), NameBlock(posts, lq), Candidates(posts, lq);
    var tw, cn, tn := TitleWords(Take(posts, TitlePosts), lq), CategoryNames(posts, lq), TagNames(posts, lq);
    assert s in a <==> s in Elems(a);
    assert s in b <==> s in Elems(b);
    assert s in c <==> s in Elems(c);
    assert s in tw <==> s in Elems(tw);
    assert s in cn <==> s in Elems(cn);
    assert s in tn <==> s in Elems(tn);
  }

  /** The candidates are exactly the eligible strings. */
  lemma CandidatesMembers(posts: seq<ClientPost>, lq: string, s: string)
    ensures s in Candidates(posts, lq) <==> Eligible(posts, lq, s)
  {
    BlockMembers(posts, lq, s);
    TitleWordsOfFirstFive(posts, lq, s);
    assert s in CategoryNames(posts, lq) <==> CategoryEligible(posts, lq, s);
    assert s in TagNames(posts, lq) <==> TagEligible(posts, lq, s);
  }

  /** In a duplicate-free sequence that starts with `a`, whatever
      follows an element of `a` is preceded only by elements of `a`. */
  lemma BlockBefore(c: seq<string>, a: seq<string>, i: nat, j: nat)
    requires Distinct(c) && |a| <= |c| && c[..|a|] == a && i < j < |c| && c[j] in a
    ensures c[i] in a
  {
    PrefixPosition(c, a, j);
    assert c[i] == a[i];
  }

  lemma CandidatesStartWithTitles(posts: seq<ClientPost>, lq: string)
    ensures |TitleBlock(posts, lq)| <= |Candidates(posts, lq)|
    ensures Candidates(posts, lq)[..|TitleBlock(posts, lq)|] == TitleBlock(posts, lq)
  {
    PrefixOfPrefix(Candidates(posts, lq), NameBlock(posts, lq), TitleBlock(posts, lq));
  }

  lemma PrefixOfPrefix(c: seq<string>, b: seq<string>, a: seq<string>)
    requires |b| <= |c| && c[..|b|] == b && |a| <= |b| && b[..|a|] == a
    ensures c[..|a|] == a
  {
    assert c[..|a|] == c[..|b|][..|a|];
  }

  /** Title words come first: a title word never follows a string that
      is not one. */
  lemma TitleWordsFirst(posts: seq<ClientPost>, lq: string, i: nat, j: nat)
    requires i < j < |Candidates(posts, lq)|
    requires TitleEligible(posts, lq, Candidates(posts, lq)[j])
    ensures TitleEligible(posts, lq, Candidates(posts, lq)[i])
  {
    var c, a := Candidates(posts, lq), TitleBlock(posts, lq);
    TitleWordsOfFirstFive(posts, lq, c[j]);
    TitleWordsOfFirstFive(posts, lq, c[i]);
    BlockMembers(posts, lq, c[j]);
    BlockMembers(posts, lq, c[i]);
    CandidatesStartWithTitles(posts, lq);
    BlockBefore(c, a, i, j);
  }

  /** Category names come before tag-only names. */
  lemma NamesBeforeTags(posts: seq<ClientPost>, lq: string, i: nat, j: nat)
    requires i < j < |Candidates(posts, lq)|
    requires TitleEligible(posts, lq, Candidates(posts, lq)[j]) || CategoryEligible(posts, lq, Candidates(posts, lq)[j])
    ensures TitleEligible(posts, lq, Candidates(posts, lq)[i]) || CategoryEligible(posts, lq, Candidates(posts, lq)[i])
  {
    var c, b := Candidates(posts, lq), NameBlock(posts, lq);
    TitleWordsOfFirstFive(posts, lq, c[j]);
    TitleWordsOfFirstFive(posts, lq, c[i]);
    BlockMembers(posts, lq, c[j]);
    BlockMembers(posts, lq, c[i]);
    BlockBefore(c, b, i, j);
  }

  /** `getSearchSuggestions`. */
  function Suggestions(posts: seq<ClientPost>, query: string): (r: seq<string>)
    ensures posts == [] ==> r == []
    ensures |r| <= MaxSuggestions
    ensures Distinct(r)
  {
    if posts == [] then []
    else
      TakeDistinct(Candidates(posts, Lower(query)), MaxSuggestions);
      Take(Candidates(posts, Lower(query)), MaxSuggestions)
  }

  /** Every suggestion is eligible; an eligible string is left out only
      when the list is already full; and the blocks keep their order. */
  lemma SuggestionsSpec(posts: seq<ClientPost>, query: string)
    ensures var r := Suggestions(posts, query);
            var lq := Lower(query);
            && (forall s :: s in r ==> Eligible(posts, lq, s))
            && (forall s :: Eligible(posts, lq, s) && s !in r ==> |r| == MaxSuggestions)
            && (forall i, j :: 0 <= i < j < |r| && TitleEligible(posts, lq, r[j]) ==> TitleEligible(posts, lq, r[i]))
            && (forall i, j :: 0 <= i < j < |r| && (TitleEligible(posts, lq, r[j]) || CategoryEligible(posts, lq, r[j])) ==>
                  TitleEligible(posts, lq, r[i]) || CategoryEligible(posts, lq, r[i]))
  {
    var r := Suggestions(posts, query);
    var lq := Lower(query);
    var c := Candidates(posts, lq);
    if posts != [] {
      forall s | s in r
        ensures Eligible(posts, lq, s)
      {
        CandidatesMembers(posts, lq, s);
      }
      forall s | Eligible(posts, lq, s) && s !in r
        ensures |r| == MaxSuggestions
      {
        CandidatesMembers(posts, lq, s);
      }
      forall i, j | 0 <= i < j < |r| && TitleEligible(posts, lq, r[j])
        ensures TitleEligible(posts, lq, r[i])
      {
        TitleWordsFirst(posts, lq, i, j);
      }
      forall i, j | 0 <= i < j < |r| && (TitleEligible(posts, lq, r[j]) || CategoryEligible(posts, lq, r[j]))
        ensures TitleEligible(posts, lq, r[i]) || CategoryEligible(posts, lq, r[i])
      {
        NamesBeforeTags(posts, lq, i, j);
      }
    } else {
      forall s | Eligible(posts, lq, s)
        ensures false
      {
      }
    }
  }

  /** The empty query asks for no particular prefix or substring: every
      long-enough title word and every non-empty name qualifies. */
  lemma EmptyQueryAdmitsAll(w: string, name: string)
    ensures WordQualifies(w, Lower("")) <==> |w| > 2
    ensures NameQualifies(name, Lower("")) <==> name != []
  {
    assert StartsWith(w, []);
    assert StartsWith(Lower(name), []);
  }
}

=== FILE: seqs.dfy ===
/** Sequence helpers: duplicate-freedom, first-occurrence de-duplication
    (what a JavaScript `Set` built by successive `add`s keeps), prefixes,
    filtering and a newest-first sort. */
module Seqs {

  predicate Distinct<T(==)>(s: seq<T>) {
    forall i, j :: 0 <= i < j < |s| ==> s[i] != s[j]
  }

  function Elems<T>(s: seq<T>): set<T> {
    set x | x in s
  }

  /** The number of distinct elements of a sequence is at most its length,
      with equality exactly when no element repeats. */
  lemma {:induction false} ElemsCard<T>(s: seq<T>)
    ensures |Elems(s)| <= |s|
    ensures |Elems(s)| == |s| <==> Distinct(s)
  {
    if s != [] {
      var t := s[1..];
      ElemsCard(t);
      assert Elems(s) == {s[0]} + Elems(t);
      if s[0] in t {
        assert Elems(s) == Elems(t);
        var k :| 0 <= k < |t| && t[k] == s[0];
        assert s[0] == s[k + 1];
        assert !Distinct(s);
      } else {
        assert |Elems(s)| == 1 + |Elems(t)|;
        if Distinct(t) {
          forall i, j | 0 <= i < j < |s|
            ensures s[i] != s[j]
          {
            if i == 0 {
              assert s[j] == t[j - 1];
            } else {
              assert s[i] == t[i - 1] && s[j] == t[j - 1];
            }
          }
        } else {
          var i, j :| 0 <= i < j < |t| && t[i] == t[j];
          assert s[i + 1] == s[j + 1];
        }
      }
    }
  }

  /** Appends `x` unless it is already present: `Set.prototype.add`. */
  function AddNew<T(==)>(s: seq<T>, x: T): (r: seq<T>)
    ensures Distinct(s) ==> Distinct(r)
    ensures Elems(r) == Elems(s) + {x}
    ensures x in s ==> r == s
    ensures x !in s ==> r == s + [x]
  {
    if x in s then s else s + [x]
  }

  /** Adds every element of `xs`, in order. */
  function AddAll<T(==)>(acc: seq<T>, xs: seq<T>): (r: seq<T>)
    ensures Distinct(acc) ==> Distinct(r)
    ensures Elems(r) == Elems(acc) + Elems(xs)
    ensures |acc| <= |r|
    ensures r[..|acc|] == acc
    decreases |xs|
  {
    if xs == [] then acc
    else
      var r := AddAll(AddNew(acc, xs[0]), xs[1..]);
      assert Elems(xs) == {xs[0]} + Elems(xs[1..]);
      assert r[..|acc|] == AddNew(acc, xs[0])[..|acc|];
      r
  }

  /** Positions `from..|s|` whose element satisfies `p`, ascending: the
      rows an ORM filter selects. */
  function IndicesWhere<T>(s: seq<T>, p: T -> bool, from: nat): (r: seq<nat>)
    requires from <= |s|
    ensures forall k :: 0 <= k < |r| ==> from <= r[k] < |s| && p(s[r[k]])
    ensures forall i :: from <= i < |s| && p(s[i]) ==> i in r
    ensures forall a, b :: 0 <= a < b < |r| ==> r[a] < r[b]
    decreases |s| - from
  {
    if from == |s| then []
    else
      var rest := IndicesWhere(s, p, from + 1);
      if p(s[from]) then [from] + rest else rest
  }

  /** The first `n` elements (`Array.prototype.slice(0, n)`). */
  function Take<T>(s: seq<T>, n: nat): (r: seq<T>)
    ensures |r| <= n && |r| <= |s|
    ensures |s| <= n ==> r == s
    ensures n <= |s| ==> |r| == n
    ensures forall i :: 0 <= i < |r| ==> r[i] == s[i]
  {
    if |s| <= n then s else s[..n]
  }

  lemma TakeDistinct<T>(s: seq<T>, n: nat)
    requires Distinct(s)
    ensures Distinct(Take(s, n))
  {
  }

  /** Elements satisfying `p`, in their original order. */
  function Filter<T>(s: seq<T>, p: T -> bool): (r: seq<T>)
    ensures |r| <= |s|
    ensures forall i :: 0 <= i < |r| ==> r[i] in s && p(r[i])
    ensures forall i :: 0 <= i < |s| && p(s[i]) ==> s[i] in r
  {
    if s == [] then []
    else
      var rest := Filter(s[1..], p);
      assert forall i :: 1 <= i < |s| ==> s[i] == s[1..][i - 1];
      if p(s[0]) then [s[0]] + rest else rest
  }

  // ---------------------------------------------------------------------
  // Newest-first ordering (`order_by('-created_at')`)
  // ---------------------------------------------------------------------

  predicate SortedDesc<T>(s: seq<T>, key: T -> int) {
    forall i, j :: 0 <= i < j < |s| ==> key(s[i]) >= key(s[j])
  }

  /** Putting `y` in front of a sorted sequence whose keys are all at most
      `key(y)` keeps it sorted. */
  lemma ConsSortedDesc<T>(y: T, t: seq<T>, key: T -> int)
    requires SortedDesc(t, key)
    requires forall i :: 0 <= i < |t| ==> key(y) >= key(t[i])
    ensures SortedDesc([y] + t, key)
  {
    var r := [y] + t;
    forall i, j | 0 <= i < j < |r|
      ensures key(r[i]) >= key(r[j])
    {
      assert r[j] == t[j - 1];
      if i > 0 {
        assert r[i] == t[i - 1];
      }
    }
  }

  /** If every element of `t` is `x` or an element of the sorted tail of
      `s`, and `x` sorts after `s[0]`, then `s[0]` may precede all of `t`. */
  lemma HeadBoundsInsert<T>(x: T, s: seq<T>, t: seq<T>, key: T -> int)
    requires s != [] && SortedDesc(s, key) && key(x) < key(s[0])
    requires forall i :: 0 <= i < |t| ==> t[i] == x || t[i] in s[1..]
    ensures forall i :: 0 <= i < |t| ==> key(s[0]) >= key(t[i])
  {
    forall i | 0 <= i < |t|
      ensures key(s[0]) >= key(t[i])
    {
      if t[i] != x {
        var k :| 0 <= k < |s| - 1 && s[1..][k] == t[i];
        assert s[k + 1] == t[i];
      }
    }
  }

  function InsertDesc<T>(x: T, s: seq<T>, key: T -> int): (r: seq<T>)
    requires SortedDesc(s, key)
    ensures |r| == |s| + 1
    ensures forall i :: 0 <= i < |r| ==> r[i] == x || r[i] in s
    ensures SortedDesc(r, key)
    ensures multiset(r) == multiset(s) + multiset{x}
  {
    if s == [] then [x]
    else if key(x) >= key(s[0]) then
      ConsSortedDesc(x, s, key);
      [x] + s
    else
      var t := InsertDesc(x, s[1..], key);
      HeadBoundsInsert(x, s, t, key);
      ConsSortedDesc(s[0], t, key);
      assert s == [s[0]] + s[1..];
      [s[0]] + t
  }

  /** Insertion sort on `key`, largest first. */
  function SortDesc<T>(s: seq<T>, key: T -> int): (r: seq<T>)
    ensures SortedDesc(r, key)
    ensures multiset(r) == multiset(s)
    ensures |r| == |s|
  {
    if s == [] then []
    else
      assert s == [s[0]] + s[1..];
      InsertDesc(s[0], SortDesc(s[1..], key), key)
  }
}

=== FILE: text.dfy ===
/** String helpers with the semantics of the Python and JavaScript built-ins
    the system calls: `str.split()`, `str.split(' ')`, `str.strip()`,
    `String.prototype.trim`, `startsWith`, `includes`, `str(int)`.
    Characters are Unicode scalar values, so lengths count code points, as
    Python's `len` does. */
module Text {

  // ---------------------------------------------------------------------
  // Character classes
  // ---------------------------------------------------------------------

  /** The characters Python's `str.isspace` accepts (and so the separators
      of `str.split()` and the characters `str.strip()` removes). */
  predicate IsPySpace(c: char) {
    || c == ' ' || c == '\t' || c == '\n' || c == '\r'
    || c == '\U{000B}' || c == '\U{000C}'
    || ('\U{001C}' <= c <= '\U{001F}')
    || c == '\U{0085}' || c == '\U{00A0}' || c == '\U{1680}'
    || ('\U{2000}' <= c <= '\U{200A}')
    || c == '\U{2028}' || c == '\U{2029}' || c == '\U{202F}' || c == '\U{205F}'
    || c == '\U{3000}'
  }

  /** The characters JavaScript's `String.prototype.trim` removes
      (WhiteSpace and LineTerminator of ECMA-262). */
  predicate IsJsSpace(c: char) {
    || c == ' ' || c == '\t' || c == '\n' || c == '\r'
    || c == '\U{000B}' || c == '\U{000C}'
    || c == '\U{00A0}' || c == '\U{1680}'
    || ('\U{2000}' <= c <= '\U{200A}')
    || c == '\U{2028}' || c == '\U{2029}' || c == '\U{202F}' || c == '\U{205F}'
    || c == '\U{3000}' || c == '\U{FEFF}'
  }

  predicate IsAsciiUpper(c: char) { 'A' <= c <= 'Z' }

  predicate IsAsciiLower(c: char) { 'a' <= c <= 'z' }

  predicate IsAsciiDigit(c: char) { '0' <= c <= '9' }

  function LowerChar(c: char): (r: char)
    ensures IsAsciiUpper(c) ==> IsAsciiLower(r)
    ensures !IsAsciiUpper(c) ==> r == c
  {
    if IsAsciiUpper(c) then (c as int + 32) as char else c
  }

  /** Lower-casing on the ASCII range (see README for the Unicode gap). */
  function Lower(s: string): (r: string)
    ensures |r| == |s|
    ensures forall i :: 0 <= i < |s| ==> r[i] == LowerChar(s[i])
  {
    seq(|s|, i requires 0 <= i < |s| => LowerChar(s[i]))
  }

  lemma LowerConcat(a: string, b: string)
    ensures Lower(a + b) == Lower(a) + Lower(b)
  {
  }

  // ---------------------------------------------------------------------
  // Prefixes and substrings
  // ---------------------------------------------------------------------

  predicate StartsWith(s: string, prefix: string) {
    |prefix| <= |s| && s[..|prefix|] == prefix
  }

  /** `sub in s` / `s.includes(sub)`. */
  predicate Contains(s: string, sub: string)
    decreases |s|
  {
    StartsWith(s, sub) || (s != [] && Contains(s[1..], sub))
  }

  lemma {:induction false} ContainsSlice(s: string, a: nat, b: nat)
    requires a <= b <= |s|
    ensures Contains(s, s[a..b])
    decreases a
  {
    if a > 0 {
      ContainsSlice(s[1..], a - 1, b - 1);
      assert s[1..][a - 1..b - 1] == s[a..b];
    }
  }

  // ---------------------------------------------------------------------
  // Stripping
  // ---------------------------------------------------------------------

  predicate AllSpace(s: string, space: char -> bool) {
    forall i :: 0 <= i < |s| ==> space(s[i])
  }

  /** Removes leading and trailing characters of the class `space`
      (Python `str.strip()` with `IsPySpace`, JavaScript `trim` with
      `IsJsSpace`). */
  function Strip(s: string, space: char -> bool): (r: string)
    ensures |r| <= |s|
    decreases |s|
  {
    if s == [] then []
    else if space(s[0]) then Strip(s[1..], space)
    else if space(s[|s| - 1]) then Strip(s[..|s| - 1], space)
    else s
  }

  /** A piece of a text is also a piece of any longer text it starts. */
  lemma {:induction false} ContainsExtend(p: string, q: string, sub: string)
    requires Contains(p, sub)
    ensures Contains(p + q, sub)
    decreases |p|
  {
    if StartsWith(p, sub) {
      assert (p + q)[..|sub|] == p[..|sub|];
    } else {
      ContainsExtend(p[1..], q, sub);
      assert (p + q)[1..] == p[1..] + q;
    }
  }

  /** Stripping leaves nothing exactly when the text is all space. */
  lemma {:induction false} StripEmpty(s: string, space: char -> bool)
    ensures Strip(s, space) == [] <==> AllSpace(s, space)
    decreases |s|
  {
    if s == [] {
    } else if space(s[0]) {
      StripEmpty(s[1..], space);
      assert AllSpace(s, space) <==> AllSpace(s[1..], space) by {
        if AllSpace(s[1..], space) {
          forall i | 0 <= i < |s|
            ensures space(s[i])
          {
            if i > 0 {
              assert s[i] == s[1..][i - 1];
            }
          }
        }
      }
    } else if space(s[|s| - 1]) {
      var p := s[..|s| - 1];
      StripEmpty(p, space);
      assert !AllSpace(s, space) && !AllSpace(p, space) by {
        assert !space(s[0]) && p[0] == s[0];
      }
    } else {
      assert !AllSpace(s, space);
    }
  }

  /** What stripping keeps neither starts nor ends with a space. */
  lemma {:induction false} StripEnds(s: string, space: char -> bool)
    ensures Strip(s, space) != [] ==> !space(Strip(s, space)[0]) && !space(Strip(s, space)[|Strip(s, space)| - 1])
    decreases |s|
  {
    if s == [] {
    } else if space(s[0]) {
      StripEnds(s[1..], space);
    } else if space(s[|s| - 1]) {
      StripEnds(s[..|s| - 1], space);
    }
  }

  /** What stripping keeps is a piece of the text. */
  lemma {:induction false} StripContained(s: string, space: char -> bool)
    ensures Contains(s, Strip(s, space))
    decreases |s|
  {
    if s == [] {
      assert StartsWith(s, []);
    } else if space(s[0]) {
      StripContained(s[1..], space);
      assert Contains(s, Strip(s[1..], space));
    } else if space(s[|s| - 1]) {
      var p := s[..|s| - 1];
      StripContained(p, space);
      ContainsExtend(p, [s[|s| - 1]], Strip(p, space));
      assert p + [s[|s| - 1]] == s;
    } else {
      assert s[..|s|] == s;
    }
  }

  /** Stripping removes only space: the text is what it keeps with a run
      of space `pre` before and a run of space `post` after. */
  lemma {:induction false} StripTrims(s: string, space: char -> bool) returns (pre: string, post: string)
    ensures s == pre + Strip(s, space) + post
    ensures AllSpace(pre, space) && AllSpace(post, space)
    decreases |s|
  {
    var r := Strip(s, space);
    if s == [] {
      pre, post := [], [];
    } else if space(s[0]) {
      var p0, q0 := StripTrims(s[1..], space);
      pre, post := [s[0]] + p0, q0;
      assert s == [s[0]] + s[1..];
      forall i | 0 <= i < |pre| ensures space(pre[i]) {
        if i > 0 { assert pre[i] == p0[i - 1]; }
      }
    } else if space(s[|s| - 1]) {
      var p0, q0 := StripTrims(s[..|s| - 1], space);
      pre, post := p0, q0 + [s[|s| - 1]];
      assert s == s[..|s| - 1] + [s[|s| - 1]];
      forall i | 0 <= i < |post| ensures space(post[i]) {
        if i < |q0| { assert post[i] == q0[i]; }
      }
    } else {
      pre, post := [], [];
    }
  }

  /** What stripping keeps: nothing exactly when the text is all space,
      otherwise a piece of the text that neither starts nor ends with a
      space. */
  lemma StripSpec(s: string, space: char -> bool)
    ensures Strip(s, space) == [] <==> AllSpace(s, space)
    ensures Strip(s, space) != [] ==> !space(Strip(s, space)[0]) && !space(Strip(s, space)[|Strip(s, space)| - 1])
    ensures Contains(s, Strip(s, space))
    ensures exists pre, post :: s == pre + Strip(s, space) + post && AllSpace(pre, space) && AllSpace(post, space)
  {
    var pre, post := StripTrims(s, space);
    StripEmpty(s, space);
    StripEnds(s, space);
    StripContained(s, space);
  }

  // ---------------------------------------------------------------------
  // Splitting
  // ---------------------------------------------------------------------

  predicate NoSpace(s: string) {
    forall i :: 0 <= i < |s| ==> !IsPySpace(s[i])
  }

  /** Python's `str.split()` with no argument: maximal runs of non-space
      characters, no empty fields. `cur` is the field being collected. */
  function SplitFrom(s: string, cur: string): (r: seq<string>)
    requires NoSpace(cur)
    ensures forall i :: 0 <= i < |r| ==> r[i] != [] && NoSpace(r[i])
    decreases |s|
  {
    if s == [] then
      (if cur == [] then [] else [cur])
    else if IsPySpace(s[0]) then
      (if cur == [] then SplitFrom(s[1..], []) else [cur] + SplitFrom(s[1..], []))
    else
      SplitFrom(s[1..], cur + [s[0]])
  }

  function SplitWhitespace(s: string): (r: seq<string>)
    ensures forall i :: 0 <= i < |r| ==> r[i] != [] && NoSpace(r[i])
  {
    SplitFrom(s, [])
  }

  lemma {:induction false} SplitFromWord(w: string, rest: string, cur: string)
    requires NoSpace(cur) && NoSpace(w)
    ensures SplitFrom(w + rest, cur) == SplitFrom(rest, cur + w)
    decreases |w|
  {
    if w == [] {
      assert w + rest == rest;
      assert cur + w == cur;
    } else {
      assert (w + rest)[0] == w[0];
      assert (w + rest)[1..] == w[1..] + rest;
      SplitFromWord(w[1..], rest, cur + [w[0]]);
      assert cur + [w[0]] + w[1..] == cur + w;
    }
  }

  /** A single whitespace-free word splits to itself. */
  lemma SplitWord(w: string)
    requires w != [] && NoSpace(w)
    ensures SplitWhitespace(w) == [w]
  {
    SplitFromWord(w, [], []);
    assert w + [] == w;
    assert [] + w == w;
  }

  /** `"<scheme> <word>".split()` yields exactly the two words. */
  lemma SplitTwoWords(a: string, b: string)
    requires a != [] && NoSpace(a) && b != [] && NoSpace(b)
    ensures SplitWhitespace(a + " " + b) == [a, b]
  {
    SplitFromWord(a, " " + b, []);
    assert a + " " + b == a + (" " + b);
    assert [] + a == a;
    assert (" " + b)[1..] == b;
    SplitWord(b);
  }

  /** Joins fields with a separator; the inverse of `SplitOn`. */
  function Join(parts: seq<string>, sep: char): string
    requires |parts| >= 1
  {
    if |parts| == 1 then parts[0] else parts[0] + [sep] + Join(parts[1..], sep)
  }

  function IndexOf(s: string, c: char): (i: nat)
    requires c in s
    ensures i < |s| && s[i] == c && c !in s[..i]
  {
    if s[0] == c then 0
    else
      var k := IndexOf(s[1..], c);
      assert s[..k + 1] == [s[0]] + s[1..][..k];
      k + 1
  }

  /** `s.split(sep)` for a one-character separator, in Python and in
      JavaScript: empty fields are kept, so there is always one more field
      than there are separators. */
  function SplitOn(s: string, sep: char): (r: seq<string>)
    ensures |r| >= 1
    ensures forall i :: 0 <= i < |r| ==> sep !in r[i]
    decreases |s|
  {
    if sep !in s then [s]
    else
      var i := IndexOf(s, sep);
      [s[..i]] + SplitOn(s[i + 1..], sep)
  }

  lemma {:induction false} SplitOnJoin(s: string, sep: char)
    ensures Join(SplitOn(s, sep), sep) == s
    decreases |s|
  {
    if sep in s {
      var i := IndexOf(s, sep);
      var rest := SplitOn(s[i + 1..], sep);
      SplitOnJoin(s[i + 1..], sep);
      var r := [s[..i]] + rest;
      assert SplitOn(s, sep) == r;
      assert |r| > 1 && r[0] == s[..i] && r[1..] == rest;
      assert Join(r, sep) == s[..i] + [sep] + Join(rest, sep);
      assert s == s[..i] + [sep] + s[i + 1..];
    } else {
      assert SplitOn(s, sep) == [s];
    }
  }

  /** The first field of a split is the text before the first separator. */
  lemma SplitOnPrefix(word: string, rest: string, sep: char)
    requires sep !in word
    ensures SplitOn(word + [sep] + rest, sep) == [word] + SplitOn(rest, sep)
  {
    var s := word + [sep] + rest;
    assert s[|word|] == sep;
    var i := IndexOf(s, sep);
    assert i == |word|;
    assert s[..i] == word;
    assert s[i + 1..] == rest;
  }

  // ---------------------------------------------------------------------
  // Decimal rendering (`str(n)` / `f"{n}"`)
  // ---------------------------------------------------------------------

  function DigitChar(d: nat): (c: char)
    requires d < 10
    ensures IsAsciiDigit(c)
  {
    ('0' as int + d) as char
  }

  function NatToString(n: nat): (s: string)
    ensures |s| >= 1
    ensures forall i :: 0 <= i < |s| ==> IsAsciiDigit(s[i])
    decreases n
  {
    if n < 10 then [DigitChar(n)] else NatToString(n / 10) + [DigitChar(n % 10)]
  }

  /** Distinct numbers render as distinct strings. */
  lemma {:induction false} NatToStringInjective(a: nat, b: nat)
    requires NatToString(a) == NatToString(b)
    ensures a == b
    decreases a
  {
    var sa, sb := NatToString(a), NatToString(b);
    if a < 10 && b < 10 {
      assert DigitChar(a) == sa[0] == sb[0] == DigitChar(b);
    } else if a < 10 || b < 10 {
      // one rendering has a single digit, the other at least two
      assert false;
    } else {
      assert sa[..|sa| - 1] == NatToString(a / 10);
      assert sb[..|sb| - 1] == NatToString(b / 10);
      NatToStringInjective(a / 10, b / 10);
      assert DigitChar(a % 10) == sa[|sa| - 1] == sb[|sb| - 1] == DigitChar(b % 10);
    }
  }
}

=== FILE: users.dfy ===
/** The `User` record of the authentication app and the methods it carries:
    name helpers and the two single-use secrets (email verification and
    password reset), each a token plus an expiry that are written and
    cleared together. Time is an integer count of seconds; `now` is always
    an explicit argument. The random token is supplied by the caller
    (`newToken`), standing for `uuid4()`. */
module Users {
  import opened Wrappers
  import opened Text

  /** `timezone.timedelta(hours=24)` and `timezone.timedelta(hours=1)`. */
  const VerificationTtl: int := 24 * 60 * 60
  const ResetTtl: int := 60 * 60

  /** A token column and its expiry column (both nullable). */
  datatype Secret = Secret(token: Option<string>, expires: Option<int>)

  const Cleared: Secret := Secret(None, None)

  datatype User = User(
    id: nat,
    email: string,
    username: string,
    firstName: string,
    lastName: string,
    phoneNumber: Option<string>,
    isActive: bool,
    isEmailVerified: bool,
    verification: Secret,
    reset: Secret,
    passwordHash: string)

  /** The token and its expiry are either both set or both null. */
  predicate Paired(s: Secret) {
    s.token.Some? <==> s.expires.Some?
  }

  predicate SecretsPaired(u: User) {
    Paired(u.verification) && Paired(u.reset)
  }

  /** The match rule shared by `verify_email` and
      `verify_password_reset_token`: same token, an expiry is present, and
      the expiry is strictly later than `now`. */
  predicate Accepts(s: Secret, token: string, now: int) {
    s.token == Some(token) && s.expires.Some? && s.expires.value > now
  }

  // ---------------------------------------------------------------------
  // Name helpers
  // ---------------------------------------------------------------------

  function GetFullName(u: User): string {
    if u.firstName != "" && u.lastName != "" then u.firstName + " " + u.lastName
    else if u.firstName != "" then u.firstName
    else if u.lastName != "" then u.lastName
    else u.username
  }

  function GetShortName(u: User): string {
    if u.firstName != "" then u.firstName else u.username
  }

  function IsVerified(u: User): bool {
    u.isEmailVerified
  }

  function DisplayName(u: User): string {
    var full := GetFullName(u);
    if full != "" then full else u.username
  }

  /** The full name is built from the name parts when there are any, and
      is the username only when both parts are empty. */
  lemma FullNameParts(u: User)
    ensures u.firstName != "" ==> StartsWith(GetFullName(u), u.firstName)
    ensures u.firstName != "" && u.lastName != "" ==> GetFullName(u) == u.firstName + " " + u.lastName
    ensures u.firstName != "" && u.lastName == "" ==> GetFullName(u) == u.firstName
    ensures u.firstName == "" && u.lastName != "" ==> GetFullName(u) == u.lastName
    ensures GetFullName(u) == u.username <== u.firstName == "" && u.lastName == ""
    ensures u.firstName != "" || u.lastName != "" ==> GetFullName(u) != ""
  {
  }

  /** The short name starts the full name, except for a user with only a
      last name: the short name is then the username. */
  lemma ShortNameStartsFullName(u: User)
    ensures u.firstName != "" || u.lastName == "" ==> StartsWith(GetFullName(u), GetShortName(u))
    ensures u.firstName == "" && u.lastName != "" ==> GetShortName(u) == u.username
  {
  }

  /** The `or self.username` fallback of `display_name` never fires: the
      full name already falls back to the username. */
  lemma DisplayNameIsFullName(u: User)
    ensures DisplayName(u) == GetFullName(u)
  {
  }

  // ---------------------------------------------------------------------
  // Email verification secret
  // ---------------------------------------------------------------------

  /** `generate_verification_token`: stores `newToken` with expiry now + 24h
      and returns it. */
  function GenerateVerificationToken(u: User, newToken: string, now: int): (r: (User, string))
    ensures r.1 == newToken
    ensures Accepts(r.0.verification, newToken, now)
    ensures r.0.verification.expires == Some(now + VerificationTtl)
    ensures Paired(r.0.verification)
    ensures r.0 == u.(verification := r.0.verification)
  {
    (u.(verification := Secret(Some(newToken), Some(now + VerificationTtl))), newToken)
  }

  /** `verify_email`: on a match, marks the address verified and clears
      the secret; otherwise changes nothing. */
  function VerifyEmail(u: User, token: string, now: int): (r: (User, bool))
    ensures r.1 <==> Accepts(u.verification, token, now)
    ensures r.1 ==> r.0 == u.(isEmailVerified := true, verification := Cleared)
    ensures !r.1 ==> r.0 == u
  {
    if Accepts(u.verification, token, now) then
      (u.(isEmailVerified := true, verification := Cleared), true)
    else
      (u, false)
  }

  /** A freshly issued token verifies at every instant before its expiry,
      and at none from the expiry on. */
  lemma IssueThenVerify(u: User, newToken: string, issued: int, now: int)
    ensures var v := VerifyEmail(GenerateVerificationToken(u, newToken, issued).0, newToken, now);
            v.1 <==> now < issued + VerificationTtl
  {
  }

  /** Replay: a second use of a token that just succeeded fails. */
  lemma VerifyEmailSingleUse(u: User, token: string, now: int, later: int)
    requires VerifyEmail(u, token, now).1
    ensures !VerifyEmail(VerifyEmail(u, token, now).0, token, later).1
  {
  }

  /** Reissue: once a different token has been issued, the earlier one no
      longer verifies. */
  lemma ReissueInvalidates(u: User, first: string, second: string, t1: int, t2: int, now: int)
    requires first != second
    ensures var u1 := GenerateVerificationToken(u, first, t1).0;
            var u2 := GenerateVerificationToken(u1, second, t2).0;
            !VerifyEmail(u2, first, now).1
  {
  }

  // ---------------------------------------------------------------------
  // Password reset secret
  // ---------------------------------------------------------------------

  /** `generate_password_reset_token`: stores `newToken` with expiry now + 1h. */
  function GeneratePasswordResetToken(u: User, newToken: string, now: int): (r: (User, string))
    ensures r.1 == newToken
    ensures r.0.reset.expires == Some(now + ResetTtl)
    ensures Accepts(r.0.reset, newToken, now)
    ensures Paired(r.0.reset)
    ensures r.0 == u.(reset := r.0.reset)
  {
    (u.(reset := Secret(Some(newToken), Some(now + ResetTtl))), newToken)
  }

  /** `verify_password_reset_token`: the same match rule, read-only. */
  function VerifyPasswordResetToken(u: User, token: string, now: int): (ok: bool)
    ensures ok ==> u.reset.token == Some(token)
    ensures ok ==> u.reset.expires.Some? && now < u.reset.expires.value
    ensures !ok ==> !Accepts(u.reset, token, now)
  {
    Accepts(u.reset, token, now)
  }

  function ClearPasswordResetToken(u: User): (r: User)
    ensures r.reset == Cleared
    ensures r == u.(reset := Cleared)
    ensures forall t, now :: !VerifyPasswordResetToken(r, t, now)
  {
    u.(reset := Cleared)
  }

  /** The reset secret lives one hour: accepted strictly before
      issue + 1h, rejected from then on, and rejected after clearing. */
  lemma ResetTokenLifetime(u: User, newToken: string, issued: int, now: int)
    ensures var u1 := GeneratePasswordResetToken(u, newToken, issued).0;
            && (VerifyPasswordResetToken(u1, newToken, now) <==> now < issued + ResetTtl)
            && !VerifyPasswordResetToken(ClearPasswordResetToken(u1), newToken, now)
  {
  }

  /** Every secret operation keeps token and expiry paired. */
  lemma SecretOpsKeepPairing(u: User, newToken: string, token: string, now: int)
    requires SecretsPaired(u)
    ensures SecretsPaired(GenerateVerificationToken(u, newToken, now).0)
    ensures SecretsPaired(VerifyEmail(u, token, now).0)
    ensures SecretsPaired(GeneratePasswordResetToken(u, newToken, now).0)
    ensures SecretsPaired(ClearPasswordResetToken(u))
  {
  }

  // ---------------------------------------------------------------------
  // The user table: `id`, `email` and `username` are unique columns
  // ---------------------------------------------------------------------

  predicate UniqueIds(users: seq<User>) {
    forall i, j :: 0 <= i < j < |users| ==> users[i].id != users[j].id
  }

  /** `User.objects.get(id=...)`, with `DoesNotExist` as `None`. */
  function FindById(users: seq<User>, id: int): (r: Option<User>)
    ensures r.Some? ==> r.value in users && r.value.id == id
    ensures r.None? <==> forall i :: 0 <= i < |users| ==> users[i].id != id
  {
    if users == [] then None
    else if users[0].id == id then Some(users[0])
    else FindById(users[1..], id)
  }

  /** With unique ids, looking up a row's id yields that row. */
  lemma {:induction false} FindByIdUnique(users: seq<User>, k: nat)
    requires UniqueIds(users) && k < |users|
    ensures FindById(users, users[k].id) == Some(users[k])
  {
    if k > 0 {
      FindByIdUnique(users[1..], k - 1);
    }
  }

  /** `User.objects.get(email=...)`: exact, case-sensitive match. */
  function FindByEmail(users: seq<User>, email: string): (r: Option<User>)
    ensures r.Some? ==> r.value in users && r.value.email == email
    ensures r.None? <==> forall i :: 0 <= i < |users| ==> users[i].email != email
  {
    if users == [] then None
    else if users[0].email == email then Some(users[0])
    else FindByEmail(users[1..], email)
  }
}

=== FILE: wrappers.dfy ===
/** Failure-compatible wrappers shared by every module of the model:
    `Option` stands for Python's `None`/JavaScript's `null`, `Result` for a
    value-or-exception return. */
module Wrappers {

  datatype Option<+T> = None | Some(value: T) {

    predicate IsFailure() {
      None?
    }

    function PropagateFailure<U>(): Option<U>
      requires None?
    {
      None
    }

    function Extract(): T
      requires Some?
    {
      value
    }

    function GetOr(default: T): T {
      match this
      case Some(v) => v
      case None => default
    }
  }

  datatype Result<+R, +E> = Success(value: R) | Failure(error: E) {

    predicate IsFailure() {
      Failure?
    }

    function PropagateFailure<U>(): Result<U, E>
      requires Failure?
    {
      Failure(error)
    }

    function Extract(): R
      requires Success?
    {
      value
    }
  }
}
